=== FILE: README.md ===
# Happy Delivery client, modelled in Dafny

Happy Delivery is a peer-to-peer delivery web client. A **sender** posts a
request: an item, a phone number, an amount, a time limit, and pickup and
drop-off points chosen on a map. A **delivery partner** near the pickup
accepts the request. The partner then uploads a photo of the item, and the
sender verifies it. The partner uploads a proof-of-delivery photo, and the
sender confirms receipt or opens a dispute. Finally the sender rates the
partner. The two parties negotiate the price in a chat, where one pins an
amount and the other confirms it. All state lives in a hosted database (the
`deliveries`, `users`, `chats` and `messages` tables). The client reads it
through a thin helper layer and realtime change feeds.

The model keeps every handler's decisions and leaves out the React machinery.
Each handler is a pure function. Its inputs are the current state, the
answers of the database or backend (`Write` = `Done`/`Failed(message)`,
`Result` = `Ok`/`Err`), the user's answers to dialogs (`bool`) and the clock
(`int` milliseconds). Its output is the next state, the write it asked for,
the alerts it showed (the sender, chat, form and completion handlers) and
where it navigated. A guard that hides a control
and the handler behind it form one function returning `Option`: `None`
means the control is not shown. JavaScript's truthiness, `||`, `??`,
`parseInt`, `trim`, `Math.floor` and `%` are written out in `Js`,
`JsStrings` and `Completion`.

Modules, in dependency order:

- `Js`, `JsStrings`, `Seqs`: option/result types, JavaScript truthiness and
  string helpers, filtering and a descending sort on sequences.
- `Deliveries`: the delivery row, its status column and the update helper.
- `Persistence`: the `db` helpers of `src/utils/supabase.js`.
- `SenderView`, `PartnerView`: the sender's and partner's tracking pages.
- `Lifecycle`: every sender and partner action composed on one stored row.
- `Chat`, `Negotiation`, `ChatPanel`: the chat component (messages, names,
  the optimistic send, the pinned amount).
- `RequestForm`: the sender's request form.
- `Completion`: the completion screen (duration and rating).
- `Profile`: the profile statistics and the recent list.
- `DeliveryMap`, `MapPicker`, `Geocoding`: the map, the location picker and
  the rate-limited geocoder.
- `Rewards`: the rewards page.

## Model

| member | source | states |
|---|---|---|
| Deliveries.ParseStatus | src/pages/Sender.jsx:187-212 | A status read back from the column is the one whose stored name it is; unknown names have no status |
| Deliveries.ParseWireName | src/pages/Sender.jsx:187-212 | Every one of the nine statuses survives a write and a read of the `status` column |
| Deliveries.Update | src/utils/supabase.js:74-83 | A successful update sets exactly the fields present in the updates object and stamps `updated_at`; every other column is unchanged |
| Deliveries.UpdateIdempotent | src/utils/supabase.js:74-83 | Sending the same updates twice at the same time equals sending them once |
| Deliveries.UpdateEmpty | src/utils/supabase.js:74-83 | An empty updates object only stamps `updated_at` |
| Persistence.UpdateUser | src/utils/supabase.js:43-52 | A profile update replaces only the present fields, keeps id and reward points, and stamps `updated_at` |
| Persistence.GetOrNull | src/utils/supabase.js:25-33 | A `.maybeSingle()` lookup: the no-rows code PGRST116 yields null, any other error is raised, exactly one match is returned |
| Persistence.GetUser | src/utils/supabase.js:25-33 | The user returned has the asked id and is in the table; the one matching row is returned; an absent id gives null; an error is raised exactly for a failure other than PGRST116 |
| Persistence.FilterNoneWhenAbsent | src/utils/supabase.js:25-33 | When no row has the id, the filter that feeds `.maybeSingle()` is empty |
| Persistence.GetBySender | src/utils/supabase.js:84-92 | Exactly the sender's rows (none lost, none invented), newest first |
| Persistence.GetByPartner | src/utils/supabase.js:93-101 | Exactly the partner's rows, newest first |
| Persistence.GetActiveBySender | src/utils/supabase.js:102-111 | Exactly the sender's rows in pending, accepted, picked_up or in_transit, newest first |
| Persistence.GetActiveByPartner | src/utils/supabase.js:112-121 | Exactly the partner's rows in accepted, picked_up or in_transit, newest first; never a delivered row |
| Persistence.GetActiveByPartnerIntended | src/pages/DeliveryPartner.jsx:37-40 | Corrected query: the partner's rows in any status the partner page watches, delivered included |
| Persistence.SortedSelection | src/utils/supabase.js:84-121 | A filtered selection ordered by `created_at` descending holds every match and nothing else |
| Persistence.GetNearby | src/utils/supabase.js:122-144 | Exactly the pending rows without a partner whose pickup lies within the radius (10 by default) of the point |
| Persistence.GetChatByDelivery | src/utils/supabase.js:157-165 | The chat returned belongs to the delivery; the one matching chat is returned; an absent chat gives null; an error is raised exactly for a failure other than PGRST116 |
| Persistence.UpdateChat | src/utils/supabase.js:175-184 | Only the matching chat row's amount and stamp change; the row returned is the updated one, or none when the id is absent |
| Persistence.FirstUpdated | src/utils/supabase.js:175-184 | Selecting the updated row by id finds a row exactly when the chat existed |
| Persistence.AddMessage | src/utils/supabase.js:185-196 | The inserted message carries the chat id, sender, content and system flag given, and the database's id and time |
| Persistence.GetMessages | src/utils/supabase.js:197-205 | Exactly the chat's messages, oldest first |
| SenderView.AcceptItemPatch | src/pages/Sender.jsx:60-66 | Accepting the item writes picked_up, the verified flag and its time, and nothing else |
| SenderView.VerifyItem | src/pages/Sender.jsx:55-80 | Offered only for an accepted row with an item photo; accept moves it to picked_up, reject writes only the accepted status and keeps the photo, a failure changes nothing |
| SenderView.VerifyItemIntended | src/pages/Sender.jsx:67-72 | Corrected rejection: also clears the item photo, so the verification panel closes |
| SenderView.ConfirmPatch | src/pages/Sender.jsx:88-91 | Confirmation writes completed and `completed_at` only |
| SenderView.ConfirmFallbackPatch | src/pages/Sender.jsx:100-103 | The retry writes completed and `delivered_at` only |
| SenderView.ConfirmFailedAlert | src/pages/Sender.jsx:106-109 | The alert carries the error text, or "Unknown error" when it is empty |
| SenderView.ConfirmDelivery | src/pages/Sender.jsx:83-112 | Offered only for a delivered row with a proof photo; completes and navigates on success; retries with `delivered_at` only when the error mentions `completed_at`; otherwise one alert and no change |
| SenderView.Dispute | src/pages/Sender.jsx:115-134 | Nothing happens unless confirmed; then only the status becomes disputed; a failure changes nothing; never navigates |
| SenderView.CancelPrompt | src/pages/Sender.jsx:142-151 | The emergency prompt exactly for picked_up and in_transit |
| SenderView.CancelReason | src/pages/Sender.jsx:158-162 | The emergency reason exactly for picked_up and in_transit |
| SenderView.SenderCancel | src/pages/Sender.jsx:137-173 | The button shows for every status but completed and cancelled; a request is sent only when signed in, cancellable and confirmed; other statuses are refused with an alert; success goes home |
| SenderView.CancelLabel | src/pages/Sender.jsx:348-352 | "Emergency Cancel" exactly while in transit, "Cancel Delivery" exactly when accepted, otherwise "Cancel Request" |
| SenderView.StatusText | src/pages/Sender.jsx:201-213 | Only picked_up, which has no text entry, falls back to its raw name |
| SenderView.PanelsAgree | src/pages/Sender.jsx:275-342 | The chat hides exactly for pending and cancelled, the cancel button exactly for completed and cancelled, and verification and confirmation never show together |
| SenderView.CancelShownButRefused | src/pages/Sender.jsx:137-151 | The cancel button shows but refuses exactly for delivered, disputed and verified |
| PartnerView.FindActive | src/pages/DeliveryPartner.jsx:37-40 | The first row in a watched status, none exactly when no row is watched |
| PartnerView.CheckActive | src/pages/DeliveryPartner.jsx:34-44 | Without a user or on a failed poll the view is unchanged; otherwise the active delivery is the found row |
| PartnerView.PollActive | src/pages/DeliveryPartner.jsx:34-44 | The active row found via `getActiveByPartner` is the partner's and in an active status; none exactly when there is no such row |
| PartnerView.PollActiveIntended | src/pages/DeliveryPartner.jsx:34-44 | The same poll over the corrected query: any watched status, delivered included |
| PartnerView.DeliveredNeverPolled | src/pages/DeliveryPartner.jsx:38 | The poll as written never yields a delivered row |
| PartnerView.DeliveredRowDropped | src/utils/supabase.js:117 | A delivered row is lost by the query as written and kept by the corrected one |
| PartnerView.FetchNearby | src/pages/DeliveryPartner.jsx:52-72 | Without a location or on error the list is kept; otherwise it is the reply, an empty reply giving [] |
| PartnerView.AcceptRequestFor | src/pages/DeliveryPartner.jsx:88-91 | The accept body carries the partner's name or "Delivery Partner", and the phone or "" |
| PartnerView.Accept | src/pages/DeliveryPartner.jsx:83-108 | Offered only with a selected request; no profile, no request; success makes the row active as accepted by this partner and clears the selection; failure changes nothing |
| PartnerView.ItemPhotoPatch | src/pages/DeliveryPartner.jsx:140-142 | The item upload writes the photo URL only |
| PartnerView.ProofPatch | src/pages/DeliveryPartner.jsx:185-199 | The proof upload writes the photo URL, delivered and `delivered_at` only |
| PartnerView.UploadedUrl | src/pages/DeliveryPartner.jsx:134-138 | An upload counts only if the server returned a truthy URL |
| PartnerView.ItemUpload | src/pages/DeliveryPartner.jsx:111-153 | Offered only at step 1; without a URL nothing is written; the status never changes; failure keeps the view |
| PartnerView.MarkDelivered | src/pages/DeliveryPartner.jsx:156-208 | Offered only at step 2; writes the proof patch for a returned URL; failure keeps the view |
| PartnerView.StepsExclusive | src/pages/DeliveryPartner.jsx:315-375 | The partner page shows at most one of its four step panels, and for an accepted row exactly one of upload or waiting |
| PartnerView.CancelPrompt | src/pages/DeliveryPartner.jsx:215-219 | The emergency prompt exactly for picked_up and in_transit |
| PartnerView.CancelReason | src/pages/DeliveryPartner.jsx:226-228 | The emergency reason exactly for picked_up and in_transit |
| PartnerView.CancelLabel | src/pages/DeliveryPartner.jsx:381 | "Emergency Cancel" exactly while in transit, otherwise "Cancel Delivery" |
| PartnerView.CancelDelivery | src/pages/DeliveryPartner.jsx:211-247 | Offered only for a shown cancel button; a request carries the status's reason and is sent only when signed in and confirmed; only success clears the active delivery |
| Lifecycle.Step | src/pages/DeliveryPartner.jsx:83-108 | No action changes the row's id or sender; accept changes a row exactly when it is pending and unassigned, making it accepted by that partner; cancel changes a row exactly when the calling page may cancel its status, and then only sets cancelled |
| Lifecycle.Run | src/pages/Sender.jsx:55-173 | A run of actions never changes the row's id or sender; no actions leave the row |
| Lifecycle.Edge | src/pages/Sender.jsx:137-151 | No status moves to itself, completed, cancelled and disputed have no way out, and nothing moves into pending, in_transit or verified |
| Lifecycle.StepFollowsEdges | src/pages/Sender.jsx:55-134 | With every guard read from the stored row, every sender or partner action keeps the status or moves it along one of the lifecycle's edges |
| Lifecycle.TerminalStays | src/pages/Sender.jsx:83-173 | With every guard read from the stored row, completed, cancelled and disputed rows never change status again |
| Lifecycle.StepNeverInTransit | src/pages/DeliveryPartner.jsx:156-208 | No action writes in_transit or verified |
| Lifecycle.RunNeverInTransit | src/pages/DeliveryPartner.jsx:156-208 | No run of actions from a row outside those statuses ever reaches them |
| Lifecycle.StepKeepsItemPhoto | src/pages/Sender.jsx:67-72 | No action clears an item photo once stored |
| Lifecycle.RunKeepsItemPhoto | src/pages/Sender.jsx:67-72 | No run of actions clears an item photo once stored |
| Lifecycle.RejectionStrandsPartner | src/pages/Sender.jsx:67-72 | After a rejection as written, the sender is offered verification again and the partner is never offered step 1 again |
| Lifecycle.IntendedRejectionReopensUpload | src/pages/Sender.jsx:67-72 | After the corrected rejection, the partner is offered the upload again, and a new photo reopens verification |
| Lifecycle.VerifiedOnlyWithPhoto | src/pages/Sender.jsx:55-66 | With the guard read from the stored row, an item becomes verified only from an accepted row with an item photo, and lands in picked_up |
| Lifecycle.SenderPatch | src/pages/Sender.jsx:55-134 | The patch a sender action sends, decided on the page's copy: verification's accept or reject patch when offered and written, the confirm patch or its `delivered_at` retry, the dispute patch when confirmed |
| Lifecycle.StaleStep | src/utils/supabase.js:74-83 | An action whose guard is read from the page's copy and whose patch lands on the stored row by id; with a fresh copy it is `Step`, and accept and cancel are unaffected |
| Lifecycle.StaleProofRevivesCancelled | src/pages/DeliveryPartner.jsx:156-199 | A proof upload decided on a copy showing picked_up moves a cancelled stored row to delivered, which no edge allows |
| Lifecycle.StaleVerifyRevivesCancelled | src/pages/Sender.jsx:55-66 | An item accept decided on a copy showing the photo waiting makes a cancelled stored row picked_up and verified |
| Lifecycle.HappyPath | src/pages/Sender.jsx:55-112 | Accept, item photo, verification, proof photo and confirmation take a created row to completed with both photos and both times |
| Lifecycle.FailedWriteChangesNothing | src/pages/DeliveryPartner.jsx:146-149 | A failed write leaves the stored row as it was |
| Chat.OwnName | src/components/ChatInterface.jsx:88 | The user's own name, or "You"; never empty |
| Chat.BatchIds | src/components/ChatInterface.jsx:55-59 | Distinct ids of exactly the other users who sent a non-system message |
| Chat.BatchNames | src/components/ChatInterface.jsx:62-80 | The name map holds exactly the returned ids, each with a non-empty name |
| Chat.BatchNamesValues | src/components/ChatInterface.jsx:73-75 | Every returned id is named by its last row's `full_name`, or "User" |
| Chat.ResolveName | src/components/ChatInterface.jsx:83-91 | "System" for system rows, the own name for the user, else the batch name, the cached name, or "User" |
| Chat.BatchCoversLookups | src/components/ChatInterface.jsx:55-91 | Every name looked up in the batch map was asked for in the batch |
| Chat.ToMessage | src/components/ChatInterface.jsx:92-99 | A stored row becomes a listed message with the same id, sender, text, time and kind |
| Chat.LoadMessages | src/components/ChatInterface.jsx:83-101 | One listed message per row, in order, each with its resolved name |
| Chat.ReloadMessages | src/components/ChatInterface.jsx:314-323 | The reload after a pin resolves names with no batch and no cache |
| Chat.FirstFrom | src/components/ChatInterface.jsx:141 | The first listed message of the sender, none exactly when there is none |
| Chat.RealtimeInsert | src/components/ChatInterface.jsx:125-177 | A known id leaves the list unchanged; otherwise the message is appended with the first listed name of its sender; a follow-up lookup is asked for exactly for unnamed other users |
| Chat.NameFromList | src/components/ChatInterface.jsx:141-142 | The name taken for an inserted row comes from the sender's first listed message, system or not |
| Chat.InsertNamedSystem | src/components/ChatInterface.jsx:141-142 | A user's message after their own pin note is listed under "System" |
| Chat.FirstUserFrom | src/components/ChatInterface.jsx:141 | Corrected lookup: the first non-system message of the sender |
| Chat.RealtimeInsertIntended | src/components/ChatInterface.jsx:125-177 | The insert using the corrected lookup; otherwise as written |
| Chat.IntendedNeverBorrowsSystem | src/components/ChatInterface.jsx:141-142 | With the corrected lookup, a user message is never named "System" |
| Chat.Rename | src/components/ChatInterface.jsx:158-167 | Only the message with the id is renamed; the list keeps its length and order |
| Chat.FollowUp | src/components/ChatInterface.jsx:154-173 | A cached name renames at once; else a fetched truthy name renames and is cached; else nothing changes |
| Chat.InsertThenFollowUp | src/components/ChatInterface.jsx:136-173 | After an insert from an unlisted other user and its lookup, only the inserted message is renamed: to the cached name, else the fetched truthy name, else the name it was inserted with |
| Chat.TempMessage | src/components/ChatInterface.jsx:230-238 | The optimistic entry is pending, non-system, and under the user's own name |
| Chat.DropTemp | src/components/ChatInterface.jsx:249 | Removes exactly the optimistic entry, keeping every other message |
| Chat.FailedSendRestores | src/components/ChatInterface.jsx:275-278 | A failed send leaves the list as it was before the optimistic entry |
| Chat.ManualFallback | src/components/ChatInterface.jsx:252-273 | The manual copy is appended only when no own message with that text lies within five seconds |
| Chat.NoDuplicateAfterEcho | src/components/ChatInterface.jsx:252-273 | When the realtime echo arrived in time, the fallback adds no second copy |
| Negotiation.LoadPin | src/components/ChatInterface.jsx:44-49 | A truthy stored amount loads as a confirmed pin; otherwise the pin is kept |
| Negotiation.RemoteUpdate | src/components/ChatInterface.jsx:202-210 | A non-null amount replaces the amount and keeps confirmation and pinner; null changes nothing |
| Negotiation.Pinned | src/components/ChatInterface.jsx:306-310 | A pin is unconfirmed and records its pinner |
| Negotiation.Confirmed | src/components/ChatInterface.jsx:351-354 | Confirmation keeps the amount and pinner |
| Negotiation.PinThenConfirm | src/components/ChatInterface.jsx:434-446 | The pinner never sees confirm for their own pin, the other user does, and a confirmed pin hides the input |
| Negotiation.LoadedIsFinal | src/components/ChatInterface.jsx:44-49 | A loaded non-zero amount shows neither the confirm button nor the pin input |
| Negotiation.ConfirmImpliesInput | src/components/ChatInterface.jsx:434-446 | The confirm button only shows alongside the pin input |
| Negotiation.ConfirmationNotPropagated | src/components/ChatInterface.jsx:202-210 | The pinner's panel still shows the pin input after the other user confirms |
| Negotiation.RemoteKeepsStatus | src/components/ChatInterface.jsx:205-209 | Remote updates never change confirmation or pinner |
| ChatPanel.LoadChat | src/components/ChatInterface.jsx:31-105 | No chat leaves the panel; a chat sets id and pin; loaded rows replace the list, one message per row named from the batch names (asked only when another user wrote) and the cache, and the batch names join the cache |
| ChatPanel.ListRows | src/components/ChatInterface.jsx:52-101 | The rows listed with names from the batch (asked only when another user wrote) and the cache, and the batch names added to the cache; nothing else in the panel changes |
| ChatPanel.OnInsert | src/components/ChatInterface.jsx:136-152 | A known id leaves the panel; otherwise only the list grows by the row's message at the end |
| ChatPanel.OnChatUpdate | src/components/ChatInterface.jsx:202-210 | Only the pin changes |
| ChatPanel.BeginSend | src/components/ChatInterface.jsx:221-239 | A send starts only for non-blank text, no send in flight and a chat; the input is cleared and the trimmed text is listed as pending |
| ChatPanel.SentDraft | src/components/ChatInterface.jsx:242-246 | A typed message is stored as a non-system message from the user with the typed text |
| ChatPanel.FinishSend | src/components/ChatInterface.jsx:248-281 | The optimistic entry is removed either way; an alert exactly on failure |
| ChatPanel.FailedSendKeepsList | src/components/ChatInterface.jsx:221-282 | A failed send ends with the list as before and the input cleared |
| ChatPanel.PinNote | src/components/ChatInterface.jsx:299-303 | The pin note is a system message from the user that starts with their name (or "User") and ends with the amount |
| ChatPanel.ConfirmNote | src/components/ChatInterface.jsx:344-348 | The confirm note is a system message from the user that reads "Final agreed amount: Rs. " then the amount |
| ChatPanel.AfterReload | src/components/ChatInterface.jsx:314-326 | A failed reload keeps the panel; otherwise only the list is replaced, one message per row, every other user named "User" |
| ChatPanel.PinAmount | src/components/ChatInterface.jsx:285-331 | Behind the pin input; an invalid input only alerts; success pins, clears the input and reloads; any failed write leaves the panel and alerts |
| ChatPanel.ConfirmAmount | src/components/ChatInterface.jsx:334-374 | Behind the confirm button; without a chat nothing happens; success confirms the pinned amount and reloads; failure leaves the panel |
| ChatPanel.PinAndConfirmAcrossPanels | src/components/ChatInterface.jsx:285-374 | One user pins; the other panel receives the amount, is offered confirmation, confirms and writes back the same amount; the pinner is never offered confirmation of their own pin |
| RequestForm.InitialForm | src/components/DeliveryRequestForm.jsx:14-22 | An empty form whose phone is prefilled from the profile |
| RequestForm.Validate | src/components/DeliveryRequestForm.jsx:41-74 | An error per failing field with its message, each field checked on its own; never a submit error |
| RequestForm.ValidIffAcceptable | src/components/DeliveryRequestForm.jsx:72-73 | The form is valid exactly when every input is acceptable |
| RequestForm.PhoneIgnoresSeparators | src/components/DeliveryRequestForm.jsx:48-52 | Ten digits pass the phone check whatever separator is typed between them |
| RequestForm.ClearError | src/components/DeliveryRequestForm.jsx:33-38 | A shown error of the edited field becomes empty; no other entry changes |
| RequestForm.Change | src/components/DeliveryRequestForm.jsx:26-38 | Only the edited input takes the new value, and only its error is cleared |
| RequestForm.TimeLimitValue | src/components/DeliveryRequestForm.jsx:187 | An unparseable or zero limit becomes 60; never zero |
| RequestForm.TimeLimitRoundTrip | src/components/DeliveryRequestForm.jsx:187 | A non-zero limit typed as its decimal form is stored as typed |
| RequestForm.NewRow | src/components/DeliveryRequestForm.jsx:181-199 | The inserted row is a fresh pending request with the form's values and no partner, photos or times |
| RequestForm.SubmitForm | src/components/DeliveryRequestForm.jsx:76-211 | Invalid forms send nothing; a row is inserted exactly for located endpoints and a session; success navigates to the new request; every later failure shows the one submit error |
| Completion.JsRem | src/pages/CompletionScreen.jsx:97 | JavaScript's remainder takes the dividend's sign and agrees with flooring for non-negative operands |
| Completion.DurationText | src/pages/CompletionScreen.jsx:89-103 | "N/A" without both times; otherwise a text ending in "m" |
| Completion.DurationHoursMinutes | src/pages/CompletionScreen.jsx:95-100 | h hours, m minutes and seconds show as "<h>h <m>m" |
| Completion.DurationMinutes | src/pages/CompletionScreen.jsx:95-102 | Under an hour, the whole minutes alone |
| Completion.DurationNegative | src/pages/CompletionScreen.jsx:94-102 | A completion up to a minute before creation shows "-1m" |
| Completion.RatingPatch | src/pages/CompletionScreen.jsx:56-58 | The rating write holds the rating alone |
| Completion.SubmitRating | src/pages/CompletionScreen.jsx:47-75 | A zero rating is refused without a write; otherwise the rating is written and the page thanks and goes home, or alerts and stays |
| Completion.RatingWriteOnlyRating | src/pages/CompletionScreen.jsx:56-58 | Storing a rating changes the rating and the update stamp only |
| Completion.SubmittedRatingInRange | src/pages/CompletionScreen.jsx:177-185 | Whatever stars were clicked, a written rating is between 1 and 5 |
| Completion.RatingSections | src/pages/CompletionScreen.jsx:171-222 | Exactly one of the form and the stored rating shows, and a stored picked rating hides the form |
| Profile.CompletedCapped | src/pages/Profile.jsx:22-27 | The first five completed rows of the list, in their order (all of them when there are five or fewer) |
| Profile.SumBounds | src/pages/Profile.jsx:35-40 | The sum of star ratings lies between the count and five times the count |
| Profile.NoneRated | src/pages/Profile.jsx:35-40 | The count is zero exactly when no row has a truthy rating |
| Profile.ComputeStats | src/pages/Profile.jsx:30-51 | Both totals are the capped counts; the average is the mean of the truthy ratings on the capped partner rows (its product with their count is their sum), 0 when none is rated |
| Profile.AverageInRange | src/pages/Profile.jsx:47-51 | The average is 0 exactly when nothing is rated, and otherwise between 1 and 5 |
| Profile.Candidates | src/pages/Profile.jsx:33-45 | The capped partner rows tagged as partner, followed by the capped sender rows tagged as sender |
| Profile.RecentList | src/pages/Profile.jsx:53-60 | At most five candidates, newest first, all completed, none repeated more often than among the candidates; any candidate left out is no newer than any kept |
| DeliveryMap.FromRow | src/components/DeliveryMap.jsx:54-85 | A database row reaches the map flat, without nested locations |
| DeliveryMap.Normalize | src/components/DeliveryMap.jsx:54-85 | Normalised records pass through; others need truthy source coordinates (flat `??` nested), and then get the source location with its address or "", a destination whose falsy coordinates fall back to the source's with its address or "", the item name or "Item", the flat amount or time limit when truthy, else the camel-case ones; nothing else changes |
| DeliveryMap.NormalizeIdempotent | src/components/DeliveryMap.jsx:54-85 | Normalising twice is normalising once |
| DeliveryMap.RowNormalized | src/components/DeliveryMap.jsx:54-85 | A row is drawn exactly when both source coordinates are non-zero, and its zero destination coordinates fall back to the source |
| DeliveryMap.MarkerIffNormalized | src/components/DeliveryMap.jsx:162-165 | A delivery marker is drawn exactly when normalisation succeeds |
| DeliveryMap.DefaultCentre | src/components/DeliveryMap.jsx:88-91 | The default centre always has coordinates |
| DeliveryMap.InitialCentre | src/components/DeliveryMap.jsx:93-95 | The user's location, else the partner's, else the default |
| DeliveryMap.EffectCentre | src/components/DeliveryMap.jsx:97-106 | The partner's location with coordinates, else the user's, else the default |
| DeliveryMap.ValidCentre | src/components/DeliveryMap.jsx:109-111 | The current centre with coordinates, else the default |
| DeliveryMap.CentreAlwaysValid | src/components/DeliveryMap.jsx:97-111 | Once the effect ran, the map centre always has coordinates |
| DeliveryMap.PartnerHiddenAtUser | src/components/DeliveryMap.jsx:131-146 | A partner where the user stands gets no second marker |
| DeliveryMap.RouteForRow | src/components/DeliveryMap.jsx:213-219 | A selected row's route is drawn exactly when its source has non-zero coordinates |
| MapPicker.InitialMode | src/components/MapPicker.jsx:67 | Source mode unless the prop says otherwise |
| MapPicker.Select | src/components/MapPicker.jsx:84-91 | A source click sets the source and moves to destination mode; a destination click sets the destination |
| MapPicker.Toggle | src/components/MapPicker.jsx:99-110 | Only the mode changes, and the next click sets the chosen endpoint |
| MapPicker.Clicks | src/components/MapPicker.jsx:84-91 | After clicks each handled once the previous lookup resolved, from source mode, the first click is the source and the last of two or more is the destination |
| MapPicker.FirstClickIsSource | src/components/MapPicker.jsx:67-91 | From a fresh picker, two or more clicks handled in turn set source and destination to the first and last |
| MapPicker.SelectCaptured | src/components/MapPicker.jsx:50-56 | A click's handler acts on the mode of the render it was clicked in: source mode sets the source and moves to destination mode, destination mode sets the destination |
| MapPicker.OverlappingClicks | src/components/MapPicker.jsx:50-56 | Two clicks in source mode whose lookups overlap both set the source, the later wins, and the destination stays as it was, unlike two clicks handled in turn |
| MapPicker.InitialCentre | src/components/MapPicker.jsx:78-82 | The centre prop with coordinates, else the source with coordinates, else the default |
| MapPicker.ClickedPlace | src/components/MapPicker.jsx:53-56 | A click keeps its coordinates and takes the geocoded address, else the coordinates as text |
| MapPicker.ClickAddressNonEmpty | src/components/MapPicker.jsx:53-56 | A clicked point always gets a non-empty address |
| MapPicker.ClickedPlaceFromReverse | src/components/MapPicker.jsx:53-56 | A click whose reverse lookup fails or has no display name gets "lat, lng"; otherwise it gets the display name |
| MapPicker.UpdaterViews | src/components/MapPicker.jsx:36-48 | The updater recentres at most once, on the first centre with coordinates |
| Geocoding.Wait | src/utils/geocoding.js:9-18 | The wait is never negative and starts the request at least a second after the last |
| Geocoding.Starts | src/utils/geocoding.js:9-18 | Successive sequential requests start at least a second apart and never before they arrive |
| Geocoding.StartsSpread | src/utils/geocoding.js:9-18 | Requests i and j start at least (j-i) seconds apart |
| Geocoding.City | src/utils/geocoding.js:37 | City, else town, else village |
| Geocoding.Reverse | src/utils/geocoding.js:21-48 | A result exactly for a successful reply with a body and address parts, carrying its display name, city, state, country and postcode; null otherwise |
| Geocoding.Forward | src/utils/geocoding.js:51-79 | One hit per item, in order, with latitude and longitude parsed from `lat` and `lon`, and display name, city, state and country, for a reply whose items all carry address parts; [] on error |
| Rewards.Label | src/pages/Rewards.jsx:101-103 | "Insufficient Points" exactly when redeeming is disabled, else "Redeem" |
| Rewards.DisplayedBalance | src/pages/Rewards.jsx:45 | The balance shown, 0 without a profile or points |
| Rewards.DisabledMatchesBalance | src/pages/Rewards.jsx:45-98 | For a signed-in user, redeeming is disabled exactly when the shown balance is below the cost |
| Rewards.CheaperStaysEnabled | src/pages/Rewards.jsx:98 | A reward no dearer than a redeemable one is redeemable |
| Rewards.Redeemable | src/pages/Rewards.jsx:98 | Exactly the catalogue entries whose button is enabled |
| Rewards.BalanceOf150 | src/pages/Rewards.jsx:7-32 | A balance of 150 enables the 100 and 150 rewards only |

## Left out

- Authentication and session bootstrap (`AuthContext.jsx`): the signed-in user, profile and session checks are inputs.
- Network, storage uploads, timers and realtime subscriptions: each reply is a parameter; the one-second fallback delay and the five-second window are modelled as times passed in.
- The backend endpoints for accept and cancel: their code is not part of this model, so `Lifecycle.Step` assumes their effect on the row (accepted with the partner id; cancelled) and also assumes that they refuse a row that, as stored, is not pending and unassigned (accept), not in a cancellable status (sender cancel) or not in an active status (partner cancel). The pages decide on their local copy of the row (Sender.jsx:138-151, DeliveryPartner.jsx:211-229); `Lifecycle.TerminalStays` and `Lifecycle.StepFollowsEdges` rely on the assumed refusal for these two actions.
- Lifecycle.StepFollowsEdges, Lifecycle.TerminalStays, Lifecycle.VerifiedOnlyWithPhoto: these read every direct write's guard from the current stored row. The pages read it from their own copy, polled every ten seconds (Sender.jsx:49, DeliveryPartner.jsx:47), and an upload may take up to thirty seconds (DeliveryPartner.jsx:175), while `db.deliveries.update` matches the row by id alone. With a copy one poll old, a write can move a cancelled row to delivered or picked_up: `Lifecycle.StaleStep` models this, and `Lifecycle.StaleProofRevivesCancelled` and `Lifecycle.StaleVerifyRevivesCancelled` exhibit it.
- PartnerView: the partner page's alerts (DeliveryPartner.jsx:94, 104, 144, 149, 191, 204, 233, 245) are not returned by its handlers; only the view and the write are modelled.
- MapPicker.Clicks: clicks are applied one after another, each once the previous click's reverse lookup resolved; overlapping clicks, whose handlers read the mode of the render they were clicked in, are modelled separately by `MapPicker.OverlappingClicks`.
- MapPicker.FirstClickIsSource: holds for clicks handled in turn; two overlapping first clicks both set the source (`MapPicker.OverlappingClicks`).
- The Haversine distance and number formatting: the distance, JavaScript's number-to-text and `parseFloat` are function parameters.
- Dates are integer milliseconds; ISO text parsing is not modelled.
- The form's number inputs are `Option<real>` (empty or a number); text that is not a number is not modelled.
- The optional feedback text on the completion screen is never stored and is not modelled.
- The home page, navigation, image upload widget, socket helper and geolocation hook are not part of this model.
- Profile.ComputeStats: the average is exact; the page's rounding to one decimal (`toFixed(1)`) is not modelled.
- Profile.RecentList: ties in the sort key may come out in any order; the page's stable sort order among equal dates is not stated.
- Chat.TempMessage: message ids are abstract (`TempId`, `ManualId`, `RowId`), so a clash between a generated id and a database id is not modelled.
- Geocoding.Starts: concurrent callers sharing the last-request time are not modelled; requests are taken one after another.
- Persistence.GetNearby: the distance filter uses the distance function given, not a fixed formula.

## Findings

| source | as written | input that shows it | evidently intended | confidence | as-written member | corrected member |
|---|---|---|---|---|---|---|
| src/pages/Sender.jsx:67-72 | Rejecting the item photo writes only `{status: 'accepted'}` and keeps `item_photo_url` | An accepted row with an item photo, rejected by the sender: the partner's page (which offers the upload only while there is no photo, DeliveryPartner.jsx:315) never offers it again, and the sender is asked to verify the same photo again | Rejection clears the photo so the partner can upload a new one | not executed | Lifecycle.RejectionStrandsPartner | SenderView.VerifyItemIntended |
| src/utils/supabase.js:117 | `getActiveByPartner` selects accepted, picked_up and in_transit only | A partner whose delivery is delivered and awaiting confirmation: the poll at DeliveryPartner.jsx:37-40, which watches delivered too, finds nothing and the active delivery disappears | The query includes delivered, as the partner page expects | not executed | PartnerView.DeliveredRowDropped | PartnerView.PollActiveIntended |
| src/components/ChatInterface.jsx:141-142 | The realtime insert takes the sender name from the first listed message of the same sender id, which may be a system note (pin notes carry the user's id) | After "Sam pinned amount" (listed as "System"), Sam's next message arrives and is listed under "System" | Take the name only from the sender's non-system messages | not executed | Chat.InsertNamedSystem | Chat.RealtimeInsertIntended |

=== FILE: chat.dfy ===
/** The message list of the chat panel (src/components/ChatInterface.jsx): how
    stored message rows become displayed messages, how sender names are
    resolved, how realtime inserts are merged, and the optimistic send with its
    temporary entry and delayed manual fallback. */
module Chat {
  import opened Js
  import opened JsStrings
  import opened Seqs
  import opened Persistence

  /** A message id: a stored row's id, or one the panel makes up from the
      clock (`temp-<ms>` for the optimistic entry, `manual-<ms>` for the
      fallback copy). Row ids never take either made-up form. */
  datatype MsgId = RowId(row: string) | TempId(at: int) | ManualId(at: int)

  /** A displayed message; `isSystem` is the `type === 'system'` flag. */
  datatype Message = Message(id: MsgId, senderId: string, senderName: string, text: string,
                             timestamp: int, isSystem: bool, pending: bool)

  /** The signed-in user as the panel sees them: id and profile name. */
  datatype Me = Me(id: string, fullName: Option<string>)

  /** `userData?.full_name || 'You'`. */
  function OwnName(me: Me): (n: string)
    ensures n != ""
    ensures StrTruthy(me.fullName) ==> n == me.fullName.value
  {
    OrDefault(me.fullName, "You")
  }

  function Lookup(m: map<string, string>, k: string): (r: Option<string>)
    ensures r.Some? <==> k in m
    ensures r.Some? ==> r.value == m[k]
  {
    if k in m then Some(m[k]) else None
  }

  predicate HasId(list: seq<Message>, id: MsgId) {
    exists i :: 0 <= i < |list| && list[i].id == id
  }

  // ----- loading -----

  /** A stored message from neither the system nor the signed-in user. */
  predicate FromOther(row: MessageRow, me: Me) {
    !row.isSystem && row.senderId != me.id
  }

  function SenderIds(rows: seq<MessageRow>): (r: seq<string>)
    ensures |r| == |rows| && forall i :: 0 <= i < |rows| ==> r[i] == rows[i].senderId
  {
    seq(|rows|, i requires 0 <= i < |rows| => rows[i].senderId)
  }

  /** The sender ids of the loaded messages from other users, in order. */
  function OtherSenders(rows: seq<MessageRow>, me: Me): (r: seq<string>)
    ensures forall i :: 0 <= i < |rows| && FromOther(rows[i], me) ==> rows[i].senderId in r
    ensures forall k :: 0 <= k < |r| ==> SentByOther(rows, me, r[k])
  {
    var others := Filter(rows, (m: MessageRow) => FromOther(m, me));
    var ids := SenderIds(others);
    OtherSendersIn(rows, me, others, ids);
    OtherSendersFrom(rows, me, others, ids);
    ids
  }

  /** Some loaded message from another user was sent by `id`. */
  predicate SentByOther(rows: seq<MessageRow>, me: Me, id: string) {
    exists i :: 0 <= i < |rows| && FromOther(rows[i], me) && rows[i].senderId == id
  }

  lemma OtherSendersIn(rows: seq<MessageRow>, me: Me, others: seq<MessageRow>, ids: seq<string>)
    requires forall i :: 0 <= i < |rows| && FromOther(rows[i], me) ==> rows[i] in others
    requires |ids| == |others| && forall j :: 0 <= j < |others| ==> ids[j] == others[j].senderId
    ensures forall i :: 0 <= i < |rows| && FromOther(rows[i], me) ==> rows[i].senderId in ids
  {
    forall i | 0 <= i < |rows| && FromOther(rows[i], me) ensures rows[i].senderId in ids {
      var j :| 0 <= j < |others| && others[j] == rows[i];
      assert ids[j] == rows[i].senderId;
    }
  }

  lemma OtherSendersFrom(rows: seq<MessageRow>, me: Me, others: seq<MessageRow>, ids: seq<string>)
    requires forall j :: 0 <= j < |others| ==> FromOther(others[j], me) && others[j] in rows
    requires |ids| == |others| && forall j :: 0 <= j < |others| ==> ids[j] == others[j].senderId
    ensures forall k :: 0 <= k < |ids| ==> SentByOther(rows, me, ids[k])
  {
    forall k | 0 <= k < |ids| ensures SentByOther(rows, me, ids[k]) {
      var i :| 0 <= i < |rows| && rows[i] == others[k];
    }
  }

  /** `uniqueSenderIds`: the distinct senders of the loaded messages whose
      names must be looked up; never the signed-in user. */
  function BatchIds(rows: seq<MessageRow>, me: Me): (r: seq<string>)
    ensures forall i, j :: 0 <= i < j < |r| ==> r[i] != r[j]
    ensures forall i :: 0 <= i < |rows| && FromOther(rows[i], me) ==> rows[i].senderId in r
    ensures forall k :: 0 <= k < |r| ==> SentByOther(rows, me, r[k]) && r[k] != me.id
  {
    var ids := OtherSenders(rows, me);
    var r := Dedupe(ids);
    assert forall k :: 0 <= k < |r| ==> r[k] in ids;
    r
  }

  /** A row of the batch name query: `id, full_name`. */
  datatype NameRow = NameRow(id: string, fullName: Option<string>)

  /** The names the batch query yields: each row's name or "User", a later
      row with the same id overriding an earlier one. */
  function BatchNames(senders: seq<NameRow>): (r: map<string, string>)
    ensures forall k :: k in r <==> Named(senders, k)
    ensures forall k :: k in r ==> r[k] != ""
    ensures |senders| > 0 ==>
      var last := senders[|senders| - 1];
      last.id in r && r[last.id] == OrDefault(last.fullName, "User")
  {
    if senders == [] then map[]
    else
      var init := senders[..|senders| - 1];
      var last := senders[|senders| - 1];
      var m := BatchNames(init);
      assert senders == init + [last];
      NamedSnoc(init, last);
      m[last.id := OrDefault(last.fullName, "User")]
  }

  /** Every returned sender is named `full_name || 'User'`, taken from the
      last row with its id. */
  lemma {:induction false} BatchNamesValues(senders: seq<NameRow>, i: int)
    requires 0 <= i < |senders|
    requires forall j :: i < j < |senders| ==> senders[j].id != senders[i].id
    ensures senders[i].id in BatchNames(senders)
    ensures BatchNames(senders)[senders[i].id] == OrDefault(senders[i].fullName, "User")
  {
    if i < |senders| - 1 {
      var init := senders[..|senders| - 1];
      assert init[i] == senders[i];
      BatchNamesValues(init, i);
    }
  }

  /** Some row of the batch has this id. */
  predicate Named(senders: seq<NameRow>, id: string) {
    exists i :: 0 <= i < |senders| && senders[i].id == id
  }

  lemma NamedSnoc(init: seq<NameRow>, last: NameRow)
    ensures forall k :: Named(init + [last], k) <==> Named(init, k) || last.id == k
  {
    var s := init + [last];
    forall k ensures Named(s, k) <==> Named(init, k) || last.id == k {
      if Named(s, k) {
        var i :| 0 <= i < |s| && s[i].id == k;
        if i < |init| { assert init[i] == s[i]; }
      }
      if Named(init, k) {
        var i :| 0 <= i < |init| && init[i].id == k;
        assert s[i] == init[i];
      }
      if last.id == k {
        assert s[|init|] == last;
      }
    }
  }

  /** The names of the batch, or none when the query failed. */
  function BatchMap(reply: Option<seq<NameRow>>): map<string, string> {
    if reply.Some? then BatchNames(reply.value) else map[]
  }

  /** The sender name of a loaded message: "System" for system messages, the
      user's own name (or "You") for their messages, otherwise the batch
      name, then the cached name, then "User". */
  function ResolveName(row: MessageRow, me: Me, batch: map<string, string>, cache: map<string, string>): (n: string)
    ensures row.isSystem ==> n == "System"
    ensures !row.isSystem && row.senderId == me.id ==> n == OwnName(me)
    ensures FromOther(row, me) && row.senderId in batch && batch[row.senderId] != "" ==> n == batch[row.senderId]
    ensures FromOther(row, me) && row.senderId !in batch && row.senderId in cache && cache[row.senderId] != "" ==>
              n == cache[row.senderId]
    ensures FromOther(row, me) && row.senderId !in batch && row.senderId !in cache ==> n == "User"
    ensures n != ""
  {
    if row.isSystem then "System"
    else if row.senderId == me.id then OwnName(me)
    else OrDefault(OrStr(Lookup(batch, row.senderId), Lookup(cache, row.senderId)), "User")
  }

  /** Every message whose name goes through the lookup maps has its sender in
      the batch query, and no other message does. */
  lemma BatchCoversLookups(rows: seq<MessageRow>, me: Me, i: int)
    requires 0 <= i < |rows|
    ensures rows[i].senderId in BatchIds(rows, me) <==> SentByOther(rows, me, rows[i].senderId)
  {
  }

  function ToMessage(row: MessageRow, name: string): (m: Message)
    ensures m.id == RowId(row.id) && m.senderId == row.senderId && m.text == row.content
    ensures m.timestamp == row.createdAt && m.isSystem == row.isSystem && !m.pending
    ensures m.senderName == name
  {
    Message(RowId(row.id), row.senderId, name, row.content, row.createdAt, row.isSystem, false)
  }

  /** `messagesWithNames`: the loaded rows, in order, with resolved names. */
  function LoadMessages(rows: seq<MessageRow>, me: Me, batch: map<string, string>, cache: map<string, string>): (r: seq<Message>)
    ensures |r| == |rows|
    ensures forall i :: 0 <= i < |rows| ==> r[i] == ToMessage(rows[i], ResolveName(rows[i], me, batch, cache))
  {
    seq(|rows|, i requires 0 <= i < |rows| => ToMessage(rows[i], ResolveName(rows[i], me, batch, cache)))
  }

  /** The name a reloaded message gets after pinning or confirming: no lookup
      at all, so every other sender is "User". */
  function ReloadName(row: MessageRow, me: Me): (n: string)
    ensures n == ResolveName(row, me, map[], map[])
  {
    if row.isSystem then "System" else if row.senderId == me.id then OwnName(me) else "User"
  }

  function ReloadMessages(rows: seq<MessageRow>, me: Me): (r: seq<Message>)
    ensures r == LoadMessages(rows, me, map[], map[])
  {
    seq(|rows|, i requires 0 <= i < |rows| => ToMessage(rows[i], ReloadName(rows[i], me)))
  }

  // ----- realtime inserts -----

  /** The name an inserted row gets before any lookup. */
  function BaseName(row: MessageRow, me: Me): (n: string)
    ensures n == ReloadName(row, me)
  {
    if row.isSystem then "System" else if row.senderId == me.id then OwnName(me) else "User"
  }

  /** `prev.find(m => m.senderId === senderId)`. */
  function FirstFrom(list: seq<Message>, senderId: string): (r: Option<Message>)
    ensures r.None? <==> forall i :: 0 <= i < |list| ==> list[i].senderId != senderId
    ensures r.Some? ==> exists i :: 0 <= i < |list| && list[i] == r.value && list[i].senderId == senderId
                                    && forall j :: 0 <= j < i ==> list[j].senderId != senderId
  {
    if list == [] then None
    else if list[0].senderId == senderId then Some(list[0])
    else
      var r := FirstFrom(list[1..], senderId);
      assert forall i :: 1 <= i < |list| ==> list[i] == list[1..][i - 1];
      r
  }

  /** The list after a realtime insert, and whether a name lookup follows. */
  datatype Inserted = Inserted(list: seq<Message>, lookup: bool)

  /** The realtime INSERT handler: a row whose id is already listed changes
      nothing; otherwise it is appended, named after the first listed message
      of the same sender if there is one, and a lookup of its sender's name
      follows when it is from another user not yet listed. */
  function RealtimeInsert(prev: seq<Message>, row: MessageRow, me: Me): (r: Inserted)
    ensures HasId(prev, RowId(row.id)) ==> r == Inserted(prev, false)
    ensures !HasId(prev, RowId(row.id)) ==>
      && |r.list| == |prev| + 1
      && r.list[..|prev|] == prev
      && r.list[|prev|] == ToMessage(row, NameFromList(prev, row, me))
      && (r.lookup <==> FromOther(row, me) && FirstFrom(prev, row.senderId).None?)
  {
    if HasId(prev, RowId(row.id)) then Inserted(prev, false)
    else
      var existing := FirstFrom(prev, row.senderId);
      var msg := ToMessage(row, NameFromList(prev, row, me));
      assert (prev + [msg])[..|prev|] == prev;
      Inserted(prev + [msg], FromOther(row, me) && existing.None?)
  }

  /** The name an inserted row takes: the first listed message of the same
      sender lends its name, whatever kind of message it is. */
  function NameFromList(prev: seq<Message>, row: MessageRow, me: Me): (n: string)
    ensures FirstFrom(prev, row.senderId).Some? ==> n == FirstFrom(prev, row.senderId).value.senderName
    ensures FirstFrom(prev, row.senderId).None? ==> n == BaseName(row, me)
  {
    var existing := FirstFrom(prev, row.senderId);
    if existing.Some? then existing.value.senderName else BaseName(row, me)
  }

  /** Pinning posts a system message under the pinner's own id, so a later
      ordinary message of that user takes the name "System". */
  lemma InsertNamedSystem(me: Me, t: int)
    requires me.fullName == Some("Sam")
    ensures
      var pinNote := Message(RowId("m1"), me.id, "System", "Sam pinned amount: Rs. 150", t, true, false);
      var hello := MessageRow("m2", "c1", me.id, "hello", false, t + 1);
      var r := RealtimeInsert([pinNote], hello, me);
      && |r.list| == 2 && !r.list[1].isSystem && r.list[1].senderName == "System"
      && RealtimeInsertIntended([pinNote], hello, me).list[1].senderName == "Sam"
  {
    var pinNote := Message(RowId("m1"), me.id, "System", "Sam pinned amount: Rs. 150", t, true, false);
    var hello := MessageRow("m2", "c1", me.id, "hello", false, t + 1);
    assert !HasId([pinNote], RowId("m2"));
    assert [pinNote][1..] == [];
    assert FirstFrom([pinNote], me.id) == Some(pinNote);
    assert FirstUserFrom([pinNote], me.id) == None by {
      assert Filter([pinNote], (m: Message) => !m.isSystem) == [] by {
        FilterNone([pinNote], (m: Message) => !m.isSystem);
      }
    }
  }

  /** The first listed ordinary (non-system) message of a sender. */
  function FirstUserFrom(list: seq<Message>, senderId: string): (r: Option<Message>)
    ensures r.Some? ==> !r.value.isSystem && r.value.senderId == senderId && r.value in list
    ensures r.None? <==> forall i :: 0 <= i < |list| ==> list[i].isSystem || list[i].senderId != senderId
  {
    var users := Filter(list, (m: Message) => !m.isSystem);
    var r := FirstFrom(users, senderId);
    r
  }

  /** The insert with the name borrowed only from ordinary messages. */
  function RealtimeInsertIntended(prev: seq<Message>, row: MessageRow, me: Me): (r: Inserted)
    ensures HasId(prev, RowId(row.id)) ==> r == Inserted(prev, false)
    ensures !HasId(prev, RowId(row.id)) ==>
      && |r.list| == |prev| + 1
      && r.list[..|prev|] == prev
      && r.list[|prev|].id == RowId(row.id) && r.list[|prev|].text == row.content
      && (FirstUserFrom(prev, row.senderId).Some? ==>
            r.list[|prev|].senderName == FirstUserFrom(prev, row.senderId).value.senderName)
      && (FirstUserFrom(prev, row.senderId).None? ==> r.list[|prev|].senderName == BaseName(row, me))
      && (r.lookup <==> FromOther(row, me) && FirstUserFrom(prev, row.senderId).None?)
  {
    if HasId(prev, RowId(row.id)) then Inserted(prev, false)
    else
      var existing := FirstUserFrom(prev, row.senderId);
      var name := if existing.Some? then existing.value.senderName else BaseName(row, me);
      var msg := ToMessage(row, name);
      assert (prev + [msg])[..|prev|] == prev;
      Inserted(prev + [msg], FromOther(row, me) && existing.None?)
  }

  /** With the intended insert, system messages never lend their name: an
      ordinary message takes the name of an ordinary one, or its own. */
  lemma IntendedNeverBorrowsSystem(prev: seq<Message>, row: MessageRow, me: Me)
    requires !HasId(prev, RowId(row.id)) && !row.isSystem
    requires forall i :: 0 <= i < |prev| ==> !prev[i].isSystem ==> prev[i].senderName != "System"
    requires row.senderId == me.id ==> OwnName(me) != "System"
    ensures RealtimeInsertIntended(prev, row, me).list[|prev|].senderName != "System"
  {
    var existing := FirstUserFrom(prev, row.senderId);
    if existing.Some? {
      var i :| 0 <= i < |prev| && prev[i] == existing.value;
    }
  }

  /** Every message with the given id takes `name`; the rest are untouched. */
  function Rename(list: seq<Message>, id: MsgId, name: string): (r: seq<Message>)
    ensures |r| == |list|
    ensures forall i :: 0 <= i < |list| ==>
      r[i] == if list[i].id == id then list[i].(senderName := name) else list[i]
  {
    seq(|list|, i requires 0 <= i < |list| => if list[i].id == id then list[i].(senderName := name) else list[i])
  }

  /** The lookup that follows an insert from an unlisted sender: a cached name
      is applied at once; otherwise the fetched profile's truthy name is cached
      and applied; a failed or nameless fetch leaves the list and the cache.
      `InsertThenFollowUp` relates it to the insert it follows. */
  function FollowUp(list: seq<Message>, row: MessageRow, cache: map<string, string>, fetched: Option<string>)
    : (r: (seq<Message>, map<string, string>))
    ensures row.senderId in cache ==> r == (Rename(list, RowId(row.id), cache[row.senderId]), cache)
    ensures row.senderId !in cache && StrTruthy(fetched) ==>
      r == (Rename(list, RowId(row.id), fetched.value), cache[row.senderId := fetched.value])
    ensures row.senderId !in cache && !StrTruthy(fetched) ==> r == (list, cache)
  {
    if row.senderId in cache then (Rename(list, RowId(row.id), cache[row.senderId]), cache)
    else if StrTruthy(fetched) then (Rename(list, RowId(row.id), fetched.value), cache[row.senderId := fetched.value])
    else (list, cache)
  }

  /** An insert from another user not yet listed, followed by its lookup:
      only the inserted message is renamed, to the cached name, else the
      fetched truthy name, else the name it was inserted with; the earlier
      messages stay as they were. */
  lemma InsertThenFollowUp(prev: seq<Message>, row: MessageRow, me: Me, cache: map<string, string>,
                           fetched: Option<string>)
    requires !HasId(prev, RowId(row.id))
    ensures var ins := RealtimeInsert(prev, row, me);
      ins.lookup ==>
        var list := FollowUp(ins.list, row, cache, fetched).0;
        var name := if row.senderId in cache then cache[row.senderId]
                    else if StrTruthy(fetched) then fetched.value
                    else NameFromList(prev, row, me);
        && |list| == |prev| + 1
        && list[..|prev|] == prev
        && list[|prev|] == ToMessage(row, name)
  {
    var ins := RealtimeInsert(prev, row, me);
    if ins.lookup {
      var list := FollowUp(ins.list, row, cache, fetched).0;
      forall i | 0 <= i < |prev| ensures list[i] == prev[i] {
        assert ins.list[i] == prev[i];
      }
    }
  }

  // ----- sending -----

  /** The Send button is enabled and the handler proceeds. */
  predicate CanSend(draft: string, sending: bool, chatId: Option<string>) {
    Trim(draft) != "" && !sending && chatId.Some?
  }

  /** The optimistic entry shown while a send is in flight. */
  function TempMessage(me: Me, text: string, now: int): (m: Message)
    ensures m.id == TempId(now) && m.pending && !m.isSystem
    ensures m.senderId == me.id && m.senderName == OwnName(me) && m.text == text && m.timestamp == now
  {
    Message(TempId(now), me.id, OwnName(me), text, now, false, true)
  }

  /** The list after the send settles, on success or failure alike: the
      optimistic entry is removed by its id. */
  function DropTemp(list: seq<Message>, now: int): (r: seq<Message>)
    ensures forall i :: 0 <= i < |r| ==> r[i].id != TempId(now) && r[i] in list
    ensures forall i :: 0 <= i < |list| && list[i].id != TempId(now) ==> list[i] in r
    ensures multiset(r) <= multiset(list)
  {
    Filter(list, (m: Message) => m.id != TempId(now))
  }

  /** A failed send leaves the list as it was before the send. */
  lemma FailedSendRestores(list: seq<Message>, me: Me, text: string, now: int)
    requires !HasId(list, TempId(now))
    ensures DropTemp(list + [TempMessage(me, text, now)], now) == list
  {
    var p := (m: Message) => m.id != TempId(now);
    FilterAll(list, p);
    FilterSnoc(list, TempMessage(me, text, now), p);
  }

  /** The window, in milliseconds, within which an own message with the same
      text counts as the realtime copy. */
  const EchoWindow := 5000

  function Abs(x: int): nat {
    if x < 0 then -x else x
  }

  /** An own message with this text and a timestamp within the window of `at`. */
  predicate Echoed(list: seq<Message>, me: Me, text: string, at: int) {
    exists i :: 0 <= i < |list| && list[i].senderId == me.id && list[i].text == text
                && Abs(list[i].timestamp - at) < EchoWindow
  }

  /** The delayed fallback run at time `at` after a successful send: if no
      realtime copy is listed, a manual copy is appended.
      `NoDuplicateAfterEcho` relates it to the realtime echo. */
  function ManualFallback(list: seq<Message>, me: Me, text: string, at: int): (r: seq<Message>)
    ensures Echoed(list, me, text, at) ==> r == list
    ensures !Echoed(list, me, text, at) ==>
      r == list + [Message(ManualId(at), me.id, OwnName(me), text, at, false, false)]
  {
    if Echoed(list, me, text, at) then list
    else list + [Message(ManualId(at), me.id, OwnName(me), text, at, false, false)]
  }

  /** When the realtime copy of the sent row arrives before the fallback runs,
      the fallback adds nothing: the message is listed exactly once. */
  lemma NoDuplicateAfterEcho(list: seq<Message>, row: MessageRow, me: Me, at: int)
    requires !HasId(list, RowId(row.id))
    requires row.senderId == me.id && !row.isSystem
    requires Abs(row.createdAt - at) < EchoWindow
    ensures
      var after := RealtimeInsert(list, row, me).list;
      ManualFallback(after, me, row.content, at) == after
  {
    var after := RealtimeInsert(list, row, me).list;
    assert after[|list|].senderId == me.id && after[|list|].text == row.content;
  }
}

=== FILE: chat_panel.dfy ===
/** The chat panel's state and handlers (src/components/ChatInterface.jsx):
    loading the chat, the realtime handlers, sending a message, pinning and
    confirming an amount. Backend calls are parameters holding their
    outcomes; the module-level name cache is passed in and out. */
module ChatPanel {
  import opened Js
  import opened JsStrings
  import opened Persistence
  import opened Chat
  import opened Negotiation

  /** The panel's state: the chat id (none until a chat exists), the listed
      messages, the pin, the message input, whether a send is in flight, and
      the amount input. */
  datatype Panel = Panel(chatId: Option<string>, messages: seq<Message>, pin: Option<Pin>,
                         draft: string, sending: bool, amountInput: Option<real>)

  const Initial := Panel(None, [], None, "", false, None)

  /** The panel and the name cache after loading. */
  datatype Loaded = Loaded(panel: Panel, cache: map<string, string>)

  /** `loadChat`. `chat` is the outcome of `chats.getByDelivery`, `rows` that of
      `getMessages`, `batch` that of the name query (none when it failed).
      Without a chat nothing changes; the batch names are added to the cache
      and the messages are listed with resolved names. */
  function LoadChat(p: Panel, me: Me, chat: Result<Option<ChatRow>>, rows: Result<seq<MessageRow>>,
                    batch: Option<seq<NameRow>>, cache: map<string, string>): (r: Loaded)
    ensures chat.Err? || chat.value.None? ==> r == Loaded(p, cache)
    ensures chat.Ok? && chat.value.Some? ==>
      && r.panel.chatId == Some(chat.value.value.id)
      && r.panel.pin == LoadPin(p.pin, chat.value.value.agreedAmount)
      && r.panel.draft == p.draft && r.panel.amountInput == p.amountInput
    ensures chat.Ok? && chat.value.Some? && rows.Err? ==> r.panel.messages == p.messages && r.cache == cache
    ensures chat.Ok? && chat.value.Some? && rows.Ok? ==>
      && |r.panel.messages| == |rows.value|
      && (forall i :: 0 <= i < |rows.value| ==> r.panel.messages[i].id == RowId(rows.value[i].id))
      && (forall k :: k in cache ==> k in r.cache)
    ensures chat.Ok? && chat.value.Some? && rows.Ok? ==>
      var names := if |BatchIds(rows.value, me)| > 0 then BatchMap(batch) else map[];
      r.panel.messages == LoadMessages(rows.value, me, names, cache + names) && r.cache == cache + names
  {
    if chat.Err? || chat.value.None? then Loaded(p, cache)
    else
      var c := chat.value.value;
      var p1 := p.(chatId := Some(c.id), pin := LoadPin(p.pin, c.agreedAmount));
      match rows
      case Err(_) => Loaded(p1, cache)
      case Ok(rs) => ListRows(p1, me, rs, batch, cache)
  }

  /** The loaded rows listed with resolved names: the batch names (asked
      for only when some other user wrote) join the cache first. */
  function ListRows(p: Panel, me: Me, rs: seq<MessageRow>, batch: Option<seq<NameRow>>,
                    cache: map<string, string>): (r: Loaded)
    ensures r.panel == p.(messages := r.panel.messages)
    ensures |r.panel.messages| == |rs|
    ensures forall i :: 0 <= i < |rs| ==> r.panel.messages[i].id == RowId(rs[i].id)
    ensures forall k :: k in cache ==> k in r.cache
    ensures |BatchIds(rs, me)| == 0 ==> r.panel.messages == LoadMessages(rs, me, map[], cache) && r.cache == cache
    ensures var names := if |BatchIds(rs, me)| > 0 then BatchMap(batch) else map[];
      r.panel.messages == LoadMessages(rs, me, names, cache + names) && r.cache == cache + names
  {
    var asked := |BatchIds(rs, me)| > 0;
    var names := if asked then BatchMap(batch) else map[];
    var cache' := cache + names;
    assert !asked ==> cache' == cache;
    var listed := LoadMessages(rs, me, names, cache');
    assert forall i :: 0 <= i < |rs| ==> listed[i].id == RowId(rs[i].id);
    Loaded(p.(messages := listed), cache')
  }

  /** The realtime INSERT handler applied to the panel. */
  function OnInsert(p: Panel, row: MessageRow, me: Me): (r: Panel)
    ensures r.(messages := p.messages) == p
    ensures HasId(p.messages, RowId(row.id)) ==> r == p
    ensures !HasId(p.messages, RowId(row.id)) ==>
      && |r.messages| == |p.messages| + 1
      && r.messages[..|p.messages|] == p.messages
      && r.messages[|p.messages|].id == RowId(row.id)
      && r.messages[|p.messages|].text == row.content
      && r.messages[|p.messages|].senderId == row.senderId
  {
    p.(messages := RealtimeInsert(p.messages, row, me).list)
  }

  /** The realtime UPDATE handler of the chat row applied to the panel. */
  function OnChatUpdate(p: Panel, agreed: Option<real>): (r: Panel)
    ensures r.(pin := p.pin) == p
    ensures r.pin == RemoteUpdate(p.pin, agreed)
  {
    p.(pin := RemoteUpdate(p.pin, agreed))
  }

  // ----- sending -----

  /** The panel once a send starts: the input is cleared, a send is in flight,
      and the optimistic entry with the trimmed text is appended. `None` when
      the send is refused (blank text, a send in flight, or no chat). */
  function BeginSend(p: Panel, me: Me, now: int): (r: Option<Panel>)
    ensures r.Some? <==> CanSend(p.draft, p.sending, p.chatId)
    ensures r.Some? ==>
      && r.value.messages == p.messages + [TempMessage(me, Trim(p.draft), now)]
      && r.value.draft == "" && r.value.sending
      && r.value.chatId == p.chatId && r.value.pin == p.pin
  {
    if !CanSend(p.draft, p.sending, p.chatId) then None
    else Some(p.(messages := p.messages + [TempMessage(me, Trim(p.draft), now)], draft := "", sending := true))
  }

  /** The row `addMessage` is asked to insert for a typed message. */
  function SentDraft(me: Me, text: string): (d: MessageDraft)
    ensures d.senderId == me.id && d.content == text && !d.isSystem
    ensures d.chatId.None?
  {
    MessageDraft(me.id, text, false, None)
  }

  /** The panel once the send started at `now` settles: the optimistic entry
      is removed whether the write succeeded or failed, and the next send is
      allowed. The returned alert is shown only on failure. */
  function FinishSend(p: Panel, now: int, write: Write): (r: (Panel, Option<string>))
    ensures r.0 == p.(messages := DropTemp(p.messages, now), sending := false)
    ensures r.1.Some? <==> write.Failed?
  {
    (p.(messages := DropTemp(p.messages, now), sending := false),
     if write.Failed? then Some("Failed to send message. Please try again.") else None)
  }

  /** A failed send leaves the message list as it was, with the input cleared. */
  lemma FailedSendKeepsList(p: Panel, me: Me, now: int, m: string)
    requires CanSend(p.draft, p.sending, p.chatId)
    requires !HasId(p.messages, TempId(now))
    ensures
      var started := BeginSend(p, me, now).value;
      var settled := FinishSend(started, now, Failed(m)).0;
      settled.messages == p.messages && settled.draft == "" && !settled.sending
  {
    FailedSendRestores(p.messages, me, Trim(p.draft), now);
  }

  // ----- pinning and confirming -----

  /** What a pin or confirm handler did: the next panel, the alert shown, the
      amount written to the chat row and the system notes posted. */
  datatype PanelStep = PanelStep(panel: Panel, alert: Option<string>, written: Option<real>, notes: seq<MessageDraft>)

  function FailedAlert(what: string, message: string): string {
    "Failed to " + what + " amount: " + OrDefault(Some(message), "Unknown error")
  }

  /** The system note posted after a pin; `amountText` is the amount as the
      page prints it. */
  function PinNote(me: Me, amountText: string): (d: MessageDraft)
    ensures d.senderId == me.id && d.isSystem && d.chatId.None?
    ensures StrTruthy(me.fullName) ==> me.fullName.value <= d.content
    ensures !StrTruthy(me.fullName) ==> "User" <= d.content
    ensures |d.content| >= |amountText| && d.content[|d.content| - |amountText|..] == amountText
  {
    MessageDraft(me.id, OrDefault(me.fullName, "User") + " pinned amount: Rs. " + amountText, true, None)
  }

  function ConfirmNote(me: Me, amountText: string): (d: MessageDraft)
    ensures d.senderId == me.id && d.isSystem && d.chatId.None?
    ensures "Final agreed amount: Rs. " <= d.content
    ensures |d.content| >= |amountText| && d.content[|d.content| - |amountText|..] == amountText
  {
    MessageDraft(me.id, "Final agreed amount: Rs. " + amountText, true, None)
  }

  /** The list after the reload that follows a pin or confirmation; a failed
      reload keeps it. */
  function AfterReload(p: Panel, me: Me, reload: Result<seq<MessageRow>>): (r: Panel)
    ensures reload.Err? ==> r == p
    ensures reload.Ok? ==> r == p.(messages := ReloadMessages(reload.value, me))
    ensures r.(messages := p.messages) == p
    ensures reload.Ok? ==> |r.messages| == |reload.value|
    ensures reload.Ok? ==> forall i :: 0 <= i < |reload.value| && FromOther(reload.value[i], me) ==>
      r.messages[i].senderName == "User"
  {
    if reload.Ok? then p.(messages := ReloadMessages(reload.value, me)) else p
  }

  /** `handlePinAmount` behind the pin input's guard (`None` when the input is
      not shown). An empty or non-positive amount, or a missing chat, is
      refused with no write. The amount is written to the chat row, then a
      system note is posted; only when both succeed does the pin become this
      user's unconfirmed pin and the input clear. */
  function PinAmount(p: Panel, me: Me, amountText: string, update: Write, add: Write,
                     reload: Result<seq<MessageRow>>): (r: Option<PanelStep>)
    ensures r.Some? <==> PinInputShown(p.pin)
    ensures r.Some? && !PinAccepted(p.amountInput, p.chatId) ==>
      r.value == PanelStep(p, Some("Please enter a valid amount"), None, [])
    ensures r.Some? && PinAccepted(p.amountInput, p.chatId) ==> r.value.written == p.amountInput
    ensures r.Some? && PinAccepted(p.amountInput, p.chatId) && update.Done? && add.Done? ==>
      && r.value.panel.pin == Some(Pinned(p.amountInput.value, me.id))
      && r.value.panel.amountInput.None?
      && r.value.notes == [PinNote(me, amountText)]
      && r.value.alert.None?
    ensures r.Some? && (update.Failed? || add.Failed?) ==> r.value.panel == p && r.value.alert.Some?
  {
    if !PinInputShown(p.pin) then None
    else if !PinAccepted(p.amountInput, p.chatId) then Some(PanelStep(p, Some("Please enter a valid amount"), None, []))
    else
      var amount := p.amountInput.value;
      match update
      case Failed(m) => Some(PanelStep(p, Some(FailedAlert("pin", m)), Some(amount), []))
      case Done =>
        match add
        case Failed(m) => Some(PanelStep(p, Some(FailedAlert("pin", m)), Some(amount), [PinNote(me, amountText)]))
        case Done =>
          var p1 := p.(pin := Some(Pinned(amount, me.id)), amountInput := None);
          Some(PanelStep(AfterReload(p1, me, reload), None, Some(amount), [PinNote(me, amountText)]))
  }

  /** `handleConfirmAmount` behind the confirm button's guard (`None` when the
      button is not shown). The pinned amount is written back unchanged and a
      system note posted; when both succeed the pin is confirmed. */
  function ConfirmAmount(p: Panel, me: Me, amountText: string, update: Write, add: Write,
                         reload: Result<seq<MessageRow>>): (r: Option<PanelStep>)
    ensures r.Some? <==> ConfirmShown(p.pin, me.id)
    ensures r.Some? && p.chatId.None? ==> r.value == PanelStep(p, None, None, [])
    ensures r.Some? && p.chatId.Some? ==> r.value.written == Some(p.pin.value.amount)
    ensures r.Some? && p.chatId.Some? && update.Done? && add.Done? ==>
      && r.value.panel.pin == Some(Confirmed(p.pin.value))
      && r.value.notes == [ConfirmNote(me, amountText)]
    ensures r.Some? && (update.Failed? || add.Failed?) && p.chatId.Some? ==> r.value.panel == p
  {
    if !ConfirmShown(p.pin, me.id) then None
    else if p.chatId.None? then Some(PanelStep(p, None, None, []))
    else
      var pin := p.pin.value;
      match update
      case Failed(m) => Some(PanelStep(p, Some(FailedAlert("confirm", m)), Some(pin.amount), []))
      case Done =>
        match add
        case Failed(m) => Some(PanelStep(p, Some(FailedAlert("confirm", m)), Some(pin.amount), [ConfirmNote(me, amountText)]))
        case Done =>
          Some(PanelStep(AfterReload(p.(pin := Some(Confirmed(pin))), me, reload), None, Some(pin.amount), [ConfirmNote(me, amountText)]))
  }

  /** Two panels negotiating: one user pins an amount, the other's panel
      receives it by a remote update, is offered the confirmation, confirms,
      and writes back the same amount; its pin is then final. */
  lemma PinAndConfirmAcrossPanels(pinner: Panel, other: Panel, a: Me, b: Me, amount: real, text: string,
                                  r1: Result<seq<MessageRow>>, r2: Result<seq<MessageRow>>)
    requires a.id != b.id
    requires pinner.amountInput == Some(amount) && amount > 0.0 && pinner.chatId.Some? && pinner.pin.None?
    requires other.pin.None? && other.chatId.Some?
    ensures
      var pinned := PinAmount(pinner, a, text, Done, Done, r1).value;
      var seen := OnChatUpdate(other, pinned.written);
      var confirmed := ConfirmAmount(seen, b, text, Done, Done, r2);
      && pinned.panel.pin == Some(Pinned(amount, a.id))
      && !ConfirmShown(pinned.panel.pin, a.id)
      && confirmed.Some?
      && confirmed.value.written == Some(amount)
      && confirmed.value.panel.pin.value.amount == amount
      && confirmed.value.panel.pin.value.confirmed
      && !PinInputShown(confirmed.value.panel.pin)
  {
  }
}

=== FILE: completion.dfy ===
/** The completion screen (src/pages/CompletionScreen.jsx): the duration
    shown for a finished delivery, and the star rating the sender submits. */
module Completion {
  import opened Js
  import opened JsStrings
  import opened Deliveries

  /** `Math.floor(a / b)` for a positive divisor. */
  function FloorDiv(a: int, b: int): (q: int)
    requires b > 0
    ensures b * q <= a < b * (q + 1)
  {
    a / b
  }

  /** JavaScript's `a % b` for a positive divisor: the remainder takes the
      sign of the dividend. */
  function JsRem(a: int, b: int): (r: int)
    requires b > 0
    ensures a >= 0 ==> 0 <= r < b
    ensures a < 0 ==> -b < r <= 0
    ensures a >= 0 ==> r == a - b * FloorDiv(a, b)
  {
    if a >= 0 then a % b else -((-a) % b)
  }

  const MsPerMinute := 60000

  /** `calculateDuration`: "N/A" unless both timestamps exist; otherwise whole
      minutes (rounded down), as hours and minutes once there is at least one
      hour. */
  function DurationText(createdAt: Option<int>, completedAt: Option<int>): (r: string)
    ensures createdAt.None? || completedAt.None? ==> r == "N/A"
    ensures createdAt.Some? && completedAt.Some? ==> |r| >= 2 && r[|r| - 1] == 'm'
  {
    if createdAt.None? || completedAt.None? then "N/A"
    else
      var minutes := FloorDiv(completedAt.value - createdAt.value, MsPerMinute);
      var hours := FloorDiv(minutes, 60);
      var remaining := JsRem(minutes, 60);
      if hours > 0 then IntToString(hours) + "h " + IntToString(remaining) + "m"
      else IntToString(minutes) + "m"
  }

  /** A delivery that took `h` hours, `m` minutes and some seconds (at least
      one hour) is shown as "<h>h <m>m". */
  lemma DurationHoursMinutes(start: int, h: int, m: int, extra: int)
    requires h > 0 && 0 <= m < 60 && 0 <= extra < MsPerMinute
    ensures DurationText(Some(start), Some(start + (h * 60 + m) * MsPerMinute + extra))
         == IntToString(h) + "h " + IntToString(m) + "m"
  {
    var minutes := FloorDiv((h * 60 + m) * MsPerMinute + extra, MsPerMinute);
    assert minutes == h * 60 + m;
    assert FloorDiv(minutes, 60) == h;
    assert JsRem(minutes, 60) == m;
  }

  /** Under an hour, the whole minutes alone are shown. */
  lemma DurationMinutes(start: int, m: int, extra: int)
    requires 0 <= m < 60 && 0 <= extra < MsPerMinute
    ensures DurationText(Some(start), Some(start + m * MsPerMinute + extra)) == IntToString(m) + "m"
  {
    var minutes := FloorDiv(m * MsPerMinute + extra, MsPerMinute);
    assert minutes == m;
  }

  /** A completion stamped before creation shows a negative count of
      minutes: rounding down makes any earlier time at least "-1m". */
  lemma DurationNegative(start: int, early: int)
    requires 0 < early <= MsPerMinute
    ensures DurationText(Some(start), Some(start - early)) == "-1m"
  {
    assert FloorDiv(-early, MsPerMinute) == -1;
  }

  // ----- rating -----

  /** The stars offered: a picked rating is one of these. */
  const Stars: seq<int> := [1, 2, 3, 4, 5]

  /** The rating held by the page after a sequence of star clicks; 0 before
      any click. */
  function Chosen(clicks: seq<int>): (r: int)
    ensures clicks == [] ==> r == 0
    ensures clicks != [] ==> r == clicks[|clicks| - 1]
  {
    if clicks == [] then 0 else clicks[|clicks| - 1]
  }

  /** A star is drawn lit when it is at most the rating. */
  predicate StarLit(star: int, rating: int) {
    star <= rating
  }

  /** The submit button is enabled once a star is picked and no submit is in flight. */
  predicate SubmitEnabled(rating: int, submitting: bool) {
    rating != 0 && !submitting
  }

  /** The write made for a rating: the rating field alone. */
  function RatingPatch(rating: int): (p: Patch)
    ensures p.rating == Some(rating)
    ensures p.(rating := None) == EmptyPatch
  {
    EmptyPatch.(rating := Some(rating))
  }

  datatype RatingOutcome = RatingOutcome(written: Option<Patch>, alert: string, leaveTo: Option<string>)

  /** `handleSubmitRating`: a rating of 0 is refused without a write;
      otherwise the rating is written, and the page thanks the sender and
      goes home, or reports the failure and stays. */
  function SubmitRating(rating: int, write: Write): (r: RatingOutcome)
    ensures r.written.Some? <==> rating != 0
    ensures r.written.Some? ==> r.written.value == RatingPatch(rating)
    ensures rating == 0 ==> r == RatingOutcome(None, "Please select a rating", None)
    ensures r.leaveTo.Some? <==> rating != 0 && write.Done?
    ensures r.leaveTo.Some? ==> r.leaveTo.value == "/"
    ensures rating != 0 && write.Done? ==> r.alert == "Thank you for your feedback!"
    ensures rating != 0 && write.Failed? ==> r.alert == "Failed to submit rating"
  {
    if rating == 0 then RatingOutcome(None, "Please select a rating", None)
    else match write
      case Done => RatingOutcome(Some(RatingPatch(rating)), "Thank you for your feedback!", Some("/"))
      case Failed(_) => RatingOutcome(Some(RatingPatch(rating)), "Failed to submit rating", None)
  }

  /** Storing a rating changes the rating and the update stamp, nothing else. */
  lemma RatingWriteOnlyRating(d: Delivery, rating: int, now: int)
    ensures Update(d, RatingPatch(rating), now) == d.(rating := Some(rating), updatedAt := Some(now))
  {
  }

  /** Whatever stars were clicked, a submitted rating is between 1 and 5. */
  lemma {:induction false} SubmittedRatingInRange(clicks: seq<int>, write: Write)
    requires forall i :: 0 <= i < |clicks| ==> clicks[i] in Stars
    ensures SubmitRating(Chosen(clicks), write).written.Some? ==> 1 <= Chosen(clicks) <= 5
  {
    if clicks != [] {
      assert clicks[|clicks| - 1] in Stars;
    }
  }

  /** The rating form is shown while the delivery has no (truthy) rating, the
      stored rating otherwise. */
  predicate RatingFormShown(d: Delivery) {
    !IntTruthy(d.rating)
  }

  predicate StoredRatingShown(d: Delivery) {
    IntTruthy(d.rating)
  }

  /** Exactly one of the form and the stored rating is shown, and once a
      picked rating is stored the form is gone. */
  lemma RatingSections(d: Delivery, clicks: seq<int>, now: int)
    requires forall i :: 0 <= i < |clicks| ==> clicks[i] in Stars
    requires clicks != []
    ensures RatingFormShown(d) != StoredRatingShown(d)
    ensures StoredRatingShown(Update(d, SubmitRating(Chosen(clicks), Done).written.value, now))
  {
    assert clicks[|clicks| - 1] in Stars;
  }
}

=== FILE: delivery.dfy ===
/** The delivery row as the client reads and writes it, its lifecycle status,
    and the partial update that `db.deliveries.update` sends
    (src/utils/supabase.js). */
module Deliveries {
  import opened Js

  /** The lifecycle status column. `Verified` is never written; it only has a
      label in the sender view. */
  datatype Status =
    | Pending | Accepted | PickedUp | InTransit | Delivered
    | Completed | Cancelled | Disputed | Verified

  /** The string stored in the `status` column. */
  function WireName(s: Status): string {
    match s
    case Pending => "pending"
    case Accepted => "accepted"
    case PickedUp => "picked_up"
    case InTransit => "in_transit"
    case Delivered => "delivered"
    case Completed => "completed"
    case Cancelled => "cancelled"
    case Disputed => "disputed"
    case Verified => "verified"
  }

  /** Reading a `status` column back; an unknown string has no status. */
  function ParseStatus(name: string): (r: Option<Status>)
    ensures r.Some? ==> WireName(r.value) == name
  {
    if name == "pending" then Some(Pending)
    else if name == "accepted" then Some(Accepted)
    else if name == "picked_up" then Some(PickedUp)
    else if name == "in_transit" then Some(InTransit)
    else if name == "delivered" then Some(Delivered)
    else if name == "completed" then Some(Completed)
    else if name == "cancelled" then Some(Cancelled)
    else if name == "disputed" then Some(Disputed)
    else if name == "verified" then Some(Verified)
    else None
  }

  /** Every status survives a write and a read of the column. */
  lemma ParseWireName(s: Status)
    ensures ParseStatus(WireName(s)) == Some(s)
  {
  }

  /** A point chosen on the map, with the address reverse geocoding gave it. */
  datatype Place = Place(lat: real, lng: real, address: string)

  /** A `deliveries` row. Timestamps are milliseconds; `None` is SQL null. */
  datatype Delivery = Delivery(
    id: string,
    senderId: string,
    partnerId: Option<string>,
    itemName: string,
    phone: string,
    amount: real,
    timeLimit: int,
    source: Place,
    destination: Place,
    distance: real,
    status: Status,
    itemPhotoUrl: Option<string>,
    deliveryPhotoUrl: Option<string>,
    itemVerified: bool,
    itemVerifiedAt: Option<int>,
    deliveredAt: Option<int>,
    completedAt: Option<int>,
    createdAt: Option<int>,
    updatedAt: Option<int>,
    rating: Option<int>)

  /** The `updates` object handed to `db.deliveries.update`: only the present
      fields are sent. The client never sends a photo URL of null. */
  datatype Patch = Patch(
    status: Option<Status>,
    itemVerified: Option<bool>,
    itemVerifiedAt: Option<int>,
    itemPhotoUrl: Option<string>,
    deliveryPhotoUrl: Option<string>,
    deliveredAt: Option<int>,
    completedAt: Option<int>,
    rating: Option<int>)

  const EmptyPatch := Patch(None, None, None, None, None, None, None, None)

  function SetStatus(s: Status): Patch {
    EmptyPatch.(status := Some(s))
  }

  /** The row after `db.deliveries.update(id, updates)` succeeds: the present
      fields of the patch replace the row's, `updated_at` is stamped with the
      current time, and every other column keeps its value. */
  function Update(d: Delivery, p: Patch, now: int): (r: Delivery)
    ensures r.updatedAt == Some(now)
    ensures r.status == p.status.GetOr(d.status)
    ensures r.itemVerified == p.itemVerified.GetOr(d.itemVerified)
    ensures r.itemVerifiedAt == Coalesce(p.itemVerifiedAt, d.itemVerifiedAt)
    ensures r.itemPhotoUrl == Coalesce(p.itemPhotoUrl, d.itemPhotoUrl)
    ensures r.deliveryPhotoUrl == Coalesce(p.deliveryPhotoUrl, d.deliveryPhotoUrl)
    ensures r.deliveredAt == Coalesce(p.deliveredAt, d.deliveredAt)
    ensures r.completedAt == Coalesce(p.completedAt, d.completedAt)
    ensures r.rating == Coalesce(p.rating, d.rating)
    ensures r.(updatedAt := d.updatedAt, status := d.status, itemVerified := d.itemVerified,
               itemVerifiedAt := d.itemVerifiedAt, itemPhotoUrl := d.itemPhotoUrl,
               deliveryPhotoUrl := d.deliveryPhotoUrl, deliveredAt := d.deliveredAt,
               completedAt := d.completedAt, rating := d.rating) == d
  {
    d.(status := p.status.GetOr(d.status),
       itemVerified := p.itemVerified.GetOr(d.itemVerified),
       itemVerifiedAt := if p.itemVerifiedAt.Some? then p.itemVerifiedAt else d.itemVerifiedAt,
       itemPhotoUrl := if p.itemPhotoUrl.Some? then p.itemPhotoUrl else d.itemPhotoUrl,
       deliveryPhotoUrl := if p.deliveryPhotoUrl.Some? then p.deliveryPhotoUrl else d.deliveryPhotoUrl,
       deliveredAt := if p.deliveredAt.Some? then p.deliveredAt else d.deliveredAt,
       completedAt := if p.completedAt.Some? then p.completedAt else d.completedAt,
       rating := if p.rating.Some? then p.rating else d.rating,
       updatedAt := Some(now))
  }

  /** Sending the same updates twice at the same time is the same as sending them once. */
  lemma UpdateIdempotent(d: Delivery, p: Patch, now: int)
    ensures Update(Update(d, p, now), p, now) == Update(d, p, now)
  {
  }

  /** An empty update only stamps `updated_at`. */
  lemma UpdateEmpty(d: Delivery, now: int)
    ensures Update(d, EmptyPatch, now) == d.(updatedAt := Some(now))
  {
  }
}

=== FILE: delivery_map.dfy ===
/** The delivery map (src/components/DeliveryMap.jsx): normalising a record
    that may come straight from the database (flat coordinates) or already
    normalised (nested locations), choosing the map centre, and deciding
    which markers are drawn. */
module DeliveryMap {
  import opened Js
  import opened Deliveries

  /** A nested location object; each part may be missing. */
  datatype Loc = Loc(lat: Option<real>, lng: Option<real>, address: Option<string>)

  /** A delivery record as the map receives it: the database's flat fields
      and the normalised nested ones side by side, each possibly missing. */
  datatype MapRecord = MapRecord(
    id: string,
    sourceLat: Option<real>, sourceLng: Option<real>,
    destLat: Option<real>, destLng: Option<real>,
    sourceAddress: Option<string>, destAddress: Option<string>,
    itemNameField: Option<string>, amountField: Option<real>, timeLimitField: Option<int>,
    sourceLocation: Option<Loc>, destinationLocation: Option<Loc>,
    itemName: Option<string>, deliveryAmount: Option<real>, timeLimit: Option<int>)

  /** A database row as the map receives it. */
  function FromRow(d: Delivery): (r: MapRecord)
    ensures r.sourceLocation.None? && r.destinationLocation.None?
    ensures r.sourceLat == Some(d.source.lat) && r.sourceLng == Some(d.source.lng)
  {
    MapRecord(d.id, Some(d.source.lat), Some(d.source.lng), Some(d.destination.lat), Some(d.destination.lng),
              Some(d.source.address), Some(d.destination.address),
              Some(d.itemName), Some(d.amount), Some(d.timeLimit), None, None, None, None, None)
  }

  /** `a || b` on optional integers. */
  function OrInt(a: Option<int>, b: Option<int>): (r: Option<int>)
    ensures IntTruthy(a) ==> r == a
    ensures !IntTruthy(a) ==> r == b
  {
    if IntTruthy(a) then a else b
  }

  /** `o?.lat`, `o?.lng`, `o?.address`. */
  function LatOf(o: Option<Loc>): Option<real> { if o.Some? then o.value.lat else None }
  function LngOf(o: Option<Loc>): Option<real> { if o.Some? then o.value.lng else None }
  function AddressOf(o: Option<Loc>): Option<string> { if o.Some? then o.value.address else None }

  /** The record already carries a nested source with a truthy latitude. */
  predicate AlreadyNormal(m: MapRecord) {
    NumTruthy(LatOf(m.sourceLocation))
  }

  /** `normalizeDelivery`. Records already normalised are returned as they
      are; otherwise the source coordinates (flat first, then nested) must
      both be truthy, the destination falls back to the source, the item name
      to "Item" and the addresses to "". */
  function Normalize(o: Option<MapRecord>): (r: Option<MapRecord>)
    ensures o.None? ==> r.None?
    ensures o.Some? && AlreadyNormal(o.value) ==> r == o
    ensures o.Some? && !AlreadyNormal(o.value) ==>
      (r.Some? <==> NumTruthy(Coalesce(o.value.sourceLat, LatOf(o.value.sourceLocation)))
                    && NumTruthy(Coalesce(o.value.sourceLng, LngOf(o.value.sourceLocation))))
    ensures r.Some? ==> AlreadyNormal(r.value) && r.value.id == o.value.id
    ensures r.Some? && !AlreadyNormal(o.value) ==>
      && NumTruthy(LatOf(r.value.destinationLocation)) == NumTruthy(LatOf(r.value.sourceLocation))
      && NumTruthy(LngOf(r.value.destinationLocation))
      && NumTruthy(LngOf(r.value.sourceLocation))
      && StrTruthy(r.value.itemName)
      && AddressOf(r.value.sourceLocation).Some? && AddressOf(r.value.destinationLocation).Some?
    ensures r.Some? && !AlreadyNormal(o.value) ==>
      var m := o.value;
      var sLat := Coalesce(m.sourceLat, LatOf(m.sourceLocation));
      var sLng := Coalesce(m.sourceLng, LngOf(m.sourceLocation));
      var dLat := Coalesce(m.destLat, LatOf(m.destinationLocation));
      var dLng := Coalesce(m.destLng, LngOf(m.destinationLocation));
      && LatOf(r.value.sourceLocation) == sLat && LngOf(r.value.sourceLocation) == sLng
      && AddressOf(r.value.sourceLocation) == Some(OrDefault(OrStr(m.sourceAddress, AddressOf(m.sourceLocation)), ""))
      && LatOf(r.value.destinationLocation) == (if NumTruthy(dLat) then dLat else sLat)
      && LngOf(r.value.destinationLocation) == (if NumTruthy(dLng) then dLng else sLng)
      && AddressOf(r.value.destinationLocation) == Some(OrDefault(OrStr(m.destAddress, AddressOf(m.destinationLocation)), ""))
      && r.value.itemName == Some(OrDefault(OrStr(m.itemNameField, m.itemName), "Item"))
      && r.value.deliveryAmount == (if NumTruthy(m.amountField) then m.amountField else m.deliveryAmount)
      && r.value.timeLimit == (if IntTruthy(m.timeLimitField) then m.timeLimitField else m.timeLimit)
    ensures r.Some? && !AlreadyNormal(o.value) ==>
      var m := o.value;
      r.value.(sourceLocation := m.sourceLocation, destinationLocation := m.destinationLocation,
               itemName := m.itemName, deliveryAmount := m.deliveryAmount, timeLimit := m.timeLimit) == m
  {
    if o.None? then None
    else
      var m := o.value;
      if AlreadyNormal(m) then o
      else
        var sLat := Coalesce(m.sourceLat, LatOf(m.sourceLocation));
        var sLng := Coalesce(m.sourceLng, LngOf(m.sourceLocation));
        var dLat := Coalesce(m.destLat, LatOf(m.destinationLocation));
        var dLng := Coalesce(m.destLng, LngOf(m.destinationLocation));
        if !NumTruthy(sLat) || !NumTruthy(sLng) then None
        else
          Some(m.(sourceLocation := Some(Loc(sLat, sLng, Some(OrDefault(OrStr(m.sourceAddress, AddressOf(m.sourceLocation)), "")))),
                  destinationLocation := Some(Loc(OrNum(dLat, sLat), OrNum(dLng, sLng),
                                                  Some(OrDefault(OrStr(m.destAddress, AddressOf(m.destinationLocation)), "")))),
                  itemName := Some(OrDefault(OrStr(m.itemNameField, m.itemName), "Item")),
                  deliveryAmount := OrNum(m.amountField, m.deliveryAmount),
                  timeLimit := OrInt(m.timeLimitField, m.timeLimit)))
  }

  /** Normalising twice is normalising once. */
  lemma NormalizeIdempotent(o: Option<MapRecord>)
    ensures Normalize(Normalize(o)) == Normalize(o)
  {
  }

  /** A database row is drawn exactly when both of its source coordinates
      are non-zero; its destination then falls back to the source only where
      its own coordinate is zero. */
  lemma RowNormalized(d: Delivery)
    ensures Normalize(Some(FromRow(d))).Some? <==> d.source.lat != 0.0 && d.source.lng != 0.0
    ensures Normalize(Some(FromRow(d))).Some? ==>
      var n := Normalize(Some(FromRow(d))).value;
      && n.sourceLocation == Some(Loc(Some(d.source.lat), Some(d.source.lng), Some(d.source.address)))
      && LatOf(n.destinationLocation) == Some(if d.destination.lat != 0.0 then d.destination.lat else d.source.lat)
      && n.itemName == Some(if d.itemName != "" then d.itemName else "Item")
  {
  }

  /** A delivery marker is drawn for a record whose normalised form has a
      truthy source latitude. */
  predicate DeliveryMarkerShown(m: MapRecord) {
    var n := Normalize(Some(m));
    n.Some? && NumTruthy(LatOf(n.value.sourceLocation))
  }

  lemma MarkerIffNormalized(m: MapRecord)
    ensures DeliveryMarkerShown(m) <==> Normalize(Some(m)).Some?
  {
  }

  // ----- centre and the location markers -----

  /** A location prop: `{lat, lng}`, each possibly missing. */
  datatype Point = Point(lat: Option<real>, lng: Option<real>)

  predicate HasCoords(p: Option<Point>) {
    p.Some? && NumTruthy(p.value.lat) && NumTruthy(p.value.lng)
  }

  const FallbackLat: real := 28.6139
  const FallbackLng: real := 77.2090

  /** The default centre: the configured coordinates when truthy, else New Delhi. */
  function DefaultCentre(envLat: Option<real>, envLng: Option<real>): (c: Point)
    ensures HasCoords(Some(c))
  {
    Point(OrNum(envLat, Some(FallbackLat)), OrNum(envLng, Some(FallbackLng)))
  }

  /** The centre before the location effect runs: the user's location
      object if there is one, else the partner's, else the default. */
  function InitialCentre(user: Option<Point>, partner: Option<Point>, default: Point): (c: Point)
    ensures user.Some? ==> c == user.value
    ensures user.None? && partner.Some? ==> c == partner.value
    ensures user.None? && partner.None? ==> c == default
  {
    if user.Some? then user.value else if partner.Some? then partner.value else default
  }

  /** The centre the location effect sets: the partner's location if it has
      coordinates, else the user's, else the default. */
  function EffectCentre(user: Option<Point>, partner: Option<Point>, default: Point): (c: Point)
    ensures HasCoords(partner) ==> c == partner.value
    ensures !HasCoords(partner) && HasCoords(user) ==> c == user.value
    ensures !HasCoords(partner) && !HasCoords(user) ==> c == default
  {
    if HasCoords(partner) then partner.value
    else if HasCoords(user) then user.value
    else default
  }

  /** The centre handed to the map: the current one if it has coordinates,
      else the default. */
  function ValidCentre(current: Option<Point>, default: Point): (c: Point)
    ensures HasCoords(current) ==> c == current.value
    ensures !HasCoords(current) ==> c == default
  {
    if HasCoords(current) then current.value else default
  }

  /** The centre is always a point with coordinates, and it is one of the
      partner's location, the user's location and the default. */
  lemma CentreAlwaysValid(user: Option<Point>, partner: Option<Point>, envLat: Option<real>, envLng: Option<real>)
    ensures var default := DefaultCentre(envLat, envLng);
      var c := ValidCentre(Some(EffectCentre(user, partner, default)), default);
      && HasCoords(Some(c))
      && c == EffectCentre(user, partner, default)
  {
  }

  predicate UserMarkerShown(user: Option<Point>) {
    HasCoords(user)
  }

  /** The partner marker: coordinates, and not at the user's position. */
  predicate PartnerMarkerShown(user: Option<Point>, partner: Option<Point>) {
    HasCoords(partner) && (user.None? || user.value.lat != partner.value.lat || user.value.lng != partner.value.lng)
  }

  /** A partner standing where the user is gets no second marker. */
  lemma PartnerHiddenAtUser(p: Point)
    ensures !PartnerMarkerShown(Some(p), Some(p))
    ensures HasCoords(Some(p)) ==> UserMarkerShown(Some(p)) && PartnerMarkerShown(None, Some(p))
  {
  }

  /** The pickup and drop-off markers of the selected delivery: both of its
      normalised endpoints have truthy coordinates. */
  predicate RouteShown(selected: Option<MapRecord>) {
    var n := Normalize(selected);
    && n.Some?
    && NumTruthy(LatOf(n.value.sourceLocation)) && NumTruthy(LngOf(n.value.sourceLocation))
    && NumTruthy(LatOf(n.value.destinationLocation)) && NumTruthy(LngOf(n.value.destinationLocation))
  }

  /** A selected database row gets its route drawn exactly when its source
      has non-zero coordinates: the destination falls back to the source. */
  lemma RouteForRow(d: Delivery)
    ensures RouteShown(Some(FromRow(d))) <==> d.source.lat != 0.0 && d.source.lng != 0.0
  {
    RowNormalized(d);
  }
}

=== FILE: geocoding.dfy ===
/** The geocoding helpers (src/utils/geocoding.js): the one-request-per-second
    throttle, and how the reverse and forward lookups turn a response, or a
    failure, into their results. The HTTP calls are parameters holding their
    outcomes. */
module Geocoding {
  import opened Js

  /** The minimum spacing between request starts, in milliseconds. */
  const MinInterval := 1000

  /** `waitForRateLimit`'s delay: what is left of the interval since the last
      request started, or nothing once it has passed. */
  function Wait(now: int, last: int): (w: int)
    ensures w >= 0
    ensures now + w >= last + MinInterval
    ensures now - last >= MinInterval ==> w == 0
    ensures now - last < MinInterval ==> now + w == last + MinInterval
  {
    if now - last < MinInterval then MinInterval - (now - last) else 0
  }

  /** The start times of sequential requests. Request `i` calls the throttle
      at `arrivals[i]`; its timer fires `overruns[i]` milliseconds late; the
      recorded start is the clock after the wait, which becomes the next
      request's `last`. */
  function Starts(last: int, arrivals: seq<int>, overruns: seq<nat>): (r: seq<int>)
    requires |overruns| == |arrivals|
    ensures |r| == |arrivals|
    ensures |r| > 0 ==> r[0] >= last + MinInterval && r[0] >= arrivals[0]
    ensures forall i :: 0 < i < |r| ==> r[i] >= r[i - 1] + MinInterval
    ensures forall i :: 0 <= i < |r| ==> r[i] >= arrivals[i]
    decreases |arrivals|
  {
    if arrivals == [] then []
    else
      var start := arrivals[0] + Wait(arrivals[0], last) + overruns[0];
      var rest := Starts(start, arrivals[1..], overruns[1..]);
      [start] + rest
  }

  /** Any two sequential requests start at least one interval apart per
      request between them. */
  lemma {:induction false} StartsSpread(last: int, arrivals: seq<int>, overruns: seq<nat>, i: int, j: int)
    requires |overruns| == |arrivals|
    requires 0 <= i <= j < |arrivals|
    ensures Starts(last, arrivals, overruns)[j] >= Starts(last, arrivals, overruns)[i] + (j - i) * MinInterval
    decreases j - i
  {
    if i < j {
      StartsSpread(last, arrivals, overruns, i, j - 1);
    }
  }

  // ----- lookups -----

  /** The `address` block of a result: each part may be missing. */
  datatype AddressParts = AddressParts(city: Option<string>, town: Option<string>, village: Option<string>,
                                       state: Option<string>, country: Option<string>, postcode: Option<string>)

  /** `city || town || village`. */
  function City(a: AddressParts): (r: Option<string>)
    ensures StrTruthy(a.city) ==> r == a.city
    ensures !StrTruthy(a.city) && StrTruthy(a.town) ==> r == a.town
    ensures !StrTruthy(a.city) && !StrTruthy(a.town) ==> r == a.village
  {
    OrStr(a.city, OrStr(a.town, a.village))
  }

  /** A reverse-geocoding response body; `parts` is missing when the service
      sent no `address` block. */
  datatype ReverseBody = ReverseBody(displayName: Option<string>, parts: Option<AddressParts>)

  datatype ReverseResult = ReverseResult(address: Option<string>, city: Option<string>, state: Option<string>,
                                         country: Option<string>, postcode: Option<string>)

  /** `reverseGeocode`. `response` is the request's outcome: a failure, no
      body, or a body. A failure, a missing body, or a body without an address
      block (reading it throws) gives null. */
  function Reverse(response: Result<Option<ReverseBody>>): (r: Option<ReverseResult>)
    ensures r.Some? <==> response.Ok? && response.value.Some? && response.value.value.parts.Some?
    ensures r.Some? ==>
      var body := response.value.value;
      && r.value.address == body.displayName
      && r.value.city == City(body.parts.value)
      && r.value.state == body.parts.value.state
      && r.value.country == body.parts.value.country
      && r.value.postcode == body.parts.value.postcode
  {
    match response
    case Err(_) => None
    case Ok(None) => None
    case Ok(Some(body)) =>
      match body.parts
      case None => None
      case Some(a) => Some(ReverseResult(body.displayName, City(a), a.state, a.country, a.postcode))
  }

  /** One forward-geocoding hit as the service sends it: coordinates are text. */
  datatype SearchItem = SearchItem(lat: string, lon: string, displayName: Option<string>, parts: Option<AddressParts>)

  datatype ForwardHit = ForwardHit(lat: real, lng: real, address: Option<string>, city: Option<string>,
                                   state: Option<string>, country: Option<string>)

  function HitOf(item: SearchItem, parseFloat: string -> real): ForwardHit
    requires item.parts.Some?
  {
    var a := item.parts.value;
    ForwardHit(parseFloat(item.lat), parseFloat(item.lon), item.displayName, City(a), a.state, a.country)
  }

  /** Every hit has an address block. */
  predicate AllHavePartsFrom(items: seq<SearchItem>) {
    forall i :: 0 <= i < |items| ==> items[i].parts.Some?
  }

  function Hits(items: seq<SearchItem>, parseFloat: string -> real): (r: seq<ForwardHit>)
    requires AllHavePartsFrom(items)
    ensures |r| == |items|
    ensures forall i :: 0 <= i < |r| ==> r[i] == HitOf(items[i], parseFloat)
  {
    if items == [] then [] else [HitOf(items[0], parseFloat)] + Hits(items[1..], parseFloat)
  }

  /** `forwardGeocode`. A failure, an empty list, or any hit without an
      address block (mapping it throws) gives the empty list; otherwise one
      result per hit, in order. `parseFloat` is JavaScript's number parsing. */
  function Forward(response: Result<seq<SearchItem>>, parseFloat: string -> real): (r: seq<ForwardHit>)
    ensures response.Err? ==> r == []
    ensures response.Ok? && !AllHavePartsFrom(response.value) ==> r == []
    ensures response.Ok? && AllHavePartsFrom(response.value) ==>
      && |r| == |response.value|
      && (forall i :: 0 <= i < |r| ==>
            && r[i].address == response.value[i].displayName
            && r[i].city == City(response.value[i].parts.value)
            && r[i].lat == parseFloat(response.value[i].lat)
            && r[i].lng == parseFloat(response.value[i].lon)
            && r[i].state == response.value[i].parts.value.state
            && r[i].country == response.value[i].parts.value.country)
  {
    match response
    case Err(_) => []
    case Ok(items) => if AllHavePartsFrom(items) then Hits(items, parseFloat) else []
  }
}

=== FILE: js.dfy ===
/** JavaScript value semantics the client relies on: optional values
    (`null`/`undefined`), thrown errors, truthiness, and the `||` and `??`
    operators as they are applied to strings, numbers and timestamps. */
module Js {

  /** A value that may be `null` or `undefined` (both are `None`). */
  datatype Option<+T> = None | Some(value: T) {
    function GetOr(default: T): T {
      match this
      case Some(v) => v
      case None => default
    }
  }

  /** The outcome of an awaited call: a value, or an error carrying its message. */
  datatype Result<+T> = Ok(value: T) | Err(message: string)

  /** An awaited write whose return value the caller ignores. */
  datatype Write = Done | Failed(message: string)

  /** A string is truthy iff it is non-empty. */
  predicate Truthy(s: string) {
    s != ""
  }

  /** An optional string is truthy iff it is present and non-empty. */
  predicate StrTruthy(o: Option<string>) {
    o.Some? && o.value != ""
  }

  /** An optional number is truthy iff it is present and not zero. */
  predicate NumTruthy(o: Option<real>) {
    o.Some? && o.value != 0.0
  }

  /** An optional integer is truthy iff it is present and not zero. */
  predicate IntTruthy(o: Option<int>) {
    o.Some? && o.value != 0
  }

  /** `a || b` on optional strings. */
  function OrStr(a: Option<string>, b: Option<string>): (r: Option<string>)
    ensures StrTruthy(a) ==> r == a
    ensures !StrTruthy(a) ==> r == b
  {
    if StrTruthy(a) then a else b
  }

  /** `a || "literal"`: the fallback is a plain string, so the result is one too. */
  function OrDefault(a: Option<string>, default: string): (r: string)
    ensures StrTruthy(a) ==> r == a.value
    ensures !StrTruthy(a) ==> r == default
    ensures Truthy(default) ==> Truthy(r)
  {
    if StrTruthy(a) then a.value else default
  }

  /** `a || b` on optional numbers. */
  function OrNum(a: Option<real>, b: Option<real>): (r: Option<real>)
    ensures NumTruthy(a) ==> r == a
    ensures !NumTruthy(a) ==> r == b
  {
    if NumTruthy(a) then a else b
  }

  /** `a ?? b`: only `null`/`undefined` fall through, a zero does not. */
  function Coalesce<T>(a: Option<T>, b: Option<T>): (r: Option<T>)
    ensures a.Some? ==> r == a
    ensures a.None? ==> r == b
  {
    if a.Some? then a else b
  }
}

=== FILE: js_strings.dfy ===
/** The string operations the client applies to user input: `String.prototype.trim`,
    `replace(/\D/g, '')`, `includes`, `parseInt` without a radix, and the decimal
    rendering of integers inside template literals. */
module JsStrings {
  import opened Js

  /** The characters `trim` and `parseInt` skip: ECMAScript WhiteSpace and LineTerminator. */
  const SpaceChars: set<char> := {
    ' ', '\t', '\n', '\r', '\U{B}', '\U{C}', '\U{A0}', '\U{1680}',
    '\U{2000}', '\U{2001}', '\U{2002}', '\U{2003}', '\U{2004}', '\U{2005}',
    '\U{2006}', '\U{2007}', '\U{2008}', '\U{2009}', '\U{200A}',
    '\U{2028}', '\U{2029}', '\U{202F}', '\U{205F}', '\U{3000}', '\U{FEFF}'
  }

  predicate IsSpace(c: char) {
    c in SpaceChars
  }

  /** `\d` in a JavaScript regular expression: the ASCII digits only. */
  predicate IsDigit(c: char) {
    '0' <= c <= '9'
  }

  predicate AllDigits(s: string) {
    forall i :: 0 <= i < |s| ==> IsDigit(s[i])
  }

  predicate AllSpace(s: string) {
    forall i :: 0 <= i < |s| ==> IsSpace(s[i])
  }

  /** Leading white space removed. */
  function TrimStart(s: string): (r: string)
    ensures |r| <= |s| && r == s[|s| - |r|..]
    ensures AllSpace(s[..|s| - |r|])
    ensures r != [] ==> !IsSpace(r[0])
  {
    if |s| > 0 && IsSpace(s[0]) then
      var r := TrimStart(s[1..]);
      assert s[..|s| - |r|] == [s[0]] + s[1..][..|s| - 1 - |r|];
      r
    else
      s
  }

  /** Trailing white space removed. */
  function TrimEnd(s: string): (r: string)
    ensures |r| <= |s| && r == s[..|r|]
    ensures AllSpace(s[|r|..])
    ensures r != [] ==> !IsSpace(r[|r| - 1])
  {
    if |s| > 0 && IsSpace(s[|s| - 1]) then
      var r := TrimEnd(s[..|s| - 1]);
      assert s[|r|..] == s[..|s| - 1][|r|..] + [s[|s| - 1]];
      r
    else
      s
  }

  /** `s.trim()`: empty exactly when `s` is all white space, and otherwise a
      slice of `s` that neither starts nor ends with white space. */
  function Trim(s: string): (r: string)
    ensures |r| <= |s|
    ensures r == "" <==> AllSpace(s)
    ensures r != "" ==> !IsSpace(r[0]) && !IsSpace(r[|r| - 1])
  {
    var t := TrimStart(s);
    TrimStartEmpty(s);
    TrimEndKeepsHead(t);
    TrimEnd(t)
  }

  lemma TrimStartEmpty(s: string)
    ensures TrimStart(s) == "" <==> AllSpace(s)
  {
    if TrimStart(s) == "" {
      assert s[..|s|] == s;
    }
  }

  lemma TrimEndKeepsHead(t: string)
    requires t != "" ==> !IsSpace(t[0])
    ensures TrimEnd(t) == "" <==> t == ""
    ensures TrimEnd(t) != "" ==> TrimEnd(t)[0] == t[0]
  {
  }

  /** `s.replace(/\D/g, '')`: the digits of `s`, in order. */
  function DigitsOnly(s: string): (r: string)
    ensures AllDigits(r)
    ensures AllDigits(s) ==> r == s
  {
    if s == [] then []
    else
      var rest := DigitsOnly(s[1..]);
      assert s == [s[0]] + s[1..];
      if IsDigit(s[0]) then [s[0]] + rest else rest
  }

  /** One step of `DigitsOnly`: the head kept if it is a digit, then the tail's digits. */
  lemma DigitsOnlyCons(s: string)
    requires s != []
    ensures DigitsOnly(s) == (if IsDigit(s[0]) then [s[0]] else []) + DigitsOnly(s[1..])
  {
    if !IsDigit(s[0]) {
      assert [] + DigitsOnly(s[1..]) == DigitsOnly(s[1..]);
    }
  }

  /** `DigitsOnly` keeps every digit of `s`, as often as it occurs, and nothing else. */
  lemma {:induction false} DigitsOnlyCounts(s: string)
    ensures forall c :: multiset(DigitsOnly(s))[c] == (if IsDigit(c) then multiset(s)[c] else 0)
  {
    if s != [] {
      DigitsOnlyCounts(s[1..]);
      DigitsOnlyCons(s);
      assert s == [s[0]] + s[1..];
    }
  }

  /** `s.includes(part)`: `part` occurs somewhere in `s`. */
  predicate Includes(s: string, part: string)
    decreases |s|
  {
    |part| <= |s| && (s[..|part|] == part || (|s| > 0 && Includes(s[1..], part)))
  }

  /** The value of one digit in base 10 or 16 (either letter case). */
  function DigitValue(c: char): (v: nat)
    ensures IsDigit(c) ==> v < 10
  {
    if '0' <= c <= '9' then (c as int) - ('0' as int)
    else if 'a' <= c <= 'f' then (c as int) - ('a' as int) + 10
    else if 'A' <= c <= 'F' then (c as int) - ('A' as int) + 10
    else 99
  }

  predicate IsDigitIn(c: char, base: nat) {
    DigitValue(c) < base
  }

  /** The value of a string of digits in `base`. */
  function ValueIn(s: string, base: nat): nat
    requires forall i :: 0 <= i < |s| ==> IsDigitIn(s[i], base)
  {
    if s == [] then 0
    else
      var init := s[..|s| - 1];
      assert forall i :: 0 <= i < |init| ==> init[i] == s[i];
      var v: nat := ValueIn(init, base);
      MulNat(v, base);
      v * base + DigitValue(s[|s| - 1])
  }

  /** Keeps the solver off nonlinear search for the sign of a product. */
  lemma MulNat(a: nat, b: nat)
    ensures a * b >= 0
  {
  }


  /** The longest prefix of `s` made of digits in `base`. */
  function DigitPrefix(s: string, base: nat): (r: string)
    ensures |r| <= |s| && r == s[..|r|]
    ensures forall i :: 0 <= i < |r| ==> IsDigitIn(r[i], base)
    ensures |r| < |s| ==> !IsDigitIn(s[|r|], base)
  {
    if |s| > 0 && IsDigitIn(s[0], base) then [s[0]] + DigitPrefix(s[1..], base) else []
  }

  function DigitChar(d: nat): (c: char)
    requires d < 10
    ensures IsDigit(c) && DigitValue(c) == d
  {
    (('0' as int) + d) as char
  }

  /** The decimal rendering of a natural number, as `${n}` writes it. */
  function NatToString(n: nat): (r: string)
    ensures r != [] && AllDigits(r)
    ensures |r| > 1 ==> r[0] != '0'
  {
    if n < 10 then [DigitChar(n)] else NatToString(n / 10) + [DigitChar(n % 10)]
  }

  /** The decimal rendering of an integer, as `${i}` writes it. */
  function IntToString(i: int): (r: string)
    ensures r != []
    ensures i < 0 <==> r[0] == '-'
  {
    if i < 0 then "-" + NatToString(-i) else NatToString(i)
  }

  /** `parseInt(s)` with no radix: skip leading white space, take an optional
      sign, read hexadecimal after a `0x`/`0X` prefix and decimal otherwise,
      stop at the first character that is not a digit; `NaN` (here `None`)
      when no digit was read. */
  function ParseInt(s: string): (r: Option<int>)
  {
    var t := TrimStart(s);
    if |t| > 0 && t[0] == '-' then
      match ParseMagnitude(t[1..])
      case Some(m) => Some(-(m as int))
      case None => None
    else if |t| > 0 && t[0] == '+' then
      ParseMagnitude(t[1..])
    else
      ParseMagnitude(t)
  }

  /** The unsigned part of `parseInt`: a `0x`/`0X` prefix selects base 16. */
  function ParseMagnitude(u: string): (r: Option<nat>)
  {
    var hex := |u| >= 2 && u[0] == '0' && (u[1] == 'x' || u[1] == 'X');
    var base := if hex then 16 else 10;
    var ds := DigitPrefix(if hex then u[2..] else u, base);
    if ds == [] then None else Some(ValueIn(ds, base))
  }

  lemma {:induction false} ValueOfNatToString(n: nat)
    ensures ValueIn(NatToString(n), 10) == n
    decreases n
  {
    if n >= 10 {
      ValueOfNatToString(n / 10);
      var s := NatToString(n);
      assert s[..|s| - 1] == NatToString(n / 10);
    }
  }

  lemma DigitPrefixOfDigits(s: string)
    requires AllDigits(s)
    ensures DigitPrefix(s, 10) == s
  {
    if |s| > 0 {
      DigitPrefixOfDigits(s[1..]);
    }
  }

  lemma ParseMagnitudeOfDigits(n: nat)
    ensures ParseMagnitude(NatToString(n)) == Some(n)
  {
    var d := NatToString(n);
    ValueOfNatToString(n);
    DigitPrefixOfDigits(d);
    if |d| >= 2 {
      assert IsDigit(d[1]);
    }
  }

  lemma TrimStartNoSpace(s: string)
    requires s != "" && !IsSpace(s[0])
    ensures TrimStart(s) == s
  {
  }

  lemma ParseNegative(n: nat)
    ensures ParseInt("-" + NatToString(n)) == Some(-(n as int))
  {
    var d := NatToString(n);
    var s := "-" + d;
    TrimStartNoSpace(s);
    ParseMagnitudeOfDigits(n);
    assert s[0] == '-' && s[1..] == d;
  }

  /** Without leading space or sign, `parseInt` reads the magnitude alone. */
  lemma ParseUnsigned(t: string)
    requires t != "" && !IsSpace(t[0]) && t[0] != '-' && t[0] != '+'
    ensures ParseInt(t) == ParseMagnitude(t)
  {
    TrimStartNoSpace(t);
  }

  lemma ParseNonNegative(n: nat)
    ensures ParseInt(NatToString(n)) == Some(n)
  {
    var d := NatToString(n);
    assert IsDigit(d[0]);
    ParseUnsigned(d);
    ParseMagnitudeOfDigits(n);
  }

  /** Round trip: `parseInt` reads back every integer the client renders. */
  lemma ParseIntOfIntToString(i: int)
    ensures ParseInt(IntToString(i)) == Some(i)
  {
    if i < 0 {
      ParseNegative(-i);
    } else {
      ParseNonNegative(i);
    }
  }
}

=== FILE: lifecycle.dfy ===
/** The delivery lifecycle as the stored row sees it: every write the sender
    and partner pages make, behind the guards that offer them, plus the two
    backend endpoints the pages call (accept and cancel). Actions carry the
    outcomes of their calls and dialogs and the time they happen. */
module Lifecycle {
  import opened Js
  import opened Deliveries
  import JsStrings
  import Persistence
  import SenderView
  import PartnerView

  datatype Action =
    | SenderVerify(accepted: bool, write: Write, at: int)
    | SenderConfirm(first: Write, second: Write, at: int)
    | SenderDispute(confirmed: bool, write: Write, at: int)
    | PartnerItemPhoto(upload: Result<Option<string>>, write: Write, at: int)
    | PartnerProof(upload: Result<Option<string>>, write: Write, at: int)
    | PartnerAccept(partnerId: string, at: int)
    | Cancel(bySender: bool, at: int)

  /** The partner page's view of a row it has just polled. */
  function Polled(row: Delivery): PartnerView.View {
    PartnerView.View(Some(row), [], None)
  }

  /** The row after a partner photo step: the update is stored only if the
      step sent one and it succeeded. */
  function AfterUpload(row: Delivery, step: Option<PartnerView.UploadStep>, write: Write, at: int): (r: Delivery)
    ensures step.None? || step.value.sent.None? || write.Failed? ==> r == row
    ensures step.Some? && step.value.sent.Some? && write.Done? ==> r == Update(row, step.value.sent.value, at)
  {
    if step.Some? && step.value.sent.Some? && write.Done? then Update(row, step.value.sent.value, at) else row
  }

  /** The row after a sender handler, or the row as it was when the handler's
      control is not offered. */
  function Handled(row: Delivery, o: Option<SenderView.Outcome>): (r: Delivery)
    ensures o.None? ==> r == row
    ensures o.Some? ==> r == o.value.row
  {
    if o.Some? then o.value.row else row
  }

  /** The effect of one action on the stored row; an action whose control is
      not offered for the row leaves it as it is. The accept and cancel
      endpoints are outside this client; they are taken to assign the partner
      to an unassigned pending row, and to cancel a row the calling page was
      willing to cancel (a cancellable status for the sender, an active one for
      the partner). */
  function Step(row: Delivery, a: Action): (r: Delivery)
    ensures r.id == row.id && r.senderId == row.senderId
    ensures a.PartnerAccept? ==> (r != row <==> row.status == Pending && row.partnerId.None?)
    ensures a.PartnerAccept? && row.status == Pending && row.partnerId.None? ==>
      r.status == Accepted && r.partnerId == Some(a.partnerId) && r.updatedAt == Some(a.at)
    ensures a.Cancel? ==>
      (r != row <==> (a.bySender && SenderView.Cancellable(row.status)) || (!a.bySender && Persistence.PartnerActive(row.status)))
    ensures a.Cancel? && r != row ==> r == row.(status := Cancelled, updatedAt := Some(a.at))
  {
    match a
    case SenderVerify(accepted, write, at) =>
      Handled(row, SenderView.VerifyItem(row, false, accepted, at, write))
    case SenderConfirm(first, second, at) =>
      Handled(row, SenderView.ConfirmDelivery(row, at, first, second))
    case SenderDispute(confirmed, write, at) =>
      Handled(row, SenderView.Dispute(row, confirmed, at, write))
    case PartnerItemPhoto(upload, write, at) =>
      AfterUpload(row, PartnerView.ItemUpload(Polled(row), upload, write), write, at)
    case PartnerProof(upload, write, at) =>
      AfterUpload(row, PartnerView.MarkDelivered(Polled(row), upload, write, at), write, at)
    case PartnerAccept(partnerId, at) =>
      if row.status == Pending && row.partnerId.None? then
        row.(status := Accepted, partnerId := Some(partnerId), updatedAt := Some(at))
      else row
    case Cancel(bySender, at) =>
      if (bySender && SenderView.Cancellable(row.status)) || (!bySender && Persistence.PartnerActive(row.status)) then
        row.(status := Cancelled, updatedAt := Some(at))
      else row
  }

  /** The row after a sequence of actions. */
  function Run(row: Delivery, actions: seq<Action>): (r: Delivery)
    ensures actions == [] ==> r == row
    ensures r.id == row.id && r.senderId == row.senderId
    decreases |actions|
  {
    if actions == [] then row else Run(Step(row, actions[0]), actions[1..])
  }

  /** A row as the request form inserts it. */
  predicate Created(row: Delivery) {
    && row.status == Pending
    && row.partnerId.None?
    && !row.itemVerified
    && row.itemPhotoUrl.None?
    && row.deliveryPhotoUrl.None?
  }

  /** The moves the status can make. */
  predicate Edge(from: Status, to: Status)
    ensures Edge(from, to) ==> from != to
    ensures Edge(from, to) ==> from != Completed && from != Cancelled && from != Disputed
    ensures Edge(from, to) ==> to != InTransit && to != Verified && to != Pending
  {
    || (from == Pending && to == Accepted)
    || (from == Accepted && to == PickedUp)
    || (from == PickedUp && to == Delivered)
    || (from == Delivered && (to == Completed || to == Disputed))
    || (to == Cancelled && SenderView.Cancellable(from))
  }

  /** Every action keeps the status or moves it along an edge, when every
      guard is read from the stored row. */
  lemma StepFollowsEdges(row: Delivery, a: Action)
    ensures Step(row, a).status == row.status || Edge(row.status, Step(row, a).status)
  {
  }

  /** Completed, cancelled and disputed rows never change status again, when
      every guard is read from the stored row (see `StaleStep` for writes
      decided on an older copy). */
  lemma TerminalStays(row: Delivery, a: Action)
    requires row.status == Completed || row.status == Cancelled || row.status == Disputed
    ensures Step(row, a).status == row.status
  {
    StepFollowsEdges(row, a);
  }

  /** No action writes the in-transit or verified status. */
  lemma StepNeverInTransit(row: Delivery, a: Action)
    requires row.status != InTransit && row.status != Verified
    ensures Step(row, a).status != InTransit && Step(row, a).status != Verified
  {
    StepFollowsEdges(row, a);
  }

  /** From a created row, no run of actions reaches in transit or verified: those
      statuses have labels on the pages but nothing writes them. */
  lemma {:induction false} RunNeverInTransit(row: Delivery, actions: seq<Action>)
    requires row.status != InTransit && row.status != Verified
    ensures Run(row, actions).status != InTransit && Run(row, actions).status != Verified
    decreases |actions|
  {
    if actions != [] {
      StepNeverInTransit(row, actions[0]);
      RunNeverInTransit(Step(row, actions[0]), actions[1..]);
    }
  }

  /** No action clears or blanks an item photo. */
  lemma StepKeepsItemPhoto(row: Delivery, a: Action)
    requires StrTruthy(row.itemPhotoUrl)
    ensures StrTruthy(Step(row, a).itemPhotoUrl)
  {
  }

  lemma {:induction false} RunKeepsItemPhoto(row: Delivery, actions: seq<Action>)
    requires StrTruthy(row.itemPhotoUrl)
    ensures StrTruthy(Run(row, actions).itemPhotoUrl)
    decreases |actions|
  {
    if actions != [] {
      StepKeepsItemPhoto(row, actions[0]);
      RunKeepsItemPhoto(Step(row, actions[0]), actions[1..]);
    }
  }

  /** After the sender rejects the item photo, the row is still accepted with
      the same photo: the sender is offered the same photo again, and the
      partner's step 1 (upload an item photo) is never offered again, whatever
      happens next. */
  lemma RejectionStrandsPartner(row: Delivery, at: int, actions: seq<Action>)
    requires SenderView.VerifyOffered(row, false)
    ensures Step(row, SenderVerify(false, Done, at)).itemPhotoUrl == row.itemPhotoUrl
    ensures SenderView.VerifyOffered(Step(row, SenderVerify(false, Done, at)), false)
    ensures !PartnerView.Step1Offered(Run(Step(row, SenderVerify(false, Done, at)), actions))
  {
    RunKeepsItemPhoto(Step(row, SenderVerify(false, Done, at)), actions);
  }

  /** With the intended rejection, the partner is offered step 1 again and the
      sender is no longer shown the rejected photo; a fresh upload then brings
      the verification panel back. */
  lemma IntendedRejectionReopensUpload(row: Delivery, at: int, url: string, at2: int)
    requires SenderView.VerifyOffered(row, false) && url != ""
    ensures
      var rejected := SenderView.VerifyItemIntended(row, false, false, at, Done).value.row;
      && PartnerView.Step1Offered(rejected)
      && !SenderView.VerifyOffered(rejected, false)
      && SenderView.VerifyOffered(Step(rejected, PartnerItemPhoto(Ok(Some(url)), Done, at2)), false)
  {
  }

  /** An item becomes verified only from an accepted row with an item photo,
      and the same action moves the row to picked up, when the guard is read
      from the stored row. */
  lemma VerifiedOnlyWithPhoto(row: Delivery, a: Action)
    requires !row.itemVerified
    ensures Step(row, a).itemVerified ==>
      StrTruthy(row.itemPhotoUrl) && row.status == Accepted && Step(row, a).status == PickedUp
  {
  }

  // ----- writes decided on a page's copy of the row -----

  /** The patch a sender action sends when its guard is read from the page's
      copy of the row, or none when the control is not offered, the dialog is
      declined or the write fails. */
  function SenderPatch(copy: Delivery, a: Action): (r: Option<Patch>)
    requires a.SenderVerify? || a.SenderConfirm? || a.SenderDispute?
    ensures a.SenderVerify? ==>
      (r.Some? <==> SenderView.VerifyOffered(copy, false) && a.write.Done?)
    ensures a.SenderVerify? && r.Some? ==>
      r.value == if a.accepted then SenderView.AcceptItemPatch(a.at) else SenderView.RejectItemPatch
    ensures a.SenderDispute? ==>
      (r.Some? <==> SenderView.ConfirmOffered(copy) && a.confirmed && a.write.Done?)
    ensures a.SenderConfirm? ==>
      (r.Some? <==> SenderView.ConfirmOffered(copy) &&
                    (a.first.Done? || (JsStrings.Includes(a.first.message, "completed_at") && a.second.Done?)))
    ensures a.SenderConfirm? && r.Some? ==>
      r.value == if a.first.Done? then SenderView.ConfirmPatch(a.at) else SenderView.ConfirmFallbackPatch(a.at)
  {
    match a
    case SenderVerify(accepted, write, at) =>
      if SenderView.VerifyOffered(copy, false) && write.Done? then
        Some(if accepted then SenderView.AcceptItemPatch(at) else SenderView.RejectItemPatch)
      else None
    case SenderConfirm(first, second, at) =>
      if !SenderView.ConfirmOffered(copy) then None
      else if first.Done? then Some(SenderView.ConfirmPatch(at))
      else if JsStrings.Includes(first.message, "completed_at") && second.Done? then Some(SenderView.ConfirmFallbackPatch(at))
      else None
    case SenderDispute(confirmed, write, at) =>
      if SenderView.ConfirmOffered(copy) && confirmed && write.Done? then Some(SenderView.DisputePatch) else None
  }

  /** One action as the pages run it: the guards of the direct writes are
      read from the page's `copy` of the row, polled up to ten seconds
      earlier, and `db.deliveries.update` applies the patch to the stored
      `row` by id alone, whatever its status now. The accept and cancel
      endpoints act on the stored row as in `Step`. With a fresh copy this is
      `Step`. */
  function StaleStep(row: Delivery, copy: Delivery, a: Action): (r: Delivery)
    requires copy.id == row.id
    ensures r.id == row.id && r.senderId == row.senderId
    ensures copy == row ==> r == Step(row, a)
    ensures a.PartnerAccept? || a.Cancel? ==> r == Step(row, a)
  {
    match a
    case SenderVerify(_, _, at) =>
      var p := SenderPatch(copy, a);
      if p.Some? then Update(row, p.value, at) else row
    case SenderConfirm(_, _, at) =>
      var p := SenderPatch(copy, a);
      if p.Some? then Update(row, p.value, at) else row
    case SenderDispute(_, _, at) =>
      var p := SenderPatch(copy, a);
      if p.Some? then Update(row, p.value, at) else row
    case PartnerItemPhoto(upload, write, at) =>
      AfterUpload(row, PartnerView.ItemUpload(Polled(copy), upload, write), write, at)
    case PartnerProof(upload, write, at) =>
      AfterUpload(row, PartnerView.MarkDelivered(Polled(copy), upload, write, at), write, at)
    case PartnerAccept(_, _) => Step(row, a)
    case Cancel(_, _) => Step(row, a)
  }

  /** The sender cancels while the partner's copy still shows the item picked
      up: the partner's proof upload then moves the cancelled row to
      delivered, a move no lifecycle edge allows. */
  lemma StaleProofRevivesCancelled(row: Delivery, copy: Delivery, url: string, at: int)
    requires copy.id == row.id && row.status == Cancelled
    requires copy.status == PickedUp && !StrTruthy(copy.deliveryPhotoUrl) && url != ""
    ensures StaleStep(row, copy, PartnerProof(Ok(Some(url)), Done, at)).status == Delivered
    ensures !Edge(row.status, Delivered)
  {
  }

  /** The partner cancels while the sender's copy still shows the item photo
      waiting: the sender's accept then makes the cancelled row picked up with
      its item verified. */
  lemma StaleVerifyRevivesCancelled(row: Delivery, copy: Delivery, at: int)
    requires copy.id == row.id && row.status == Cancelled
    requires copy.status == Accepted && StrTruthy(copy.itemPhotoUrl)
    ensures var r := StaleStep(row, copy, SenderVerify(true, Done, at));
      r.status == PickedUp && r.itemVerified
    ensures !Edge(row.status, PickedUp)
  {
  }

  /** The complete happy path: accept, item photo, verification, delivery
      photo and confirmation take a created row to completed, with both photos,
      the partner and every timestamp recorded. */
  lemma HappyPath(row: Delivery, partnerId: string, itemUrl: string, proofUrl: string,
                  t1: int, t2: int, t3: int, t4: int, t5: int)
    requires Created(row) && itemUrl != "" && proofUrl != ""
    ensures
      var done := Run(row, [PartnerAccept(partnerId, t1),
                            PartnerItemPhoto(Ok(Some(itemUrl)), Done, t2),
                            SenderVerify(true, Done, t3),
                            PartnerProof(Ok(Some(proofUrl)), Done, t4),
                            SenderConfirm(Done, Done, t5)]);
      && done.status == Completed
      && done.partnerId == Some(partnerId)
      && done.itemPhotoUrl == Some(itemUrl) && done.itemVerified && done.itemVerifiedAt == Some(t3)
      && done.deliveryPhotoUrl == Some(proofUrl) && done.deliveredAt == Some(t4)
      && done.completedAt == Some(t5) && done.updatedAt == Some(t5)
  {
    var a1, a2, a3, a4, a5 := PartnerAccept(partnerId, t1), PartnerItemPhoto(Ok(Some(itemUrl)), Done, t2),
      SenderVerify(true, Done, t3), PartnerProof(Ok(Some(proofUrl)), Done, t4), SenderConfirm(Done, Done, t5);
    var r1 := Step(row, a1);
    var r2 := Step(r1, a2);
    assert r2.itemPhotoUrl == Some(itemUrl) && r2.status == Accepted;
    var r3 := Step(r2, a3);
    assert r3.status == PickedUp && r3.deliveryPhotoUrl.None?;
    var r4 := Step(r3, a4);
    assert r4.status == Delivered && r4.deliveryPhotoUrl == Some(proofUrl);
    var r5 := Step(r4, a5);
    assert Run(r5, []) == r5;
    assert Run(r4, [a5]) == r5 by { assert [a5][1..] == []; }
    assert Run(r3, [a4, a5]) == r5 by { assert [a4, a5][1..] == [a5]; }
    assert Run(r2, [a3, a4, a5]) == r5 by { assert [a3, a4, a5][1..] == [a4, a5]; }
    assert Run(r1, [a2, a3, a4, a5]) == r5 by { assert [a2, a3, a4, a5][1..] == [a3, a4, a5]; }
    assert Run(row, [a1, a2, a3, a4, a5]) == r5 by { assert [a1, a2, a3, a4, a5][1..] == [a2, a3, a4, a5]; }
  }

  /** A failed write never changes the stored row. */
  lemma FailedWriteChangesNothing(row: Delivery, m: string, other: Write, b: bool, upload: Result<Option<string>>, at: int)
    ensures Step(row, SenderVerify(b, Failed(m), at)) == row
    ensures Step(row, SenderDispute(b, Failed(m), at)) == row
    ensures Step(row, PartnerItemPhoto(upload, Failed(m), at)) == row
    ensures Step(row, PartnerProof(upload, Failed(m), at)) == row
    ensures !JsStrings.Includes(m, "completed_at") ==> Step(row, SenderConfirm(Failed(m), other, at)) == row
  {
  }
}

=== FILE: map_picker.dfy ===
/** The location picker (src/components/MapPicker.jsx): which endpoint a
    map click sets, the initial centre, the address given to a clicked point,
    and the updater that recentres the map once. */
module MapPicker {
  import opened Js
  import opened Deliveries
  import DeliveryMap
  import Geocoding

  /** Which endpoint the next click sets. */
  datatype Mode = PickSource | PickDestination

  /** The picker's mode and the endpoints its parent holds. */
  datatype Picker = Picker(mode: Mode, source: Option<Place>, destination: Option<Place>)

  /** The initial mode: the `pickingSource` prop, true when not given. */
  function InitialMode(pickingSource: Option<bool>): (m: Mode)
    ensures m == PickSource <==> pickingSource.None? || pickingSource.value
  {
    if pickingSource.GetOr(true) then PickSource else PickDestination
  }

  /** `handleLocationSelect`: in source mode the click sets the source and
      moves on to the destination; in destination mode it sets the
      destination and stays there. */
  function Select(p: Picker, place: Place): (r: Picker)
    ensures p.mode == PickSource ==> r == Picker(PickDestination, Some(place), p.destination)
    ensures p.mode == PickDestination ==> r == p.(destination := Some(place))
  {
    match p.mode
    case PickSource => p.(source := Some(place), mode := PickDestination)
    case PickDestination => p.(destination := Some(place))
  }

  /** The "Select Source" and "Select Destination" buttons: only the mode
      changes, and the next click then sets the chosen endpoint. */
  function Toggle(p: Picker, m: Mode): (r: Picker)
    ensures r.mode == m && r.source == p.source && r.destination == p.destination
    ensures forall place :: m == PickSource ==> Select(r, place).source == Some(place)
    ensures forall place :: m == PickDestination ==> Select(r, place).destination == Some(place) && Select(r, place).source == p.source
  {
    p.(mode := m)
  }

  /** A run of clicks without touching the buttons. */
  function Clicks(p: Picker, places: seq<Place>): (r: Picker)
    ensures places == [] ==> r == p
    ensures places != [] ==> r.mode == PickDestination
    ensures p.mode == PickDestination ==> r.source == p.source
    ensures places != [] && p.mode == PickSource ==> r.source == Some(places[0])
    ensures |places| >= 2 || (places != [] && p.mode == PickDestination) ==>
      r.destination == Some(places[|places| - 1])
    ensures |places| == 1 && p.mode == PickSource ==> r.destination == p.destination
    decreases |places|
  {
    if places == [] then p else Clicks(Select(p, places[0]), places[1..])
  }

  /** Starting in source mode, the first click is the source and the last of
      two or more is the destination; later clicks never move the source. */
  lemma FirstClickIsSource(places: seq<Place>)
    requires |places| >= 2
    ensures var r := Clicks(Picker(InitialMode(None), None, None), places);
      r.source == Some(places[0]) && r.destination == Some(places[|places| - 1]) && r.mode == PickDestination
  {
  }

  /** `handleLocationSelect` as captured by the render a click happened in:
      the mode read is the one of that render, not the current one. */
  function SelectCaptured(p: Picker, captured: Mode, place: Place): (r: Picker)
    ensures captured == PickSource ==> r.source == Some(place) && r.destination == p.destination
    ensures captured == PickDestination ==> r.destination == Some(place) && r.source == p.source
    ensures r.mode == PickDestination || (captured == PickDestination && r.mode == p.mode)
  {
    match captured
    case PickSource => p.(source := Some(place), mode := PickDestination)
    case PickDestination => p.(destination := Some(place))
  }

  /** Two clicks in source mode whose lookups overlap (the second click
      comes before the first lookup resolves, so both handlers read source
      mode): both set the source, the later one wins, and the destination
      stays as it was. */
  lemma OverlappingClicks(p: Picker, first: Place, second: Place)
    requires p.mode == PickSource
    ensures var r := SelectCaptured(SelectCaptured(p, p.mode, first), p.mode, second);
      r.source == Some(second) && r.destination == p.destination && r.mode == PickDestination
    ensures first != second ==>
      SelectCaptured(SelectCaptured(p, p.mode, first), p.mode, second) != Clicks(p, [first, second])
  {
  }

  // ----- centre and address -----

  function PlacePoint(p: Place): DeliveryMap.Point {
    DeliveryMap.Point(Some(p.lat), Some(p.lng))
  }

  /** The centre fixed when the picker mounts: `center` if it has
      coordinates, else the current source if it has coordinates, else the
      default. */
  function InitialCentre(center: Option<DeliveryMap.Point>, source: Option<Place>, default: DeliveryMap.Point): (c: DeliveryMap.Point)
    ensures DeliveryMap.HasCoords(center) ==> c == center.value
    ensures !DeliveryMap.HasCoords(center) && source.Some? && source.value.lat != 0.0 && source.value.lng != 0.0 ==>
      c == PlacePoint(source.value)
    ensures !DeliveryMap.HasCoords(center) && (source.None? || source.value.lat == 0.0 || source.value.lng == 0.0) ==>
      c == default
  {
    if DeliveryMap.HasCoords(center) then center.value
    else if source.Some? && DeliveryMap.HasCoords(Some(PlacePoint(source.value))) then PlacePoint(source.value)
    else default
  }

  /** The place a click produces. `geocoded` is the address reverse
      geocoding found (none on failure); `show` renders a coordinate as
      JavaScript prints a number. */
  function ClickedPlace(lat: real, lng: real, geocoded: Option<string>, show: real -> string): (p: Place)
    ensures p.lat == lat && p.lng == lng
    ensures StrTruthy(geocoded) ==> p.address == geocoded.value
    ensures !StrTruthy(geocoded) ==> p.address == show(lat) + ", " + show(lng)
  {
    Place(lat, lng, OrDefault(geocoded, show(lat) + ", " + show(lng)))
  }

  /** A clicked point always gets a non-empty address. */
  lemma ClickAddressNonEmpty(lat: real, lng: real, geocoded: Option<string>, show: real -> string)
    ensures ClickedPlace(lat, lng, geocoded, show).address != ""
  {
    var fallback := show(lat) + ", " + show(lng);
    assert |fallback| >= 2;
  }

  /** The address `reverseGeocode` hands to the click handler (`address?.address`). */
  function GeocodedAddress(found: Option<Geocoding.ReverseResult>): Option<string> {
    if found.Some? then found.value.address else None
  }

  /** A click whose reverse lookup fails, has no body or address block, or
      has no display name gets the "lat, lng" text; otherwise it gets the
      service's display name. */
  lemma ClickedPlaceFromReverse(lat: real, lng: real, response: Result<Option<Geocoding.ReverseBody>>,
                                show: real -> string)
    ensures var found := Geocoding.Reverse(response);
      var place := ClickedPlace(lat, lng, GeocodedAddress(found), show);
      && (found.None? || !StrTruthy(found.value.address) ==> place.address == show(lat) + ", " + show(lng))
      && (found.Some? && StrTruthy(found.value.address) ==>
            place.address == response.value.value.displayName.value)
    ensures var found := Geocoding.Reverse(response);
      found.None? <==> response.Err? || response.value.None? || response.value.value.parts.None?
  {
  }

  // ----- the one-shot updater -----

  /** The views `MapUpdater` sets as the centre prop takes the given values
      in turn: the first centre with coordinates, once, unless the updater
      has already initialised. */
  function UpdaterViews(centres: seq<Option<DeliveryMap.Point>>, initialized: bool): (r: seq<DeliveryMap.Point>)
    ensures |r| <= 1
    ensures initialized ==> r == []
    ensures !initialized && (exists i :: 0 <= i < |centres| && DeliveryMap.HasCoords(centres[i])) ==> |r| == 1
    ensures |r| == 1 ==> exists i :: 0 <= i < |centres| && DeliveryMap.HasCoords(centres[i]) && centres[i] == Some(r[0])
    decreases |centres|
  {
    if centres == [] || initialized then []
    else if DeliveryMap.HasCoords(centres[0]) then [centres[0].value]
    else
      var rest := UpdaterViews(centres[1..], false);
      assert forall i :: 1 <= i < |centres| ==> centres[i] == centres[1..][i - 1];
      assert |rest| == 1 ==> exists i :: 0 <= i < |centres[1..]| && DeliveryMap.HasCoords(centres[1..][i]) && centres[1..][i] == Some(rest[0]);
      rest
  }
}

=== FILE: negotiation.dfy ===
/** The pinned-amount record of the chat panel (src/components/ChatInterface.jsx):
    `{amount, confirmed, pinnedBy}`, how it is loaded, pinned, confirmed and
    refreshed by a remote chat update, and when the confirm and pin controls
    are shown. */
module Negotiation {
  import opened Js

  /** A pinned amount; `pinnedBy` is absent when the pin was loaded from the
      chat row or arrived by a remote update before any local pin. */
  datatype Pin = Pin(amount: real, confirmed: bool, pinnedBy: Option<string>)

  /** The pin after loading the chat: a truthy `agreed_amount` is taken as
      already confirmed; otherwise the previous state stays. */
  function LoadPin(prev: Option<Pin>, agreed: Option<real>): (r: Option<Pin>)
    ensures NumTruthy(agreed) ==> r == Some(Pin(agreed.value, true, None))
    ensures !NumTruthy(agreed) ==> r == prev
  {
    if NumTruthy(agreed) then Some(Pin(agreed.value, true, None)) else prev
  }

  /** The realtime UPDATE handler of the chat row: a non-null amount replaces
      the amount and keeps the previous confirmation and pinner (unconfirmed
      and unknown when there was no pin). */
  function RemoteUpdate(prev: Option<Pin>, agreed: Option<real>): (r: Option<Pin>)
    ensures agreed.None? ==> r == prev
    ensures agreed.Some? && prev.Some? ==> r == Some(prev.value.(amount := agreed.value))
    ensures agreed.Some? && prev.None? ==> r == Some(Pin(agreed.value, false, None))
  {
    if agreed.None? then prev
    else
      var confirmed := prev.Some? && prev.value.confirmed;
      var pinnedBy := if prev.Some? then prev.value.pinnedBy else None;
      Some(Pin(agreed.value, confirmed, pinnedBy))
  }

  /** The state a successful pin sets. */
  function Pinned(amount: real, me: string): (p: Pin)
    ensures p.amount == amount && !p.confirmed && p.pinnedBy == Some(me)
  {
    Pin(amount, false, Some(me))
  }

  /** The state a successful confirmation sets. */
  function Confirmed(p: Pin): (r: Pin)
    ensures r.amount == p.amount && r.confirmed && r.pinnedBy == p.pinnedBy
  {
    p.(confirmed := true)
  }

  /** The Confirm Amount button: an unconfirmed pin not pinned by this user. */
  predicate ConfirmShown(pin: Option<Pin>, me: string) {
    pin.Some? && !pin.value.confirmed && pin.value.pinnedBy != Some(me)
  }

  /** The pin input is shown until the amount is confirmed. */
  predicate PinInputShown(pin: Option<Pin>) {
    !(pin.Some? && pin.value.confirmed)
  }

  /** `handlePinAmount`'s check: the input is non-empty, positive, and the chat
      exists. The input is a number field, so it holds either nothing or a
      number. */
  predicate PinAccepted(input: Option<real>, chatId: Option<string>) {
    input.Some? && input.value > 0.0 && chatId.Some?
  }

  /** The pinner never sees the confirm button for their own pin; any other
      user does, and confirming keeps the amount. */
  lemma PinThenConfirm(amount: real, pinner: string, other: string)
    requires pinner != other
    ensures !ConfirmShown(Some(Pinned(amount, pinner)), pinner)
    ensures ConfirmShown(Some(Pinned(amount, pinner)), other)
    ensures Confirmed(Pinned(amount, pinner)).amount == amount && Confirmed(Pinned(amount, pinner)).confirmed
    ensures !PinInputShown(Some(Confirmed(Pinned(amount, pinner))))
  {
  }

  /** A loaded non-zero amount counts as confirmed: neither the confirm button
      nor the pin input is shown. */
  lemma LoadedIsFinal(prev: Option<Pin>, amount: real, me: string)
    requires amount != 0.0
    ensures !ConfirmShown(LoadPin(prev, Some(amount)), me)
    ensures !PinInputShown(LoadPin(prev, Some(amount)))
  {
  }

  /** The confirm button implies the pin input is shown too. */
  lemma ConfirmImpliesInput(pin: Option<Pin>, me: string)
    ensures ConfirmShown(pin, me) ==> PinInputShown(pin)
  {
  }

  /** A remote update never changes whether the pin is confirmed: when the
      other party confirms, the pinner's panel receives the same amount again
      and still shows it as proposed. */
  lemma ConfirmationNotPropagated(amount: real, pinner: string)
    ensures RemoteUpdate(Some(Pinned(amount, pinner)), Some(amount)) == Some(Pinned(amount, pinner))
    ensures PinInputShown(RemoteUpdate(Some(Pinned(amount, pinner)), Some(amount)))
  {
  }

  /** Remote updates preserve confirmation and the pinner, whatever the amount. */
  lemma RemoteKeepsStatus(prev: Pin, agreed: real)
    ensures RemoteUpdate(Some(prev), Some(agreed)).value.confirmed == prev.confirmed
    ensures RemoteUpdate(Some(prev), Some(agreed)).value.pinnedBy == prev.pinnedBy
  {
  }
}

=== FILE: partner.dfy ===
/** The delivery partner's page (src/pages/DeliveryPartner.jsx): the poll that
    picks the active delivery, the nearby list, accepting a selected request,
    the two photo steps and cancelling. The page's state is a `View`; each
    handler maps it, with the outcomes of its backend calls and dialogs, to
    the next `View` and the request it sent. */
module PartnerView {
  import opened Js
  import opened Seqs
  import opened Deliveries
  import opened Persistence

  /** The page's state: the active delivery (if any), the nearby list, and the
      request selected on the map. */
  datatype View = View(active: Option<Delivery>, nearby: seq<Delivery>, selected: Option<Delivery>)

  // ----- the active-delivery poll -----

  /** The statuses `checkActiveDelivery` looks for among the polled rows. */
  predicate Watched(s: Status) {
    s == Accepted || s == PickedUp || s == InTransit || s == Delivered
  }

  /** `deliveries.find(d => [...].includes(d.status)) || null`. */
  function FindActive(rows: seq<Delivery>): (r: Option<Delivery>)
    ensures r.None? <==> forall i :: 0 <= i < |rows| ==> !Watched(rows[i].status)
    ensures r.Some? ==> exists i :: 0 <= i < |rows| && rows[i] == r.value
                                    && Watched(rows[i].status)
                                    && forall j :: 0 <= j < i ==> !Watched(rows[j].status)
  {
    if rows == [] then None
    else if Watched(rows[0].status) then
      assert rows[0] == rows[0];
      Some(rows[0])
    else
      var r := FindActive(rows[1..]);
      if r.Some? then
        ghost var i :| 0 <= i < |rows[1..]| && rows[1..][i] == r.value && Watched(rows[1..][i].status)
                     && forall j :: 0 <= j < i ==> !Watched(rows[1..][j].status);
        assert rows[i + 1] == r.value;
        assert forall j :: 0 <= j < i + 1 ==> !Watched(rows[j].status) by {
          forall j | 0 <= j < i + 1 ensures !Watched(rows[j].status) {
            if j > 0 { assert rows[j] == rows[1..][j - 1]; }
          }
        }
        r
      else
        assert forall i :: 0 <= i < |rows| ==> !Watched(rows[i].status) by {
          forall i | 0 <= i < |rows| ensures !Watched(rows[i].status) {
            if i > 0 { assert rows[i] == rows[1..][i - 1]; }
          }
        }
        r
  }

  /** One run of `checkActiveDelivery`: without a signed-in user nothing is
      polled; a failed poll keeps the view; otherwise the active delivery is
      the first watched row, or none. */
  function CheckActive(v: View, user: Option<string>, poll: Result<seq<Delivery>>): (r: View)
    ensures user.None? || poll.Err? ==> r == v
    ensures user.Some? && poll.Ok? ==> r == v.(active := FindActive(poll.value))
  {
    if user.None? then v
    else
      match poll
      case Ok(rows) => v.(active := FindActive(rows))
      case Err(_) => v
  }

  /** The active delivery the poll finds in the stored rows, through
      `getActiveByPartner` as written. */
  function PollActive(rows: seq<Delivery>, partnerId: string): (r: Option<Delivery>)
    ensures r.Some? ==> r.value in rows && r.value.partnerId == Some(partnerId) && PartnerActive(r.value.status)
    ensures r.None? <==> forall i :: 0 <= i < |rows| ==>
      !(rows[i].partnerId == Some(partnerId) && PartnerActive(rows[i].status))
  {
    var polled := GetActiveByPartner(rows, partnerId);
    var r := FindActive(polled);
    if r.Some? then
      ghost var i :| 0 <= i < |polled| && polled[i] == r.value;
      r
    else
      r
  }

  /** The active delivery the poll would find through a query that also
      returns delivered rows. */
  function PollActiveIntended(rows: seq<Delivery>, partnerId: string): (r: Option<Delivery>)
    ensures r.Some? ==> r.value in rows && r.value.partnerId == Some(partnerId) && Watched(r.value.status)
    ensures r.None? <==> forall i :: 0 <= i < |rows| ==>
      !(rows[i].partnerId == Some(partnerId) && Watched(rows[i].status))
  {
    var polled := GetActiveByPartnerIntended(rows, partnerId);
    var r := FindActive(polled);
    if r.Some? then
      ghost var i :| 0 <= i < |polled| && polled[i] == r.value;
      r
    else
      r
  }

  /** As written, the poll never yields a delivered row: once the partner's
      only delivery is delivered, the next poll clears the active delivery,
      and the "waiting for the sender to confirm" panel disappears. */
  lemma DeliveredNeverPolled(rows: seq<Delivery>, partnerId: string)
    ensures PollActive(rows, partnerId).Some? ==> PollActive(rows, partnerId).value.status != Delivered
  {
  }

  /** A concrete case: one delivered row of this partner, and the poll finds nothing. */
  lemma DeliveredRowDropped(d: Delivery)
    requires d.partnerId.Some? && d.status == Delivered
    ensures PollActive([d], d.partnerId.value) == None
    ensures PollActiveIntended([d], d.partnerId.value) == Some(d)
  {
  }

  // ----- nearby requests -----

  /** `fetchNearbyDeliveries`: nothing without a location; a failed request keeps
      the list; a response without a list empties it. */
  function FetchNearby(v: View, located: bool, reply: Result<Option<seq<Delivery>>>): (r: View)
    ensures !located || reply.Err? ==> r == v
    ensures located && reply.Ok? ==> r == v.(nearby := reply.value.GetOr([]))
  {
    if !located then v
    else
      match reply
      case Ok(list) => v.(nearby := list.GetOr([]))
      case Err(_) => v
  }

  // ----- accepting a request -----

  /** The body of `PUT /api/deliveries/{id}/accept`. */
  datatype AcceptRequest = AcceptRequest(deliveryId: string, partnerName: string, partnerPhone: string)

  /** The request the page sends, with the profile's name and phone or their defaults. */
  function AcceptRequestFor(d: Delivery, profile: UserProfile): (r: AcceptRequest)
    ensures r.deliveryId == d.id
    ensures StrTruthy(profile.fullName) ==> r.partnerName == profile.fullName.value
    ensures !StrTruthy(profile.fullName) ==> r.partnerName == "Delivery Partner"
    ensures StrTruthy(profile.phone) ==> r.partnerPhone == profile.phone.value
    ensures !StrTruthy(profile.phone) ==> r.partnerPhone == ""
  {
    AcceptRequest(d.id, OrDefault(profile.fullName, "Delivery Partner"), OrDefault(profile.phone, ""))
  }

  datatype AcceptStep = AcceptStep(view: View, request: Option<AcceptRequest>)

  /** The Accept Delivery button is in the details card of a selected request,
      which is rendered only while there is no active delivery. */
  predicate AcceptOffered(v: View) {
    v.active.None? && v.selected.Some?
  }

  /** `handleAcceptDelivery(selectedDelivery)` behind its guard. Without a
      loaded profile nothing happens. On success the request becomes the active
      delivery, accepted and assigned to `userId`, and the selection is
      cleared; on failure the view is unchanged. */
  function Accept(v: View, profile: Option<UserProfile>, userId: string, reply: Write): (r: Option<AcceptStep>)
    ensures r.Some? <==> AcceptOffered(v)
    ensures r.Some? && profile.None? ==> r.value == AcceptStep(v, None)
    ensures r.Some? && profile.Some? ==> r.value.request == Some(AcceptRequestFor(v.selected.value, profile.value))
    ensures r.Some? && profile.Some? && reply.Done? ==>
      && r.value.view.active == Some(v.selected.value.(status := Accepted, partnerId := Some(userId)))
      && r.value.view.selected.None?
      && r.value.view.nearby == v.nearby
    ensures r.Some? && reply.Failed? ==> r.value.view == v
  {
    if !AcceptOffered(v) then None
    else if profile.None? then Some(AcceptStep(v, None))
    else
      var d := v.selected.value;
      var request := Some(AcceptRequestFor(d, profile.value));
      match reply
      case Done => Some(AcceptStep(v.(active := Some(d.(status := Accepted, partnerId := Some(userId))), selected := None), request))
      case Failed(_) => Some(AcceptStep(v, request))
  }

  // ----- the photo steps -----

  /** Step 1: the partner has accepted and has not uploaded an item photo. */
  predicate Step1Offered(d: Delivery) {
    d.status == Accepted && !StrTruthy(d.itemPhotoUrl)
  }

  /** The banner shown while the sender has not yet verified the item photo. */
  predicate WaitingVerification(d: Delivery) {
    d.status == Accepted && StrTruthy(d.itemPhotoUrl)
  }

  /** Step 2: the item is verified and no delivery photo exists yet. */
  predicate Step2Offered(d: Delivery) {
    d.status == PickedUp && !StrTruthy(d.deliveryPhotoUrl)
  }

  /** The banner shown while the sender has not yet confirmed receipt. */
  predicate WaitingConfirmation(d: Delivery) {
    d.status == Delivered
  }

  /** The updates sent after an item photo upload: only its URL. */
  function ItemPhotoPatch(url: string): (p: Patch)
    ensures p.itemPhotoUrl == Some(url) && p.(itemPhotoUrl := None) == EmptyPatch
  {
    EmptyPatch.(itemPhotoUrl := Some(url))
  }

  /** The updates sent after a delivery photo upload. */
  function ProofPatch(url: string, now: int): (p: Patch)
    ensures p.deliveryPhotoUrl == Some(url) && p.status == Some(Delivered) && p.deliveredAt == Some(now)
    ensures p.(deliveryPhotoUrl := None, status := None, deliveredAt := None) == EmptyPatch
  {
    EmptyPatch.(deliveryPhotoUrl := Some(url), status := Some(Delivered), deliveredAt := Some(now))
  }

  /** What a photo step did: the next view and the updates it sent, if it got
      as far as the update call. */
  datatype UploadStep = UploadStep(view: View, sent: Option<Patch>)

  /** The URL of a successful upload; a response without a truthy `imageUrl`
      is an error, so no update is sent. */
  function UploadedUrl(upload: Result<Option<string>>): (r: Option<string>)
    ensures r.Some? <==> upload.Ok? && StrTruthy(upload.value)
    ensures r.Some? ==> r == upload.value && r.value != ""
  {
    if upload.Ok? && StrTruthy(upload.value) then upload.value else None
  }

  /** `handleItemVerification(file)` behind the step 1 guard. `upload` is the
      upload endpoint's outcome (the `imageUrl` it returned), `write` that of
      the update. */
  function ItemUpload(v: View, upload: Result<Option<string>>, write: Write): (r: Option<UploadStep>)
    ensures r.Some? <==> v.active.Some? && Step1Offered(v.active.value)
    ensures r.Some? && UploadedUrl(upload).None? ==> r.value == UploadStep(v, None)
    ensures r.Some? && UploadedUrl(upload).Some? ==> r.value.sent == Some(ItemPhotoPatch(UploadedUrl(upload).value))
    ensures r.Some? && UploadedUrl(upload).Some? && write.Done? ==>
      r.value.view == v.(active := Some(v.active.value.(itemPhotoUrl := UploadedUrl(upload))))
    ensures r.Some? ==> r.value.view.active.Some? && r.value.view.active.value.status == v.active.value.status
    ensures r.Some? && write.Failed? ==> r.value.view == v
  {
    if v.active.None? || !Step1Offered(v.active.value) then None
    else
      match UploadedUrl(upload)
      case None => Some(UploadStep(v, None))
      case Some(url) =>
        var sent := Some(ItemPhotoPatch(url));
        match write
        case Done => Some(UploadStep(v.(active := Some(v.active.value.(itemPhotoUrl := Some(url)))), sent))
        case Failed(_) => Some(UploadStep(v, sent))
  }

  /** `handleMarkDelivered(file)` behind the step 2 guard. The local copy gets
      the photo and the delivered status; `delivered_at` is only in the stored row. */
  function MarkDelivered(v: View, upload: Result<Option<string>>, write: Write, now: int): (r: Option<UploadStep>)
    ensures r.Some? <==> v.active.Some? && Step2Offered(v.active.value)
    ensures r.Some? && UploadedUrl(upload).None? ==> r.value == UploadStep(v, None)
    ensures r.Some? && UploadedUrl(upload).Some? ==> r.value.sent == Some(ProofPatch(UploadedUrl(upload).value, now))
    ensures r.Some? && UploadedUrl(upload).Some? && write.Done? ==>
      r.value.view == v.(active := Some(v.active.value.(deliveryPhotoUrl := UploadedUrl(upload), status := Delivered)))
    ensures r.Some? && write.Failed? ==> r.value.view == v
  {
    if v.active.None? || !Step2Offered(v.active.value) then None
    else
      match UploadedUrl(upload)
      case None => Some(UploadStep(v, None))
      case Some(url) =>
        var sent := Some(ProofPatch(url, now));
        match write
        case Done => Some(UploadStep(v.(active := Some(v.active.value.(deliveryPhotoUrl := Some(url), status := Delivered))), sent))
        case Failed(_) => Some(UploadStep(v, sent))
  }

  /** At most one of the four step panels is shown for an active delivery. */
  lemma StepsExclusive(d: Delivery)
    ensures Step1Offered(d) ==> !WaitingVerification(d) && !Step2Offered(d) && !WaitingConfirmation(d)
    ensures WaitingVerification(d) ==> !Step2Offered(d) && !WaitingConfirmation(d)
    ensures Step2Offered(d) ==> !WaitingConfirmation(d)
    ensures d.status == Accepted ==> Step1Offered(d) != WaitingVerification(d)
  {
  }

  // ----- cancelling -----

  /** The cancel button is hidden once the delivery is delivered or completed. */
  predicate CancelShown(d: Delivery) {
    d.status != Delivered && d.status != Completed
  }

  predicate Emergency(s: Status) {
    s == PickedUp || s == InTransit
  }

  const PlainPrompt := "Are you sure you want to cancel this delivery?"
  const EmergencyPrompt := "Item verification is complete. Emergency cancellation may cause disputes. Are you sure you want to cancel?"
  const EmergencyReason := "Emergency cancellation by delivery partner"
  const PlainReason := "Cancelled by delivery partner"

  function CancelPrompt(s: Status): (m: string)
    ensures m == EmergencyPrompt <==> Emergency(s)
  {
    assert |PlainPrompt| != |EmergencyPrompt|;
    if Emergency(s) then EmergencyPrompt else PlainPrompt
  }

  function CancelReason(s: Status): (m: string)
    ensures m == EmergencyReason <==> Emergency(s)
  {
    assert |PlainReason| != |EmergencyReason|;
    if Emergency(s) then EmergencyReason else PlainReason
  }

  function CancelLabel(s: Status): (l: string)
    ensures l == "Emergency Cancel" <==> Emergency(s)
    ensures l == "Cancel Delivery" <==> !Emergency(s)
  {
    if Emergency(s) then "Emergency Cancel" else "Cancel Delivery"
  }

  /** What `handleCancelDelivery` did: the next view, the dialog it asked and
      the reason it sent to the cancel endpoint. */
  datatype CancelStep = CancelStep(view: View, prompt: Option<string>, reason: Option<string>)

  /** `handleCancelDelivery` behind its guard. `reply` is the endpoint's outcome
      (`Ok(b)`: whether the response carried data); `refresh` is the nearby
      list fetched afterwards, `None` when there is no location or that
      fetch failed. */
  function CancelDelivery(v: View, signedIn: bool, confirmed: bool, reply: Result<bool>,
                          refresh: Option<seq<Delivery>>): (r: Option<CancelStep>)
    ensures r.Some? <==> v.active.Some? && CancelShown(v.active.value)
    ensures r.Some? && !signedIn ==> r.value == CancelStep(v, None, None)
    ensures r.Some? && signedIn ==> r.value.prompt == Some(CancelPrompt(v.active.value.status))
    ensures r.Some? ==> (r.value.reason.Some? <==> signedIn && confirmed)
    ensures r.Some? && r.value.reason.Some? ==> r.value.reason.value == CancelReason(v.active.value.status)
    ensures r.Some? && signedIn && confirmed && reply == Ok(true) ==>
      r.value.view == View(None, refresh.GetOr([]), None)
    ensures r.Some? && !(signedIn && confirmed && reply == Ok(true)) ==> r.value.view == v
  {
    if v.active.None? || !CancelShown(v.active.value) then None
    else if !signedIn then Some(CancelStep(v, None, None))
    else
      var s := v.active.value.status;
      var prompt := Some(CancelPrompt(s));
      if !confirmed then Some(CancelStep(v, prompt, None))
      else if reply == Ok(true) then Some(CancelStep(View(None, refresh.GetOr([]), None), prompt, Some(CancelReason(s))))
      else Some(CancelStep(v, prompt, Some(CancelReason(s))))
  }
}

=== FILE: persistence.dfy ===
/** The `db` helpers of src/utils/supabase.js, as functions over the rows of a
    table. A query's transport or authorization failure is a parameter where a
    helper treats it specially; elsewhere it is the caller's parameter. */
module Persistence {
  import opened Js
  import opened Seqs
  import opened Deliveries

  // ----- users -----

  /** A `users` row, restricted to the columns this client reads or writes. */
  datatype UserProfile = UserProfile(
    id: string,
    fullName: Option<string>,
    phone: Option<string>,
    rewardPoints: Option<int>,
    lat: Option<real>,
    lng: Option<real>,
    isAvailable: bool,
    updatedAt: Option<int>)

  /** The `updates` object handed to `db.users.update`. */
  datatype UserPatch = UserPatch(
    fullName: Option<string>,
    phone: Option<string>,
    lat: Option<real>,
    lng: Option<real>,
    isAvailable: Option<bool>)

  /** `db.users.update`: the present fields replace the row's and `updated_at` is stamped. */
  function UpdateUser(u: UserProfile, p: UserPatch, now: int): (r: UserProfile)
    ensures r.id == u.id && r.rewardPoints == u.rewardPoints
    ensures r.updatedAt == Some(now)
    ensures r.fullName == Coalesce(p.fullName, u.fullName)
    ensures r.phone == Coalesce(p.phone, u.phone)
    ensures r.lat == Coalesce(p.lat, u.lat) && r.lng == Coalesce(p.lng, u.lng)
    ensures r.isAvailable == p.isAvailable.GetOr(u.isAvailable)
  {
    u.(fullName := Coalesce(p.fullName, u.fullName),
       phone := Coalesce(p.phone, u.phone),
       lat := Coalesce(p.lat, u.lat),
       lng := Coalesce(p.lng, u.lng),
       isAvailable := p.isAvailable.GetOr(u.isAvailable),
       updatedAt := Some(now))
  }

  /** The error code PostgREST gives `.maybeSingle()` when it cannot return exactly one row. */
  const NoRowsCode := "PGRST116"

  /** `.maybeSingle()` followed by `if (error && error.code !== 'PGRST116') throw error;
      return data;`: one matching row is returned, none (or several, which
      PostgREST reports with the same code) gives null, and only a failure with
      another code is thrown. */
  function GetOrNull<T>(matches: seq<T>, failure: Option<string>): (r: Result<Option<T>>)
    ensures r.Err? <==> failure.Some? && failure.value != NoRowsCode
    ensures r.Err? ==> r.message == failure.value
    ensures r == Ok(None) <==> (failure.None? && |matches| != 1) || failure == Some(NoRowsCode)
    ensures r.Ok? && r.value.Some? <==> failure.None? && |matches| == 1
    ensures r.Ok? && r.value.Some? ==> r.value.value == matches[0]
  {
    if failure.Some? && failure.value != NoRowsCode then Err(failure.value)
    else if failure.None? && |matches| == 1 then Ok(Some(matches[0]))
    else Ok(None)
  }

  /** `db.users.get(id)`. */
  function GetUser(users: seq<UserProfile>, id: string, failure: Option<string>): (r: Result<Option<UserProfile>>)
    ensures failure.None? && (forall i :: 0 <= i < |users| ==> users[i].id != id) ==> r == Ok(None)
    ensures r.Ok? && r.value.Some? ==> r.value.value.id == id && r.value.value in users
    ensures r.Err? <==> failure.Some? && failure.value != NoRowsCode
    ensures r.Err? ==> r.message == failure.value
    ensures var matches := Filter(users, (u: UserProfile) => u.id == id);
      failure.None? && |matches| == 1 ==> r == Ok(Some(matches[0]))
  {
    var matches := Filter(users, (u: UserProfile) => u.id == id);
    FilterNoneWhenAbsent(users, id);
    GetOrNull(matches, failure)
  }

  lemma FilterNoneWhenAbsent(users: seq<UserProfile>, id: string)
    ensures (forall i :: 0 <= i < |users| ==> users[i].id != id) ==>
      Filter(users, (u: UserProfile) => u.id == id) == []
  {
    if forall i :: 0 <= i < |users| ==> users[i].id != id {
      FilterNone(users, (u: UserProfile) => u.id == id);
    }
  }

  // ----- deliveries -----

  /** The ordering column of the list queries; the database stamps `created_at`
      on insert, so a stored row always has one. */
  function CreatedKey(d: Delivery): int {
    d.createdAt.GetOr(0)
  }

  /** The statuses `getActiveBySender` asks for. */
  predicate SenderActive(s: Status) {
    s == Pending || s == Accepted || s == PickedUp || s == InTransit
  }

  /** The statuses `getActiveByPartner` asks for. */
  predicate PartnerActive(s: Status) {
    s == Accepted || s == PickedUp || s == InTransit
  }

  /** `db.deliveries.getBySender`: the sender's rows, newest first. */
  function GetBySender(rows: seq<Delivery>, senderId: string): (r: seq<Delivery>)
    ensures forall i :: 0 <= i < |r| ==> r[i].senderId == senderId
    ensures forall i :: 0 <= i < |rows| && rows[i].senderId == senderId ==> rows[i] in r
    ensures multiset(r) <= multiset(rows)
    ensures SortedDesc(r, CreatedKey)
  {
    SortedSelection(rows, (d: Delivery) => d.senderId == senderId)
  }

  /** `db.deliveries.getByPartner`: the partner's rows, newest first. */
  function GetByPartner(rows: seq<Delivery>, partnerId: string): (r: seq<Delivery>)
    ensures forall i :: 0 <= i < |r| ==> r[i].partnerId == Some(partnerId)
    ensures forall i :: 0 <= i < |rows| && rows[i].partnerId == Some(partnerId) ==> rows[i] in r
    ensures multiset(r) <= multiset(rows)
    ensures SortedDesc(r, CreatedKey)
  {
    SortedSelection(rows, (d: Delivery) => d.partnerId == Some(partnerId))
  }

  /** `db.deliveries.getActiveBySender`: the sender's rows whose status is
      pending, accepted, picked up or in transit, newest first. */
  function GetActiveBySender(rows: seq<Delivery>, senderId: string): (r: seq<Delivery>)
    ensures forall i :: 0 <= i < |r| ==> r[i].senderId == senderId && SenderActive(r[i].status)
    ensures forall i :: 0 <= i < |rows| && rows[i].senderId == senderId && SenderActive(rows[i].status)
              ==> rows[i] in r
    ensures multiset(r) <= multiset(rows)
    ensures SortedDesc(r, CreatedKey)
  {
    SortedSelection(rows, (d: Delivery) => d.senderId == senderId && SenderActive(d.status))
  }

  /** `db.deliveries.getActiveByPartner`: the partner's rows whose status is
      accepted, picked up or in transit, newest first. A delivered row is
      never returned. */
  function GetActiveByPartner(rows: seq<Delivery>, partnerId: string): (r: seq<Delivery>)
    ensures forall i :: 0 <= i < |r| ==> r[i].partnerId == Some(partnerId) && PartnerActive(r[i].status)
    ensures forall i :: 0 <= i < |rows| && rows[i].partnerId == Some(partnerId) && PartnerActive(rows[i].status)
              ==> rows[i] in r
    ensures forall i :: 0 <= i < |r| ==> r[i].status != Delivered
    ensures multiset(r) <= multiset(rows)
    ensures SortedDesc(r, CreatedKey)
  {
    SortedSelection(rows, (d: Delivery) => d.partnerId == Some(partnerId) && PartnerActive(d.status))
  }

  /** The statuses the partner page's poll looks for: the active ones and delivered. */
  predicate PartnerActiveOrDelivered(s: Status) {
    PartnerActive(s) || s == Delivered
  }

  /** `getActiveByPartner` with `delivered` added to its status list, so that
      the partner page's poll can find a delivery awaiting the sender's
      confirmation. */
  function GetActiveByPartnerIntended(rows: seq<Delivery>, partnerId: string): (r: seq<Delivery>)
    ensures forall i :: 0 <= i < |r| ==> r[i].partnerId == Some(partnerId) && PartnerActiveOrDelivered(r[i].status)
    ensures forall i :: 0 <= i < |rows| && rows[i].partnerId == Some(partnerId) && PartnerActiveOrDelivered(rows[i].status)
              ==> rows[i] in r
    ensures multiset(r) <= multiset(rows)
    ensures SortedDesc(r, CreatedKey)
  {
    SortedSelection(rows, (d: Delivery) => d.partnerId == Some(partnerId) && PartnerActiveOrDelivered(d.status))
  }

  /** `.eq(...).in(...).order('created_at', { ascending: false })`. */
  function SortedSelection(rows: seq<Delivery>, p: Delivery -> bool): (r: seq<Delivery>)
    ensures forall i :: 0 <= i < |r| ==> p(r[i])
    ensures forall i :: 0 <= i < |rows| && p(rows[i]) ==> rows[i] in r
    ensures multiset(r) <= multiset(rows)
    ensures SortedDesc(r, CreatedKey)
  {
    SortedFilter(rows, p, CreatedKey)
  }

  /** The search radius, in kilometres, when the caller gives none. */
  const DefaultRadius: real := 10.0

  /** `db.deliveries.getNearby(lat, lng, radius = 10)`: pending, unassigned rows
      whose pickup point lies within `radius` of (`lat`, `lng`), in the order
      the table returned them. `distance` is the Haversine helper. */
  function GetNearby(rows: seq<Delivery>, lat: real, lng: real,
                     distance: (real, real, real, real) -> real,
                     radius: real := DefaultRadius): (r: seq<Delivery>)
    ensures forall i :: 0 <= i < |r| ==>
      && r[i].status == Pending
      && r[i].partnerId.None?
      && distance(lat, lng, r[i].source.lat, r[i].source.lng) <= radius
    ensures forall i :: 0 <= i < |rows| ==>
      (rows[i].status == Pending && rows[i].partnerId.None?
       && distance(lat, lng, rows[i].source.lat, rows[i].source.lng) <= radius) ==> rows[i] in r
    ensures multiset(r) <= multiset(rows)
  {
    Filter(rows, (d: Delivery) =>
      d.status == Pending && d.partnerId.None? && distance(lat, lng, d.source.lat, d.source.lng) <= radius)
  }

  // ----- chats and messages -----

  /** A `chats` row. */
  datatype ChatRow = ChatRow(id: string, deliveryId: string, agreedAmount: Option<real>, updatedAt: Option<int>)

  /** `db.chats.getByDelivery(deliveryId)`: like `users.get`, null when no chat exists yet. */
  function GetChatByDelivery(chats: seq<ChatRow>, deliveryId: string, failure: Option<string>): (r: Result<Option<ChatRow>>)
    ensures failure.None? && (forall i :: 0 <= i < |chats| ==> chats[i].deliveryId != deliveryId) ==> r == Ok(None)
    ensures r.Ok? && r.value.Some? ==> r.value.value.deliveryId == deliveryId && r.value.value in chats
    ensures r.Err? <==> failure.Some? && failure.value != NoRowsCode
    ensures r.Err? ==> r.message == failure.value
    ensures var matches := Filter(chats, (c: ChatRow) => c.deliveryId == deliveryId);
      failure.None? && |matches| == 1 ==> r == Ok(Some(matches[0]))
  {
    var p := (c: ChatRow) => c.deliveryId == deliveryId;
    if forall i :: 0 <= i < |chats| ==> chats[i].deliveryId != deliveryId then
      FilterNone(chats, p);
      GetOrNull(Filter(chats, p), failure)
    else
      GetOrNull(Filter(chats, p), failure)
  }

  /** The table after `db.chats.update` and the row it returns. */
  datatype ChatUpdate = ChatUpdate(table: seq<ChatRow>, returned: Option<ChatRow>)

  /** `db.chats.update(chatId, { agreed_amount })`: the row with that id gets the
      amount and an `updated_at` stamp, every other row is untouched, and the
      helper returns the first updated row, or null when no row had that id. */
  function UpdateChat(chats: seq<ChatRow>, chatId: string, amount: real, now: int): (r: ChatUpdate)
    ensures |r.table| == |chats|
    ensures forall i :: 0 <= i < |chats| ==>
      r.table[i] == if chats[i].id == chatId then chats[i].(agreedAmount := Some(amount), updatedAt := Some(now)) else chats[i]
    ensures r.returned.None? <==> forall i :: 0 <= i < |chats| ==> chats[i].id != chatId
    ensures r.returned.Some? ==> exists i :: 0 <= i < |chats| && chats[i].id == chatId && r.returned.value == r.table[i]
                                  && forall j :: 0 <= j < i ==> chats[j].id != chatId
  {
    var table := seq(|chats|, i requires 0 <= i < |chats| =>
      if chats[i].id == chatId then chats[i].(agreedAmount := Some(amount), updatedAt := Some(now)) else chats[i]);
    var p := (c: ChatRow) => c.id == chatId;
    var updated := Filter(table, p);
    FirstUpdated(chats, table, chatId, p);
    if |updated| > 0 then ChatUpdate(table, Some(updated[0])) else ChatUpdate(table, None)
  }

  lemma FirstUpdated(chats: seq<ChatRow>, table: seq<ChatRow>, chatId: string, p: ChatRow -> bool)
    requires |table| == |chats|
    requires forall i :: 0 <= i < |chats| ==> table[i].id == chats[i].id
    requires forall c :: p(c) == (c.id == chatId)
    ensures |Filter(table, p)| == 0 <==> forall i :: 0 <= i < |chats| ==> chats[i].id != chatId
    ensures |Filter(table, p)| > 0 ==>
      exists i :: (0 <= i < |chats| && chats[i].id == chatId
                   && Filter(table, p)[0] == table[i] && forall j :: 0 <= j < i ==> chats[j].id != chatId)
  {
    if exists i :: 0 <= i < |chats| && chats[i].id == chatId {
      var i := FirstIndex(chats, chatId);
      FilterFirst(table, p, i);
    } else {
      FilterNone(table, p);
    }
  }

  /** The position of the first row with the given id. */
  function FirstIndex(chats: seq<ChatRow>, chatId: string): (i: nat)
    requires exists i :: 0 <= i < |chats| && chats[i].id == chatId
    ensures i < |chats| && chats[i].id == chatId
    ensures forall j :: 0 <= j < i ==> chats[j].id != chatId
  {
    if chats[0].id == chatId then 0
    else
      assert exists i :: 0 <= i < |chats[1..]| && chats[1..][i].id == chatId by {
        var k :| 0 <= k < |chats| && chats[k].id == chatId;
        assert chats[1..][k - 1] == chats[k];
      }
      1 + FirstIndex(chats[1..], chatId)
  }

  /** A `messages` row. */
  datatype MessageRow = MessageRow(id: string, chatId: string, senderId: string, content: string,
                                   isSystem: bool, createdAt: int)

  /** The `messageData` object handed to `db.chats.addMessage`; it may carry a
      `chat_id` of its own. */
  datatype MessageDraft = MessageDraft(senderId: string, content: string, isSystem: bool, chatId: Option<string>)

  /** `db.chats.addMessage(chatId, messageData)`: the inserted row carries the
      draft's fields, but its `chat_id` is always the argument. The row id and
      `created_at` are assigned by the database. */
  function AddMessage(chatId: string, draft: MessageDraft, rowId: string, now: int): (r: MessageRow)
    ensures r.chatId == chatId
    ensures r.senderId == draft.senderId && r.content == draft.content && r.isSystem == draft.isSystem
    ensures r.id == rowId && r.createdAt == now
  {
    MessageRow(rowId, chatId, draft.senderId, draft.content, draft.isSystem, now)
  }

  function MessageKey(m: MessageRow): int {
    -m.createdAt
  }

  /** `db.chats.getMessages(chatId)`: the chat's messages, oldest first. */
  function GetMessages(rows: seq<MessageRow>, chatId: string): (r: seq<MessageRow>)
    ensures forall i :: 0 <= i < |r| ==> r[i].chatId == chatId
    ensures forall i :: 0 <= i < |rows| && rows[i].chatId == chatId ==> rows[i] in r
    ensures forall i, j :: 0 <= i < j < |r| ==> r[i].createdAt <= r[j].createdAt
    ensures multiset(r) <= multiset(rows)
  {
    var r := SortedFilter(rows, (m: MessageRow) => m.chatId == chatId, MessageKey);
    assert forall i, j :: 0 <= i < j < |r| ==> MessageKey(r[i]) >= MessageKey(r[j]);
    r
  }
}

=== FILE: profile.dfy ===
/** The profile page's statistics (src/pages/Profile.jsx, `fetchUserStats`):
    completed deliveries per role, the average rating received as a partner,
    and the five most recent completed deliveries. */
module Profile {
  import opened Js
  import opened Seqs
  import opened Deliveries

  /** How many completed rows per role are looked at. */
  const Cap := 5

  predicate IsCompleted(d: Delivery) {
    d.status == Completed
  }

  /** The completed rows of one role's list, capped before anything is counted. */
  function CompletedCapped(rows: seq<Delivery>): (r: seq<Delivery>)
    ensures |r| <= Cap
    ensures forall i :: 0 <= i < |r| ==> IsCompleted(r[i]) && r[i] in rows
    ensures |Filter(rows, IsCompleted)| <= Cap ==> r == Filter(rows, IsCompleted)
    ensures var f := Filter(rows, IsCompleted); r == f[..Min(Cap, |f|)]
  {
    Take(Filter(rows, IsCompleted), Cap)
  }

  /** The truthy ratings' sum and count. */
  function RatingSum(rows: seq<Delivery>): int {
    if rows == [] then 0
    else (if IntTruthy(rows[0].rating) then rows[0].rating.value else 0) + RatingSum(rows[1..])
  }

  function RatedCount(rows: seq<Delivery>): (n: nat)
    ensures n <= |rows|
  {
    if rows == [] then 0
    else (if IntTruthy(rows[0].rating) then 1 else 0) + RatedCount(rows[1..])
  }

  /** Every truthy rating lies in the star range. */
  predicate RatingsInRange(rows: seq<Delivery>) {
    forall i :: 0 <= i < |rows| && IntTruthy(rows[i].rating) ==> 1 <= rows[i].rating.value <= 5
  }

  /** The sum of star-range ratings lies between the count and five times it. */
  lemma {:induction false} SumBounds(rows: seq<Delivery>)
    requires RatingsInRange(rows)
    ensures RatedCount(rows) <= RatingSum(rows) <= 5 * RatedCount(rows)
  {
    if rows != [] {
      assert RatingsInRange(rows[1..]) by {
        forall i | 0 <= i < |rows[1..]| && IntTruthy(rows[1..][i].rating)
          ensures 1 <= rows[1..][i].rating.value <= 5
        {
          assert rows[1..][i] == rows[i + 1];
        }
      }
      SumBounds(rows[1..]);
    }
  }

  /** No truthy rating means a count of zero, and back. */
  lemma {:induction false} NoneRated(rows: seq<Delivery>)
    ensures RatedCount(rows) == 0 <==> forall i :: 0 <= i < |rows| ==> !IntTruthy(rows[i].rating)
  {
    if rows != [] {
      NoneRated(rows[1..]);
      assert forall i :: 1 <= i < |rows| ==> rows[i] == rows[1..][i - 1];
    }
  }

  /** The mean of `count` values summing to `sum`. */
  function Mean(sum: int, count: int): (m: real)
    requires count > 0
    ensures m * (count as real) == sum as real
  {
    sum as real / count as real
  }

  /** A mean of values from 1 to 5 lies between 1 and 5. */
  lemma MeanBounds(sum: int, count: int)
    requires 0 < count <= sum <= 5 * count
    ensures 1.0 <= Mean(sum, count) <= 5.0
  {
    var m, c := Mean(sum, count), count as real;
    ScaleBy(5.0 - m, c);
    ScaleBy(m - 1.0, c);
  }

  /** A product with a positive factor has the sign of the other factor. */
  lemma ScaleBy(x: real, c: real)
    requires c > 0.0
    ensures x * c >= 0.0 ==> x >= 0.0
  {
    if x < 0.0 {
      assert (-x) * c > 0.0;
    }
  }

  /** The shown statistics. `avgRating` is the exact average; the page
      rounds it to one decimal for display. */
  datatype Stats = Stats(totalDeliveries: nat, totalRequests: nat, avgRating: real)

  /** `setStats`: the capped completed counts per role, and the average of
      the truthy ratings on the capped partner rows (0 when there are none). */
  function ComputeStats(asPartner: seq<Delivery>, asSender: seq<Delivery>): (r: Stats)
    ensures r.totalDeliveries == |CompletedCapped(asPartner)| <= Cap
    ensures r.totalRequests == |CompletedCapped(asSender)| <= Cap
    ensures RatedCount(CompletedCapped(asPartner)) == 0 ==> r.avgRating == 0.0
    ensures RatedCount(CompletedCapped(asPartner)) > 0 ==>
      r.avgRating == Mean(RatingSum(CompletedCapped(asPartner)), RatedCount(CompletedCapped(asPartner)))
  {
    var partner := CompletedCapped(asPartner);
    var count := RatedCount(partner);
    if count > 0 then
      var avg := Mean(RatingSum(partner), count);
      Stats(|partner|, |CompletedCapped(asSender)|, avg)
    else
      Stats(|partner|, |CompletedCapped(asSender)|, 0.0)
  }

  /** With star-range ratings, the average is 0 exactly when nothing is
      rated, and otherwise between 1 and 5. */
  lemma AverageInRange(asPartner: seq<Delivery>, asSender: seq<Delivery>)
    requires RatingsInRange(CompletedCapped(asPartner))
    ensures var avg := ComputeStats(asPartner, asSender).avgRating;
      avg == 0.0 || 1.0 <= avg <= 5.0
    ensures ComputeStats(asPartner, asSender).avgRating == 0.0 <==>
      forall i :: 0 <= i < |CompletedCapped(asPartner)| ==> !IntTruthy(CompletedCapped(asPartner)[i].rating)
  {
    var partner := CompletedCapped(asPartner);
    SumBounds(partner);
    NoneRated(partner);
    if RatedCount(partner) > 0 {
      MeanBounds(RatingSum(partner), RatedCount(partner));
    }
  }

  // ----- the recent list -----

  datatype Role = AsPartner | AsSender

  /** A row of the recent list, tagged with the user's role in it. */
  datatype Recent = Recent(delivery: Delivery, role: Role)

  /** The sort key: the completion time, else the creation time (a missing
      date counts as time 0). */
  function RecentKey(e: Recent): int {
    Coalesce(e.delivery.completedAt, e.delivery.createdAt).GetOr(0)
  }

  function Tag(rows: seq<Delivery>, role: Role): (r: seq<Recent>)
    ensures |r| == |rows|
    ensures forall i :: 0 <= i < |r| ==> r[i] == Recent(rows[i], role)
  {
    if rows == [] then [] else [Recent(rows[0], role)] + Tag(rows[1..], role)
  }

  /** Both capped lists, partner rows first, before sorting. */
  function Candidates(asPartner: seq<Delivery>, asSender: seq<Delivery>): (r: seq<Recent>)
    ensures |r| == |CompletedCapped(asPartner)| + |CompletedCapped(asSender)|
    ensures var p := CompletedCapped(asPartner);
      forall i :: 0 <= i < |p| ==> r[i] == Recent(p[i], AsPartner)
    ensures var p, q := CompletedCapped(asPartner), CompletedCapped(asSender);
      forall i :: |p| <= i < |r| ==> r[i] == Recent(q[i - |p|], AsSender)
  {
    Tag(CompletedCapped(asPartner), AsPartner) + Tag(CompletedCapped(asSender), AsSender)
  }

  /** The first `k` of a descending list hold the largest keys. */
  lemma TakeHoldsLargest<T>(sorted: seq<T>, k: nat, key: T -> int)
    requires SortedDesc(sorted, key)
    ensures forall e :: e in sorted && e !in Take(sorted, k) ==>
      forall i :: 0 <= i < |Take(sorted, k)| ==> key(Take(sorted, k)[i]) >= key(e)
  {
    var r := Take(sorted, k);
    forall e | e in sorted && e !in r
      ensures forall i :: 0 <= i < |r| ==> key(r[i]) >= key(e)
    {
      var j :| 0 <= j < |sorted| && sorted[j] == e;
      assert j >= |r|;
    }
  }

  lemma CandidatesCompleted(asPartner: seq<Delivery>, asSender: seq<Delivery>)
    ensures forall e :: e in Candidates(asPartner, asSender) ==> IsCompleted(e.delivery)
  {
    var p, q := Tag(CompletedCapped(asPartner), AsPartner), Tag(CompletedCapped(asSender), AsSender);
    forall e: Recent | e in p + q ensures IsCompleted(e.delivery) {
      if e in p {
        var k :| 0 <= k < |p| && p[k] == e;
      } else {
        var k :| 0 <= k < |q| && q[k] == e;
      }
    }
  }

  /** A prefix holds no element more often than the whole sequence. */
  lemma PrefixWithin<T>(s: seq<T>, n: nat)
    requires n <= |s|
    ensures multiset(s[..n]) <= multiset(s)
  {
    assert s == s[..n] + s[n..];
  }

  /** The recent list: the candidates sorted newest first, then capped. */
  function RecentList(asPartner: seq<Delivery>, asSender: seq<Delivery>): (r: seq<Recent>)
    ensures |r| == Min(Cap, |Candidates(asPartner, asSender)|)
    ensures SortedDesc(r, RecentKey)
    ensures forall i :: 0 <= i < |r| ==> r[i] in Candidates(asPartner, asSender)
    ensures multiset(r) <= multiset(Candidates(asPartner, asSender))
    ensures forall i :: 0 <= i < |r| ==> IsCompleted(r[i].delivery)
    ensures forall e :: e in Candidates(asPartner, asSender) && e !in r ==>
      forall i :: 0 <= i < |r| ==> RecentKey(r[i]) >= RecentKey(e)
  {
    var all := Candidates(asPartner, asSender);
    var r := Take(SortDesc(all, RecentKey), Cap);
    TopK(all, Cap, RecentKey);
    CandidatesCompleted(asPartner, asSender);
    r
  }

  /** The first `k` of the descending sort: sorted, drawn from `s` no more
      often than `s` holds each element, and no element left out has a larger
      key than one kept. */
  lemma TopK<T>(s: seq<T>, k: nat, key: T -> int)
    ensures var r := Take(SortDesc(s, key), k);
      && |r| == Min(k, |s|)
      && SortedDesc(r, key)
      && (forall i :: 0 <= i < |r| ==> r[i] in s)
      && multiset(r) <= multiset(s)
      && (forall e :: e in s && e !in r ==> forall i :: 0 <= i < |r| ==> key(r[i]) >= key(e))
  {
    var sorted := SortDesc(s, key);
    var r := Take(sorted, k);
    SameMembers(sorted, s);
    TakeHoldsLargest(sorted, k, key);
    PrefixWithin(sorted, |r|);
    forall i | 0 <= i < |r| ensures r[i] in s {
      assert r[i] == sorted[i];
    }
    forall i, j | 0 <= i < j < |r| ensures key(r[i]) >= key(r[j]) {
      assert r[i] == sorted[i] && r[j] == sorted[j];
    }
  }
}

=== FILE: request_form.dfy ===
/** The sender's request form (src/components/DeliveryRequestForm.jsx): the
    field validator, error clearing on edit, and the row inserted on submit. */
module RequestForm {
  import opened Js
  import opened JsStrings
  import opened Deliveries
  import Lifecycle

  /** The keys of the error map. */
  datatype Field = ItemName | Phone | DeliveryAmount | TimeLimit | Source | Destination | Submit

  /** The form's inputs. The amount is a number input, whose value is either
      empty (`None`) or a number. Locations are set through the map picker. */
  datatype Form = Form(itemName: string, phone: string, deliveryAmount: Option<real>, timeLimit: string,
                       source: Option<Place>, destination: Option<Place>)

  /** The form as first shown: the phone is prefilled from the profile. */
  function InitialForm(profilePhone: Option<string>): (f: Form)
    ensures f.itemName == "" && f.deliveryAmount.None? && f.timeLimit == ""
    ensures f.source.None? && f.destination.None?
    ensures f.phone == OrDefault(profilePhone, "")
  {
    Form("", OrDefault(profilePhone, ""), None, "", None, None)
  }

  const ItemNameRequired := "Item name is required"
  const PhoneRequired := "Phone number is required"
  const PhoneDigits := "Phone number must be 10 digits"
  const AmountRequired := "Delivery amount is required"
  const AmountPositive := "Amount must be greater than 0"
  const TimeLimitRequired := "Time limit is required"
  const SourceRequired := "Please select source location on map"
  const DestinationRequired := "Please select destination location on map"
  const SubmitFailed := "Failed to create delivery request. Please try again."

  /** The phone check: the digits of the input, other characters dropped,
      must be exactly ten. */
  predicate PhoneOk(phone: string) {
    |DigitsOnly(phone)| == 10
  }

  const AllFields: set<Field> := {ItemName, Phone, DeliveryAmount, TimeLimit, Source, Destination, Submit}

  /** The message `validateForm` records for one field, if the field fails. */
  function ErrorFor(f: Form, k: Field): Option<string> {
    match k
    case ItemName => if Trim(f.itemName) == "" then Some(ItemNameRequired) else None
    case Phone =>
      if f.phone == "" then Some(PhoneRequired)
      else if !PhoneOk(f.phone) then Some(PhoneDigits)
      else None
    case DeliveryAmount =>
      if f.deliveryAmount.None? then Some(AmountRequired)
      else if f.deliveryAmount.value <= 0.0 then Some(AmountPositive)
      else None
    case TimeLimit => if f.timeLimit == "" then Some(TimeLimitRequired) else None
    case Source => if f.source.None? then Some(SourceRequired) else None
    case Destination => if f.destination.None? then Some(DestinationRequired) else None
    case Submit => None
  }

  /** `validateForm`'s error map: one entry per failing field, each field
      checked independently. */
  function Validate(f: Form): (r: map<Field, string>)
    ensures ItemName in r <==> Trim(f.itemName) == ""
    ensures ItemName in r ==> r[ItemName] == ItemNameRequired
    ensures Phone in r <==> f.phone == "" || !PhoneOk(f.phone)
    ensures Phone in r ==> r[Phone] == (if f.phone == "" then PhoneRequired else PhoneDigits)
    ensures DeliveryAmount in r <==> f.deliveryAmount.None? || f.deliveryAmount.value <= 0.0
    ensures DeliveryAmount in r ==> r[DeliveryAmount] == (if f.deliveryAmount.None? then AmountRequired else AmountPositive)
    ensures TimeLimit in r <==> f.timeLimit == ""
    ensures TimeLimit in r ==> r[TimeLimit] == TimeLimitRequired
    ensures Source in r <==> f.source.None?
    ensures Source in r ==> r[Source] == SourceRequired
    ensures Destination in r <==> f.destination.None?
    ensures Destination in r ==> r[Destination] == DestinationRequired
    ensures Submit !in r
    ensures forall k :: k in r ==> r[k] != ""
  {
    MessagesNonEmpty(f);
    map k | k in AllFields && ErrorFor(f, k).Some? :: ErrorFor(f, k).value
  }

  lemma MessagesNonEmpty(f: Form)
    ensures forall k :: ErrorFor(f, k).Some? ==> ErrorFor(f, k).value != ""
  {
    forall k | ErrorFor(f, k).Some? ensures ErrorFor(f, k).value != "" {
      var m := ErrorFor(f, k).value;
      assert |m| > 0 by {
        match k
        case ItemName => assert m == ItemNameRequired;
        case Phone => assert m == PhoneRequired || m == PhoneDigits;
        case DeliveryAmount => assert m == AmountRequired || m == AmountPositive;
        case TimeLimit => assert m == TimeLimitRequired;
        case Source => assert m == SourceRequired;
        case Destination => assert m == DestinationRequired;
      }
    }
  }

  /** Every input is acceptable. */
  predicate Acceptable(f: Form) {
    && Trim(f.itemName) != ""
    && f.phone != "" && PhoneOk(f.phone)
    && f.deliveryAmount.Some? && f.deliveryAmount.value > 0.0
    && f.timeLimit != ""
    && f.source.Some? && f.destination.Some?
  }

  /** The form passes validation exactly when every input is acceptable. */
  lemma ValidIffAcceptable(f: Form)
    ensures |Validate(f)| == 0 <==> Acceptable(f)
  {
    if Acceptable(f) {
      AcceptableHasNoErrors(f);
    } else {
      UnacceptableHasAnError(f);
    }
  }

  lemma AcceptableHasNoErrors(f: Form)
    requires Acceptable(f)
    ensures Validate(f) == map[]
  {
    var r := Validate(f);
    assert ItemName !in r && Phone !in r && DeliveryAmount !in r && TimeLimit !in r;
    assert Source !in r && Destination !in r && Submit !in r;
    forall k: Field ensures k !in r {
      match k
      case ItemName =>
      case Phone =>
      case DeliveryAmount =>
      case TimeLimit =>
      case Source =>
      case Destination =>
      case Submit =>
    }
    assert r.Keys == {};
  }

  lemma UnacceptableHasAnError(f: Form)
    requires !Acceptable(f)
    ensures |Validate(f)| > 0
  {
    var r := Validate(f);
    var k := if Trim(f.itemName) == "" then ItemName
      else if f.phone == "" || !PhoneOk(f.phone) then Phone
      else if f.deliveryAmount.None? || f.deliveryAmount.value <= 0.0 then DeliveryAmount
      else if f.timeLimit == "" then TimeLimit
      else if f.source.None? then Source
      else Destination;
    assert k in r.Keys;
  }

  lemma {:induction false} DigitsOnlyAppend(x: string, y: string)
    ensures DigitsOnly(x + y) == DigitsOnly(x) + DigitsOnly(y)
    decreases |x|
  {
    if x == [] {
      assert x + y == y;
    } else {
      var h: string := if IsDigit(x[0]) then [x[0]] else [];
      assert (x + y)[0] == x[0];
      assert (x + y)[1..] == x[1..] + y;
      calc {
        DigitsOnly(x + y);
        { DigitsOnlyCons(x + y); }
        h + DigitsOnly(x[1..] + y);
        { DigitsOnlyAppend(x[1..], y); }
        h + (DigitsOnly(x[1..]) + DigitsOnly(y));
        (h + DigitsOnly(x[1..])) + DigitsOnly(y);
        { DigitsOnlyCons(x); }
        DigitsOnly(x) + DigitsOnly(y);
      }
    }
  }

  lemma DropSeparator(a: string, sep: char)
    requires !IsDigit(sep)
    ensures DigitsOnly(a + [sep]) == DigitsOnly(a)
  {
    DigitsOnlyAppend(a, [sep]);
    assert DigitsOnly([sep]) == [] by { assert [sep][1..] == []; }
  }

  /** A phone with ten digits passes whatever separator is typed into it. */
  lemma PhoneIgnoresSeparators(digits: string, sep: char)
    requires |digits| == 10 && AllDigits(digits) && !IsDigit(sep)
    ensures PhoneOk(digits[..3] + [sep] + digits[3..])
  {
    var a, b := digits[..3], digits[3..];
    assert AllDigits(a) && AllDigits(b);
    calc {
      DigitsOnly(a + [sep] + b);
      { DigitsOnlyAppend(a + [sep], b); }
      DigitsOnly(a + [sep]) + DigitsOnly(b);
      { DropSeparator(a, sep); }
      a + b;
    }
  }

  // ----- editing -----

  /** The error is displayed: present and non-empty. */
  predicate ErrorShown(errors: map<Field, string>, k: Field) {
    k in errors && errors[k] != ""
  }

  /** `handleChange`'s effect on the errors: the edited field's error, if
      shown, becomes empty; nothing else changes. */
  function ClearError(errors: map<Field, string>, k: Field): (r: map<Field, string>)
    ensures !ErrorShown(r, k)
    ensures forall g :: g != k ==> (g in r <==> g in errors) && (g in r ==> r[g] == errors[g])
    ensures !ErrorShown(errors, k) ==> r == errors
  {
    if ErrorShown(errors, k) then errors[k := ""] else errors
  }

  /** An edit of one input. */
  datatype Edit = EditItemName(text: string) | EditPhone(text: string)
                | EditAmount(amount: Option<real>) | EditTimeLimit(text: string)

  function EditedField(e: Edit): Field {
    match e
    case EditItemName(_) => ItemName
    case EditPhone(_) => Phone
    case EditAmount(_) => DeliveryAmount
    case EditTimeLimit(_) => TimeLimit
  }

  /** `handleChange`: the input takes the new value and its error is cleared. */
  function Change(f: Form, errors: map<Field, string>, e: Edit): (r: (Form, map<Field, string>))
    ensures r.1 == ClearError(errors, EditedField(e))
    ensures e.EditItemName? ==> r.0 == f.(itemName := e.text)
    ensures e.EditPhone? ==> r.0 == f.(phone := e.text)
    ensures e.EditAmount? ==> r.0 == f.(deliveryAmount := e.amount)
    ensures e.EditTimeLimit? ==> r.0 == f.(timeLimit := e.text)
  {
    var f' := match e
      case EditItemName(t) => f.(itemName := t)
      case EditPhone(t) => f.(phone := t)
      case EditAmount(a) => f.(deliveryAmount := a)
      case EditTimeLimit(t) => f.(timeLimit := t);
    (f', ClearError(errors, EditedField(e)))
  }

  // ----- the inserted row -----

  /** The default time limit, in minutes. */
  const DefaultTimeLimit := 60

  /** `parseInt(timeLimit) || 60`: an unparseable or zero time limit becomes 60. */
  function TimeLimitValue(text: string): (t: int)
    ensures t != 0
    ensures ParseInt(text).Some? && ParseInt(text).value != 0 ==> t == ParseInt(text).value
    ensures ParseInt(text).None? || ParseInt(text) == Some(0) ==> t == DefaultTimeLimit
  {
    match ParseInt(text)
    case Some(n) => if n != 0 then n else DefaultTimeLimit
    case None => DefaultTimeLimit
  }

  /** A non-zero limit typed as its decimal rendering is stored as typed. */
  lemma TimeLimitRoundTrip(n: int)
    requires n != 0
    ensures TimeLimitValue(IntToString(n)) == n
  {
    ParseIntOfIntToString(n);
  }

  /** The row `handleSubmit` inserts for a validated form. The id and the
      timestamps are the database's; `distance` is the Haversine helper. */
  function NewRow(f: Form, senderId: string, distance: (real, real, real, real) -> real): (d: Delivery)
    requires f.deliveryAmount.Some? && f.source.Some? && f.destination.Some?
    ensures Lifecycle.Created(d)
    ensures d.senderId == senderId && d.itemName == f.itemName && d.phone == f.phone
    ensures d.amount == f.deliveryAmount.value && d.timeLimit == TimeLimitValue(f.timeLimit)
    ensures d.source == f.source.value && d.destination == f.destination.value
    ensures d.distance == distance(f.source.value.lat, f.source.value.lng, f.destination.value.lat, f.destination.value.lng)
    ensures d.rating.None? && d.itemVerifiedAt.None? && d.deliveredAt.None? && d.completedAt.None?
  {
    var s := f.source.value;
    var t := f.destination.value;
    Delivery("", senderId, None, f.itemName, f.phone, f.deliveryAmount.value, TimeLimitValue(f.timeLimit),
             s, t, distance(s.lat, s.lng, t.lat, t.lng), Pending, None, None, false,
             None, None, None, None, None, None)
  }

  /** A location is usable for the insert only with truthy coordinates. */
  predicate Located(p: Option<Place>) {
    p.Some? && p.value.lat != 0.0 && p.value.lng != 0.0
  }

  /** What `handleSubmit` did: the error map it left, the row it asked to
      insert, and where it navigated. */
  datatype Submitted = Submitted(errors: map<Field, string>, inserted: Option<Delivery>, leaveTo: Option<string>)

  /** `handleSubmit`. `session` is the outcome of the session and profile
      checks (the user id to insert under, or a failure), `create` that of
      the insert (the new row's id). An invalid form sends nothing; every
      later failure shows the one submit error. */
  function SubmitForm(f: Form, session: Result<string>, create: Result<string>,
                      distance: (real, real, real, real) -> real): (r: Submitted)
    ensures |Validate(f)| > 0 ==> r == Submitted(Validate(f), None, None)
    ensures r.inserted.Some? <==> |Validate(f)| == 0 && Located(f.source) && Located(f.destination) && session.Ok?
    ensures r.inserted.Some? ==> r.inserted.value == NewRow(f, session.value, distance)
    ensures r.leaveTo.Some? <==> r.inserted.Some? && create.Ok?
    ensures r.leaveTo.Some? ==> r.leaveTo.value == "/sender?deliveryId=" + create.value && r.errors == map[]
    ensures |Validate(f)| == 0 && r.leaveTo.None? ==> r.errors == map[Submit := SubmitFailed]
  {
    var errors := Validate(f);
    if |errors| > 0 then Submitted(errors, None, None)
    else
      ValidIffAcceptable(f);
      if !Located(f.source) || !Located(f.destination) || session.Err? then
        Submitted(map[Submit := SubmitFailed], None, None)
      else
        var row := NewRow(f, session.value, distance);
        match create
        case Ok(id) => Submitted(map[], Some(row), Some("/sender?deliveryId=" + id))
        case Err(_) => Submitted(map[Submit := SubmitFailed], Some(row), None)
  }
}

=== FILE: rewards.dfy ===
/** The rewards page (src/pages/Rewards.jsx): the fixed catalogue, when a
    reward can be redeemed, and the balance shown. */
module Rewards {
  import opened Js
  import Persistence

  datatype Reward = Reward(id: int, name: string, points: int)

  /** The catalogue. */
  const Catalogue: seq<Reward> := [
    Reward(1, "Amazon giftcards", 100),
    Reward(2, "xyz", 200),
    Reward(3, "abc", 150),
    Reward(4, "wrt", 300)
  ]

  /** The points a profile holds for comparison: a null balance compares as 0. */
  function Points(p: Persistence.UserProfile): int {
    p.rewardPoints.GetOr(0)
  }

  /** The redeem button is disabled without a profile or when the balance is
      below the reward's cost. */
  predicate RedeemDisabled(profile: Option<Persistence.UserProfile>, cost: int) {
    profile.None? || Points(profile.value) < cost
  }

  /** The button's label. */
  function Label(profile: Option<Persistence.UserProfile>, cost: int): (s: string)
    ensures s == "Insufficient Points" <==> RedeemDisabled(profile, cost)
    ensures s == "Redeem" <==> !RedeemDisabled(profile, cost)
  {
    if RedeemDisabled(profile, cost) then "Insufficient Points" else "Redeem"
  }

  /** The balance shown: the profile's points, or 0 when the profile or its
      points are missing. */
  function DisplayedBalance(profile: Option<Persistence.UserProfile>): (b: int)
    ensures profile.None? || profile.value.rewardPoints.None? ==> b == 0
    ensures profile.Some? && profile.value.rewardPoints.Some? ==> b == profile.value.rewardPoints.value
  {
    if profile.Some? && IntTruthy(profile.value.rewardPoints) then profile.value.rewardPoints.value else 0
  }

  /** With a profile, a reward is redeemable exactly when the shown balance
      covers it; without one nothing is, whatever it costs. */
  lemma DisabledMatchesBalance(profile: Option<Persistence.UserProfile>, cost: int)
    ensures profile.Some? ==> (RedeemDisabled(profile, cost) <==> DisplayedBalance(profile) < cost)
    ensures profile.None? ==> RedeemDisabled(profile, cost) && DisplayedBalance(profile) == 0
  {
  }

  /** Redeemable rewards are closed under lower cost. */
  lemma CheaperStaysEnabled(profile: Option<Persistence.UserProfile>, cost: int, cheaper: int)
    requires cheaper <= cost && !RedeemDisabled(profile, cost)
    ensures !RedeemDisabled(profile, cheaper)
  {
  }

  /** The rewards a profile can redeem. */
  function Redeemable(profile: Option<Persistence.UserProfile>, rewards: seq<Reward>): (r: seq<Reward>)
    ensures forall i :: 0 <= i < |r| ==> r[i] in rewards && !RedeemDisabled(profile, r[i].points)
    ensures forall i :: 0 <= i < |rewards| && !RedeemDisabled(profile, rewards[i].points) ==> rewards[i] in r
  {
    if rewards == [] then []
    else (if !RedeemDisabled(profile, rewards[0].points) then [rewards[0]] else [])
         + Redeemable(profile, rewards[1..])
  }

  /** A balance of 150 unlocks the 100 and 150 rewards, not the 200 and 300 ones. */
  lemma BalanceOf150(p: Persistence.UserProfile)
    requires p.rewardPoints == Some(150)
    ensures Redeemable(Some(p), Catalogue) == [Catalogue[0], Catalogue[2]]
  {
    var c := Catalogue;
    assert c[1..] == [c[1], c[2], c[3]];
    assert c[1..][1..] == [c[2], c[3]];
    assert c[1..][1..][1..] == [c[3]];
    assert c[1..][1..][1..][1..] == [];
    assert Redeemable(Some(p), [c[3]]) == [];
    assert Redeemable(Some(p), [c[2], c[3]]) == [c[2]];
    assert Redeemable(Some(p), [c[1], c[2], c[3]]) == [c[2]];
  }
}

=== FILE: sender.dfy ===
/** The sender's tracking page (src/pages/Sender.jsx): the item-verification,
    receipt-confirmation, dispute and cancel handlers, each together with the
    render guard that offers it, and the status texts of the page. A handler
    is a function from the stored row and the outcome of its backend calls
    and dialogs to the stored row afterwards. */
module SenderView {
  import opened Js
  import opened JsStrings
  import opened Deliveries

  /** What a handler leaves behind: the stored row, the alerts shown in order,
      and the route navigated to, if any. */
  datatype Outcome = Outcome(row: Delivery, alerts: seq<string>, leaveTo: Option<string>)

  // ----- item verification -----

  /** The Accept/Reject panel: the row is accepted, the partner has uploaded
      an item photo, and no verification is in flight. */
  predicate VerifyOffered(d: Delivery, verifying: bool) {
    d.status == Accepted && StrTruthy(d.itemPhotoUrl) && !verifying
  }

  /** The updates sent when the sender accepts the item photo. */
  function AcceptItemPatch(now: int): (p: Patch)
    ensures p.status == Some(PickedUp) && p.itemVerified == Some(true) && p.itemVerifiedAt == Some(now)
    ensures p.(status := None, itemVerified := None, itemVerifiedAt := None) == EmptyPatch
  {
    EmptyPatch.(status := Some(PickedUp), itemVerified := Some(true), itemVerifiedAt := Some(now))
  }

  /** The updates sent when the sender rejects the item photo: the status is
      written back as it is, and nothing else is sent. */
  const RejectItemPatch: Patch := SetStatus(Accepted)

  const VerifiedAlert := "Item verified! Delivery partner is now heading to destination."
  const RejectedAlert := "Item verification rejected. Please contact the delivery partner."
  const VerifyFailedAlert := "Failed to verify item"

  /** `handleVerifyItem(accepted)` behind its guard; `None` when the panel is not
      offered. `write` is the outcome of the one update call. */
  function VerifyItem(d: Delivery, verifying: bool, accepted: bool, now: int, write: Write): (r: Option<Outcome>)
    ensures r.Some? <==> VerifyOffered(d, verifying)
    ensures r.Some? && write.Failed? ==> r.value.row == d
    ensures r.Some? && accepted && write.Done? ==>
      && r.value.row.status == PickedUp
      && r.value.row.itemVerified
      && r.value.row.itemVerifiedAt == Some(now)
      && r.value.row.updatedAt == Some(now)
      && r.value.row.(status := d.status, itemVerified := d.itemVerified,
                      itemVerifiedAt := d.itemVerifiedAt, updatedAt := d.updatedAt) == d
    ensures r.Some? && !accepted && write.Done? ==> r.value.row == d.(updatedAt := Some(now))
    ensures r.Some? ==> r.value.leaveTo.None?
    ensures r.Some? && !accepted ==> |r.value.alerts| > 0 && r.value.alerts[0] == RejectedAlert
  {
    if !VerifyOffered(d, verifying) then None
    else
      var patch := if accepted then AcceptItemPatch(now) else RejectItemPatch;
      var before := if accepted then [] else [RejectedAlert];
      match write
      case Done => Some(Outcome(Update(d, patch, now), before + (if accepted then [VerifiedAlert] else []), None))
      case Failed(_) => Some(Outcome(d, before + [VerifyFailedAlert], None))
  }

  /** `handleVerifyItem` as its rejection message implies it should behave:
      a rejected photo is also removed, so the partner is asked for a new one.
      Acceptance and failures are as in `VerifyItem`. */
  function VerifyItemIntended(d: Delivery, verifying: bool, accepted: bool, now: int, write: Write): (r: Option<Outcome>)
    ensures r.Some? <==> VerifyOffered(d, verifying)
    ensures r.Some? && (accepted || write.Failed?) ==> r == VerifyItem(d, verifying, accepted, now, write)
    ensures r.Some? && !accepted && write.Done? ==>
      && r.value.row == d.(itemPhotoUrl := None, updatedAt := Some(now))
      && r.value.row.status == Accepted
      && !VerifyOffered(r.value.row, false)
  {
    var o := VerifyItem(d, verifying, accepted, now, write);
    if o.Some? && !accepted && write.Done? then Some(o.value.(row := o.value.row.(itemPhotoUrl := None))) else o
  }

  // ----- receipt confirmation and dispute -----

  /** The Confirm Received / Item Not Received panel: the row is delivered and a
      delivery photo exists. */
  predicate ConfirmOffered(d: Delivery) {
    d.status == Delivered && StrTruthy(d.deliveryPhotoUrl)
  }

  function ConfirmPatch(now: int): (p: Patch)
    ensures p.status == Some(Completed) && p.completedAt == Some(now)
    ensures p.(status := None, completedAt := None) == EmptyPatch
  {
    EmptyPatch.(status := Some(Completed), completedAt := Some(now))
  }

  /** The retry sent when the first write's error mentions `completed_at`. */
  function ConfirmFallbackPatch(now: int): (p: Patch)
    ensures p.status == Some(Completed) && p.deliveredAt == Some(now)
    ensures p.(status := None, deliveredAt := None) == EmptyPatch
  {
    EmptyPatch.(status := Some(Completed), deliveredAt := Some(now))
  }

  function CompletionRoute(deliveryId: string): string {
    "/completion?deliveryId=" + deliveryId
  }

  /** The alert after a failed confirmation; an error without a message reads "Unknown error". */
  function ConfirmFailedAlert(message: string): (a: string)
    ensures Truthy(message) ==> a == "Failed to confirm delivery: " + message
    ensures !Truthy(message) ==> a == "Failed to confirm delivery: Unknown error"
  {
    "Failed to confirm delivery: " + OrDefault(Some(message), "Unknown error")
  }

  /** `handleConfirmDelivery` behind its guard. `first` is the outcome of the
      update with `completed_at`; `second` that of the retry with
      `delivered_at`, consulted only when the first error mentions
      `completed_at`. */
  function ConfirmDelivery(d: Delivery, now: int, first: Write, second: Write): (r: Option<Outcome>)
    ensures r.Some? <==> ConfirmOffered(d)
    ensures r.Some? && first.Done? ==>
      r.value.row == Update(d, ConfirmPatch(now), now) && r.value.row.completedAt == Some(now)
    ensures r.Some? && first.Failed? && Includes(first.message, "completed_at") && second.Done? ==>
      r.value.row == Update(d, ConfirmFallbackPatch(now), now) && r.value.row.deliveredAt == Some(now)
    ensures r.Some? ==> (r.value.row.status == Completed <==> r.value.leaveTo.Some?)
    ensures r.Some? && r.value.leaveTo.Some? ==> r.value.leaveTo.value == CompletionRoute(d.id)
    ensures r.Some? && r.value.leaveTo.None? ==> r.value.row == d && |r.value.alerts| == 1
    ensures r.Some? && first.Failed? && !Includes(first.message, "completed_at") ==>
      r.value == Outcome(d, [ConfirmFailedAlert(first.message)], None)
  {
    if !ConfirmOffered(d) then None
    else
      match first
      case Done => Some(Outcome(Update(d, ConfirmPatch(now), now), [], Some(CompletionRoute(d.id))))
      case Failed(m) =>
        if Includes(m, "completed_at") then
          match second
          case Done => Some(Outcome(Update(d, ConfirmFallbackPatch(now), now), [], Some(CompletionRoute(d.id))))
          case Failed(m2) => Some(Outcome(d, [ConfirmFailedAlert(m2)], None))
        else
          Some(Outcome(d, [ConfirmFailedAlert(m)], None))
  }

  const DisputePatch: Patch := SetStatus(Disputed)
  const DisputeOpenedAlert := "Dispute opened. Please resolve via chat or contact support."
  const DisputeFailedAlert := "Failed to open dispute"

  /** `handleDispute` behind its guard: nothing happens unless the dialog is
      confirmed, and then only the status is written. */
  function Dispute(d: Delivery, confirmed: bool, now: int, write: Write): (r: Option<Outcome>)
    ensures r.Some? <==> ConfirmOffered(d)
    ensures r.Some? && !confirmed ==> r.value == Outcome(d, [], None)
    ensures r.Some? && confirmed && write.Done? ==>
      r.value.row == d.(status := Disputed, updatedAt := Some(now))
    ensures r.Some? && write.Failed? ==> r.value.row == d
    ensures r.Some? ==> r.value.leaveTo.None?
  {
    if !ConfirmOffered(d) then None
    else if !confirmed then Some(Outcome(d, [], None))
    else
      match write
      case Done => Some(Outcome(Update(d, DisputePatch, now), [DisputeOpenedAlert], None))
      case Failed(_) => Some(Outcome(d, [DisputeFailedAlert], None))
  }

  // ----- cancellation -----

  /** The cancel button is rendered for every status but completed and cancelled. */
  predicate CancelShown(s: Status) {
    s != Completed && s != Cancelled
  }

  /** The statuses `handleCancel` is willing to cancel from. */
  predicate Cancellable(s: Status) {
    s == Pending || s == Accepted || s == PickedUp || s == InTransit
  }

  /** The item has been verified: cancelling now is an emergency. */
  predicate Emergency(s: Status) {
    s == PickedUp || s == InTransit
  }

  const RefusedAlert := "Delivery cannot be cancelled in current status"
  const EmergencyReason := "Emergency cancellation by sender"
  const PlainReason := "Cancelled by sender"

  const PendingPrompt := "Are you sure you want to cancel this delivery request?"
  const AcceptedPrompt := "Delivery partner is on the way. Cancel anyway? You may need to negotiate cancellation charges in chat."
  const EmergencyPrompt := "Item verification is complete. Emergency cancellation may cause disputes. Are you sure you want to cancel?"

  /** The confirmation text asked before cancelling from a cancellable status. */
  function CancelPrompt(s: Status): (m: string)
    requires Cancellable(s)
    ensures m == EmergencyPrompt <==> Emergency(s)
  {
    assert |PendingPrompt| != |EmergencyPrompt| && |AcceptedPrompt| != |EmergencyPrompt|;
    if s == Pending then PendingPrompt
    else if s == Accepted then AcceptedPrompt
    else EmergencyPrompt
  }

  /** The reason sent to the cancel endpoint. */
  function CancelReason(s: Status): (m: string)
    ensures m == EmergencyReason <==> Emergency(s)
    ensures m == PlainReason <==> !Emergency(s)
  {
    if Emergency(s) then EmergencyReason else PlainReason
  }

  /** The body of `PUT /api/deliveries/{id}/cancel`. */
  datatype CancelRequest = CancelRequest(deliveryId: string, reason: string, cancelledBy: string)

  /** What `handleCancel` did: the dialog it asked, the request it sent, the
      alerts it showed, and where it navigated. The row itself is changed by
      the cancel endpoint, outside this client. */
  datatype CancelOutcome = CancelOutcome(prompt: Option<string>, request: Option<CancelRequest>,
                                         alerts: seq<string>, leaveTo: Option<string>)

  /** The alert after a failed cancel request. */
  function CancelFailedAlert(message: string): string {
    "Failed to cancel delivery: " + OrDefault(Some(message), "Unknown error")
  }

  /** `handleCancel` behind its guard. `user` is the signed-in user's id,
      `confirmed` the dialog's answer, and `reply` the endpoint's outcome:
      `Ok(b)` where `b` says whether the response carried data, or the error
      message. */
  function SenderCancel(d: Delivery, user: Option<string>, confirmed: bool, reply: Result<bool>): (r: Option<CancelOutcome>)
    ensures r.Some? <==> CancelShown(d.status)
    ensures r.Some? && r.value.request.Some? <==> CancelShown(d.status) && user.Some? && Cancellable(d.status) && confirmed
    ensures r.Some? && r.value.request.Some? ==>
      r.value.request.value == CancelRequest(d.id, CancelReason(d.status), user.value)
    ensures r.Some? && user.Some? && !Cancellable(d.status) ==> r.value == CancelOutcome(None, None, [RefusedAlert], None)
    ensures r.Some? ==> (r.value.prompt.Some? <==> user.Some? && Cancellable(d.status))
    ensures r.Some? && r.value.prompt.Some? ==> r.value.prompt.value == CancelPrompt(d.status)
    ensures r.Some? ==> (r.value.leaveTo.Some? <==> r.value.request.Some? && reply == Ok(true))
    ensures r.Some? && r.value.leaveTo.Some? ==> r.value.leaveTo.value == "/"
  {
    if !CancelShown(d.status) then None
    else if user.None? then Some(CancelOutcome(None, None, [], None))
    else if !Cancellable(d.status) then Some(CancelOutcome(None, None, [RefusedAlert], None))
    else
      var prompt := Some(CancelPrompt(d.status));
      if !confirmed then Some(CancelOutcome(prompt, None, [], None))
      else
        var request := Some(CancelRequest(d.id, CancelReason(d.status), user.value));
        match reply
        case Ok(data) =>
          if data then Some(CancelOutcome(prompt, request, ["Delivery cancelled successfully"], Some("/")))
          else Some(CancelOutcome(prompt, request, [], None))
        case Err(m) => Some(CancelOutcome(prompt, request, [CancelFailedAlert(m)], None))
  }

  /** The cancel button's label. */
  function CancelLabel(s: Status): (l: string)
    ensures l == "Emergency Cancel" <==> Emergency(s)
    ensures l == "Cancel Delivery" <==> s == Accepted
    ensures l == "Cancel Request" <==> !Emergency(s) && s != Accepted
  {
    if Emergency(s) then "Emergency Cancel"
    else if s == Accepted then "Cancel Delivery"
    else "Cancel Request"
  }

  // ----- what the page shows -----

  /** The chat panel is mounted once a partner is involved and the request is not cancelled. */
  predicate ChatShown(s: Status) {
    s != Pending && s != Cancelled
  }

  /** The status bar's text: a status missing from the table shows its stored name. */
  function StatusText(s: Status): (t: string)
    ensures s == PickedUp ==> t == WireName(s)
    ensures s != PickedUp ==> t != WireName(s)
  {
    match s
    case Pending => "Waiting for delivery partner"
    case Accepted => "Partner on the way to pickup"
    case Verified => "Delivery in progress"
    case InTransit => "Delivery in progress"
    case Delivered => "Awaiting confirmation"
    case Completed => "Completed"
    case Cancelled => "Cancelled"
    case Disputed => "Disputed"
    case PickedUp => WireName(PickedUp)
  }

  /** Whether each panel of the page is shown, as one record. */
  datatype Panels = Panels(verify: bool, confirm: bool, chat: bool, cancel: bool)

  function PanelsFor(d: Delivery, verifying: bool): Panels {
    Panels(d.status == Accepted && StrTruthy(d.itemPhotoUrl), ConfirmOffered(d), ChatShown(d.status), CancelShown(d.status))
  }

  /** The chat is hidden exactly for pending and cancelled rows, and the cancel
      button exactly for completed and cancelled ones; the verification and
      confirmation panels are never shown together. */
  lemma PanelsAgree(d: Delivery, verifying: bool)
    ensures !PanelsFor(d, verifying).chat <==> d.status in {Pending, Cancelled}
    ensures !PanelsFor(d, verifying).cancel <==> d.status in {Completed, Cancelled}
    ensures !(PanelsFor(d, verifying).verify && PanelsFor(d, verifying).confirm)
    ensures PanelsFor(d, verifying).confirm ==> PanelsFor(d, verifying).chat && PanelsFor(d, verifying).cancel
  {
  }

  /** A shown cancel button can still be refused: delivered, disputed and
      verified rows show the button, but the handler declines to cancel them. */
  lemma CancelShownButRefused(s: Status)
    ensures CancelShown(s) && !Cancellable(s) <==> s == Delivered || s == Disputed || s == Verified
  {
  }
}

=== FILE: seqs.dfy ===
/** The array operations the client uses on fetched rows and message lists:
    `filter`, `slice(0, k)`, a descending `sort` by an integer key, and
    `[...new Set(xs)]`. */
module Seqs {

  /** `s.filter(p)`: the elements satisfying `p`, in their original order. */
  function Filter<T>(s: seq<T>, p: T -> bool): (r: seq<T>)
    ensures |r| <= |s|
    ensures forall i :: 0 <= i < |r| ==> p(r[i])
    ensures forall i :: 0 <= i < |r| ==> r[i] in s
    ensures forall i :: 0 <= i < |s| && p(s[i]) ==> s[i] in r
    ensures multiset(r) <= multiset(s)
  {
    if s == [] then []
    else
      var init := s[..|s| - 1];
      var last := s[|s| - 1];
      assert s == init + [last];
      Filter(init, p) + (if p(last) then [last] else [])
  }

  /** Filtering distributes over appending one element. */
  lemma FilterSnoc<T>(s: seq<T>, x: T, p: T -> bool)
    ensures Filter(s + [x], p) == Filter(s, p) + (if p(x) then [x] else [])
  {
    assert (s + [x])[..|s + [x]| - 1] == s;
  }

  /** Every element satisfies `p`: filtering changes nothing. */
  lemma {:induction false} FilterAll<T>(s: seq<T>, p: T -> bool)
    requires forall i :: 0 <= i < |s| ==> p(s[i])
    ensures Filter(s, p) == s
  {
    if s != [] {
      var init, last := s[..|s| - 1], s[|s| - 1];
      forall i | 0 <= i < |init| ensures p(init[i]) {
        assert init[i] == s[i];
      }
      assert s == init + [last];
      calc {
        Filter(s, p);
        { FilterSnoc(init, last, p); }
        Filter(init, p) + [last];
        { FilterAll(init, p); }
        init + [last];
      }
    }
  }

  /** When no element satisfies `p`, filtering leaves nothing. */
  lemma FilterNone<T>(s: seq<T>, p: T -> bool)
    requires forall j :: 0 <= j < |s| ==> !p(s[j])
    ensures Filter(s, p) == []
  {
  }

  /** The head of a filtered sequence is the first element satisfying `p`. */
  lemma {:induction false} FilterFirst<T>(s: seq<T>, p: T -> bool, i: int)
    requires 0 <= i < |s| && p(s[i])
    requires forall j :: 0 <= j < i ==> !p(s[j])
    ensures |Filter(s, p)| > 0 && Filter(s, p)[0] == s[i]
  {
    var init := s[..|s| - 1];
    if i < |s| - 1 {
      FilterFirst(init, p, i);
    } else {
      FilterNone(init, p);
    }
  }

  function Min(a: int, b: int): int {
    if a <= b then a else b
  }

  /** `s.slice(0, k)`. */
  function Take<T>(s: seq<T>, k: nat): (r: seq<T>)
    ensures |r| == Min(k, |s|)
    ensures r == s[..|r|]
  {
    if |s| <= k then s else s[..k]
  }

  /** The keys never increase along `s`. */
  predicate SortedDesc<T>(s: seq<T>, key: T -> int) {
    forall i, j :: 0 <= i < j < |s| ==> key(s[i]) >= key(s[j])
  }

  /** Place `x` in front of the first element whose key does not exceed its own. */
  function InsertDesc<T>(x: T, s: seq<T>, key: T -> int): (r: seq<T>)
    requires SortedDesc(s, key)
    ensures SortedDesc(r, key)
    ensures multiset(r) == multiset(s) + multiset{x}
    ensures |r| == |s| + 1
  {
    if s == [] then [x]
    else if key(x) >= key(s[0]) then [x] + s
    else
      var rest := InsertDesc(x, s[1..], key);
      InsertBehindHead(x, s, rest, key);
      [s[0]] + rest
  }

  /** The head of `s`, put back in front of `x` inserted into the tail,
      keeps the sequence sorted and holds `s` and `x`. */
  lemma InsertBehindHead<T>(x: T, s: seq<T>, rest: seq<T>, key: T -> int)
    requires s != [] && SortedDesc(s, key) && key(x) < key(s[0])
    requires SortedDesc(rest, key) && multiset(rest) == multiset(s[1..]) + multiset{x}
    ensures SortedDesc([s[0]] + rest, key)
    ensures multiset([s[0]] + rest) == multiset(s) + multiset{x}
  {
    var tail := s[1..] + [x];
    assert multiset(tail) == multiset(s[1..]) + multiset{x};
    forall i | 0 <= i < |tail| ensures key(tail[i]) <= key(s[0]) {
      if i < |s| - 1 {
        assert tail[i] == s[i + 1];
      }
    }
    UpperBound(rest, tail, key, key(s[0]));
    var r := [s[0]] + rest;
    forall i, j | 0 <= i < j < |r| ensures key(r[i]) >= key(r[j]) {
      assert r[j] == rest[j - 1];
      if i > 0 {
        assert r[i] == rest[i - 1];
      }
    }
    assert s == [s[0]] + s[1..];
  }

  /** A bound on the keys of `b` holds for every permutation of `b`. */
  lemma UpperBound<T>(a: seq<T>, b: seq<T>, key: T -> int, bound: int)
    requires multiset(a) == multiset(b)
    requires forall i :: 0 <= i < |b| ==> key(b[i]) <= bound
    ensures forall i :: 0 <= i < |a| ==> key(a[i]) <= bound
  {
    forall i | 0 <= i < |a|
      ensures key(a[i]) <= bound
    {
      assert a[i] in multiset(b);
      var j :| 0 <= j < |b| && b[j] == a[i];
    }
  }

  /** A descending sort, as with the comparator `(a, b) => key(b) - key(a)`:
      the order it gives elements with equal keys is not stated. */
  function SortDesc<T>(s: seq<T>, key: T -> int): (r: seq<T>)
    ensures SortedDesc(r, key)
    ensures multiset(r) == multiset(s)
    ensures |r| == |s|
  {
    if s == [] then []
    else
      assert s == [s[0]] + s[1..];
      InsertDesc(s[0], SortDesc(s[1..], key), key)
  }

  /** Two sequences with the same elements, counted with multiplicity, hold the same members. */
  lemma SameMembers<T>(a: seq<T>, b: seq<T>)
    requires multiset(a) == multiset(b)
    ensures forall i :: 0 <= i < |a| ==> a[i] in b
    ensures forall i :: 0 <= i < |b| ==> b[i] in a
  {
    forall i | 0 <= i < |a|
      ensures a[i] in b
    {
      assert a[i] in multiset(b);
    }
    forall i | 0 <= i < |b|
      ensures b[i] in a
    {
      assert b[i] in multiset(a);
    }
  }

  /** `s.filter(p).sort((a, b) => key(b) - key(a))`: the selected elements, largest key first. */
  function SortedFilter<T>(s: seq<T>, p: T -> bool, key: T -> int): (r: seq<T>)
    ensures forall i :: 0 <= i < |r| ==> p(r[i]) && r[i] in s
    ensures forall i :: 0 <= i < |s| && p(s[i]) ==> s[i] in r
    ensures multiset(r) == multiset(Filter(s, p))
    ensures SortedDesc(r, key)
  {
    var f := Filter(s, p);
    var r := SortDesc(f, key);
    SameMembers(r, f);
    r
  }

  /** `[...new Set(s)]`: each element of `s` once (the order is not stated). */
  function Dedupe<T(==)>(s: seq<T>): (r: seq<T>)
    ensures forall i :: 0 <= i < |r| ==> r[i] in s
    ensures forall i :: 0 <= i < |s| ==> s[i] in r
    ensures forall i, j :: 0 <= i < j < |r| ==> r[i] != r[j]
    ensures |r| <= |s|
  {
    if s == [] then []
    else
      var init := s[..|s| - 1];
      var last := s[|s| - 1];
      assert s == init + [last];
      var p := Dedupe(init);
      if last in p then p else p + [last]
  }
}
